=== FILE: README.md ===
# SAGA target selection, modelled in Dafny

This project models the selection and bookkeeping core of the SAGA
("Satellites Around Galactic Analogs") survey code:

- the consolidation of the host master list from HyperLEDA, EDD, KK, 2MASS,
  NSA and 6dF (`masterlist/masterlist.py`);
- the SDSS target selection around one host (`targeting.py`);
- the WIYN/Hydra master catalogs, fiber-orientation (FOP) stars and the
  removal of targets that already have a fiber (`wiyn.py`);
- the MMT/Hectospec catalog, with its ranks, fiber magnitude cuts, flux and
  guide stars, and the configuration-file reader (`mmthecto.py`).

Catalog tables are sequences of immutable rows. A masked cell is an `Option`
and a boolean mask is a `seq<bool>`. Boolean indexing (`cat[msk]`) is
`Masks.Select`; every mask is proved equal to `Masks.Filter`, the
order-preserving filter by a row predicate. A raised exception is a
`Failure` of `Wrappers.Result`.

The following are parameters of the model and are not computed:

- every sky match, given as (index, distance) arrays;
- the angular distance `rhost` of each SDSS object from its host;
- the host's degrees per kpc;
- the distance modulus and the luminosity distance;
- the formatted RA/Dec strings;
- the random generator (`draw`), which drives a Fisher-Yates shuffle.

Modules follow the source:

- `Wrappers`, `Masks`, `Fallback`, `Text` and `Join` are shared vocabulary: Option/Result, masks, fallback chains, Python string operations and an outer join on a key.
- `PgcMatch` and `MasterList` cover `masterlist.py`.
- `Targeting`, `Wiyn` and `Hectospec` cover the other three files.

## Model

| member | source | states |
|---|---|---|
| Join.OuterJoinContents | masterlist/masterlist.py:182-190 | every left row and every right row appears in the outer join on the key, and every joined row pairs rows of the inputs with equal keys or stands alone when its key has no partner |
| PgcMatch.CandidateKeys | masterlist/masterlist.py:222-225 | an NSA row gets the PGC number of its nearest located LEDA row when the match distance is below the tolerance, and 0 otherwise |
| PgcMatch.ResolveDuplicates | masterlist/masterlist.py:235-241 | the loop over multiply claimed keys yields, for every row, the reference resolution: a claim survives only in the first row that minimises `dupval` among the rows claiming the same key |
| PgcMatch.ResolvedUnique | masterlist/masterlist.py:227-241 | after resolution each positive PGC number is held by at most one NSA row |
| PgcMatch.ResolvedKeepsEveryKey | masterlist/masterlist.py:236-241 | resolution loses no PGC number: every claimed key is still held by some row |
| PgcMatch.ResolvedIdempotent | masterlist/masterlist.py:227-241 | resolving an already resolved assignment changes nothing |
| PgcMatch.AssignPgc | masterlist/masterlist.py:222-246 | with dedup switched on, the assignment raises exactly when a candidate key is negative (`np.bincount` rejects it); otherwise every row gets its resolved key, or -1 when it has none |
| PgcMatch.Sentinel | masterlist/masterlist.py:246 | the non-matches (0) become -1, and every other key is unchanged |
| PgcMatch.AddNsa | masterlist/masterlist.py:193-259 | every NSA row survives the outer join, under the PGC number it was assigned and with its own match distance; every NSA part of the joined table is such a row, and its distance is within tolerance unless its key is -1; every master row survives too; the function fails exactly when the key assignment does |
| MasterList.MergedRa | masterlist/masterlist.py:287-290 | RA is the NSA value when present, else the LEDA `al2000` converted from hours to degrees |
| MasterList.MergedDec | masterlist/masterlist.py:289-290 | Dec is the NSA value when present, else LEDA `de2000` |
| Fallback.OverwriteIsLastPresent | masterlist/masterlist.py:309-311 | a chain of masked overwrites ends with the last present source: the first present one in reverse order |
| MasterList.MergedName | masterlist/masterlist.py:301-311 | the other name is the 2MASS name, else LEDA's, else KK's, else EDD's, so the last source in `nameorder` wins |
| MasterList.MergedVelocity | masterlist/masterlist.py:318-335 | the velocity is KK's, else NSA's `Z·c`, else EDD's, else LEDA's, so KK wins whenever present |
| MasterList.VelocityPriority | masterlist/masterlist.py:318-335 | a present KK velocity is the result, and the velocity is masked exactly when all four sources are |
| Fallback.FillIsFirstPresent | masterlist/masterlist.py:349-355 | filling only masked cells from successive sources gives the first present value of the chain |
| MasterList.MergedDistance | masterlist/masterlist.py:342-355 | the distance is EDD's where `So_eddkk == 1`, else NSA's `ZDIST·c/H0`, else KK's, else masked |
| MasterList.DistancePriority | masterlist/masterlist.py:342-355 | EDD flagged distances win; without one a present `ZDIST` gives the Hubble-flow distance; otherwise the KK distance is the result |
| MasterList.SimplifyRow | masterlist/masterlist.py:283-385 | one simplified row: position, names, velocity and distance chains; PGC masked exactly when negative; r/i/z present exactly when the absolute magnitude is and the distance is present and positive, and then equal to absolute magnitude plus distance modulus; NSAID, I, K, K error and the two SFRs passed through; stellar mass rescaled by h^-2 |
| MasterList.FilterCatalog | masterlist/masterlist.py:457-470 | the kept rows are the rows, in order, with RA and Dec, with a distance or a velocity, below `vcut` when it is given, and with i, z, I or K when NIR photometry is required |
| MasterList.FilterCatalogExact | masterlist/masterlist.py:457-470 | a row is in the output exactly when it is in the input and meets the criteria, and the output is a sub-multiset of the input |
| MasterList.AddTwoMassXsc | masterlist/masterlist.py:489-507 | rows that have K are unchanged; a row without K takes the K and K error of its XSC match when that match is within tolerance, and otherwise keeps K and its error masked |
| MasterList.KeepMaskCount | masterlist/masterlist.py:844-845 | the keep mask masks out exactly the distinct rows named by the match indices |
| MasterList.RemoveFromList | masterlist/masterlist.py:835-847 | the removal raises exactly when errors are requested and some remove-list entry is farther than the tolerance; otherwise it drops exactly the rows some entry names and keeps the others in order |
| MasterList.UnmatchedEntries | masterlist/masterlist.py:526-543 | the rows built for 6dF galaxies are exactly those of the galaxies with no catalog row within tolerance |
| MasterList.AppendUnmatched | masterlist/masterlist.py:526-545 | the catalog is kept as a prefix and followed by one new row per 6dF galaxy without a match within tolerance |
| MasterList.FillVelocities | masterlist/masterlist.py:550-557 | after the update, each row equals the reference definition: its velocity is filled from the last 6dF galaxy matched to it within tolerance, and only when it had none |
| MasterList.VelocityFilledOnlyFills | masterlist/masterlist.py:550-557 | the velocity update changes no column but `vhelio`, never overwrites a present velocity, and leaves it masked exactly when it was masked and no 6dF galaxy matched |
| MasterList.AddSixdf | masterlist/masterlist.py:512-559 | `add_6df` is the append step followed by the velocity fill on the extended table |
| Targeting.CutRadiusUnits | targeting.py:320-336 | a negative radius (arcmin) gives a positive angle that does not depend on the host and grows as the radius gets more negative; a non-negative radius (kpc) gives a non-negative angle that grows with the radius |
| Targeting.ArcminCutIgnoresDistance | targeting.py:320-327 | an outer cut given in arcmin keeps the same rows whatever the host's distance |
| Targeting.StageMask | targeting.py:303-348 | the mask before the overrides keeps a row exactly when it passes the magnitude band, the type gate, the outer and inner cuts that are set and, when requested, the photometric flags |
| Targeting.StagesOnlyNarrow | targeting.py:312-348 | switching on the outer cut, the inner cut or the flag cut never re-includes a row and never increases the number of rows |
| Targeting.SelectionMaskMeaning | targeting.py:350-364 | after the overrides, a spectroscopic QSO is in exactly when QSOs are included; a spectroscopic star or high-z galaxy is out when its removal is on; any other row is in exactly when it passes the stages |
| Targeting.QsoOverride | targeting.py:353-354 | every QSO row is forced to the value of `inclspecqsos`, whatever the stages decided |
| Targeting.SelectionIsFilter | targeting.py:366 | boolean indexing with the final mask keeps exactly the selected rows, in catalog order |
| Masks.Shuffle | targeting.py:367-368 | the randomised catalog is a permutation of the selected rows |
| Targeting.SelectTargets | targeting.py:253-370 | without randomisation the result is the selected rows in order; with it, the same multiset; either way an object is in the result exactly when it is in the catalog and selected |
| Targeting.ConstructSdssQuery | targeting.py:107-117 | without a target table the query has no INTO clause and uses the `dbo.` prefix; with one it writes `INTO mydb.<table>` without the prefix; the radius goes out in arcmin |
| Wiyn.FopMaskIsFilter | wiyn.py:50-55 | the FOP mask keeps exactly the stars with both R magnitudes measured and the second-epoch R strictly between the limits |
| Wiyn.SelectFops | wiyn.py:46-59 | the FOP candidates in catalog order, or a permutation of them; a star is in the result exactly when it is in the catalog and is a FOP |
| Wiyn.Truncate | wiyn.py:158-166 | a block keeps its first rows, at most the limit of them |
| Wiyn.MasterEntries | wiyn.py:158-201 | the master catalog has the center and the host, then at most 1999 targets, 2000 FOPs and 2000 sky points |
| Wiyn.MasterEntriesNumbering | wiyn.py:175-201 | the identifiers are strictly increasing from 1 and stay below 10000, so every line passes the identifier check |
| Wiyn.MasterEntriesLayout | wiyn.py:175-201 | the center is 1 with code C, the host 1000 with code O, target k is 2000+k, FOP k is 5000+k shifted by the offset, and sky point k is 8000+k named `sky{k+1}` |
| Wiyn.MasterCatalogRenders | wiyn.py:173-202 | writing the lines of the master catalog never raises: every entry it numbers renders as a line |
| Wiyn.TrimName | wiyn.py:214-216 | a name longer than 20 characters is cut to its first 20, a shorter one is kept |
| Wiyn.WhydraFileLineAsWritten | wiyn.py:210-228 | the line raises exactly when the identifier exceeds 9999 or the code is not a substring of `COSFE`; otherwise it starts with the four-digit identifier |
| Wiyn.WhydraFileLine | wiyn.py:210-228 | the line raises exactly when the identifier exceeds 9999 or the code is not one of the letters C, O, S, F, E |
| Wiyn.ValidCodeIsSubstring | wiyn.py:218 | every code the corrected guard accepts passes the substring guard |
| Wiyn.LineReadsBack | wiyn.py:264-270 | a rendered line reads back, field by field, as its identifier, its display name and its code |
| Wiyn.EmptyCodeBreaksReadBack | wiyn.py:218 | the substring guard accepts the empty code, and the line it then writes has only four fields, so reading it back fails |
| Text.FormatIdRoundTrip | wiyn.py:227 | `'{i:04}'` read back with `int()` gives `i` again |
| Wiyn.ReadCatalogLine | wiyn.py:265-270 | reading a catalog line fails exactly when it has fewer than five fields or a non-integer first field; otherwise it keeps the line, its parsed identifier, its name and its code |
| Wiyn.ReadHydraLine | wiyn.py:277-291 | lines without a status or with OK/EDGE queue nothing; a line with an integer status raises when it has fewer than nine fields; it queues its identifier and name exactly when its ninth field is O and its identifier is an integer |
| Wiyn.ReadHydraLines | wiyn.py:277-291 | one file's queue holds exactly the entries its lines queue, and reading fails exactly when some line raises |
| Wiyn.HydraQueueInOrder | wiyn.py:277-291 | one file's queue is the entry of its first line, if any, followed by the queue of the remaining lines, so the entries stay in line order |
| Wiyn.ReadHydraFiles | wiyn.py:275-291 | the removal queue holds exactly the entries the lines of the files queue, and reading fails exactly when some line raises |
| Wiyn.HydraFilesInOrder | wiyn.py:275-291 | the removal queue is the first file's queue followed by the queue of the remaining files |
| Wiyn.RemainingKeys | wiyn.py:297-312 | the kept keys are the catalog's keys with the queue taken out, as multisets |
| Wiyn.RemainingCount | wiyn.py:297-312 | each queued entry removes at most one line |
| Wiyn.RemovalMaskMeaning | wiyn.py:295-312 | with distinct names a line is removed exactly when its name is queued; otherwise the first lines carrying a queued identifier are removed, as many as it is queued |
| Wiyn.ReprocessMasterCatalog | wiyn.py:231-314 | the result is the master catalog lines, in order, that survive the removal mask, and at most one line fewer per queued entry; it fails exactly when reading the catalog or a `.hydra` file raises |
| Hectospec.TargetsConfig | mmthecto.py:56-66 | the target selection goes down to the secondary limit; the outer cut is dropped exactly when outer targets are used; the inner cut is 20 kpc; band, bright limit, galaxy cutoff, flag cut and randomisation keep the `select_targets` defaults; the three spectroscopic switches are passed through |
| Hectospec.SingleLimitAllPrimary | mmthecto.py:50-66 | with a single target limit every selected target that is not a spectroscopic QSO is a primary, so it ranks 3, or 4 beyond the outer radius |
| Hectospec.FiberCuts | mmthecto.py:79-97 | the fiber cuts keep a target exactly when it is primary and fiber-bright enough, or strictly secondary and fiber-bright enough, and above the fiber bright limit; absent limits skip their cut |
| Hectospec.FiberCutsFilter | mmthecto.py:87-97 | the faint cut and then the bright cut, applied as masks, equal one filter by both |
| Hectospec.TargetRanks | mmthecto.py:100-105 | one rank per target, in target order; every rank lies between 3 and the secondary rank plus one, after the host's 2; a target ranks 3 exactly when it is primary and inside the outer radius, and ranks last (secondary rank plus one) exactly when it is secondary and beyond the outer radius |
| Hectospec.RankOrderOuter | mmthecto.py:36-104 | with the rank constants of lines 36-39 and the rank computation of lines 100-104, and outer targets in use, ranks order inner primaries (3), outer primaries (4), inner secondaries (5), outer secondaries (6) |
| Hectospec.RankInner | mmthecto.py:100-104 | without outer targets, a target inside the outer radius ranks 3 when primary and 4 when secondary |
| Hectospec.InnerRanksWithoutOuterTargets | mmthecto.py:56-104 | without outer targets every selected target except a spectroscopic QSO lies inside the outer cut, so it ranks 3 or 4 |
| Hectospec.ColorCutMask | mmthecto.py:111-123 | a target passes the colour mask exactly when every colour lies strictly between its bounds, an absent bound being unbounded |
| Hectospec.SelectFluxStars | mmthecto.py:189-245 | the flux stars are the stars, in order, inside the standard-star colour box, with g in one of the two windows and r strictly inside the range; a star with g exactly 17 is never one |
| Hectospec.SelectGuideStars | mmthecto.py:247-254 | the guide stars are the stars, in order, with r strictly inside the range, and the order of the range's ends does not matter |
| Hectospec.FluxEntriesAt | mmthecto.py:154-162 | copy `i` of flux star `j` is entry `j·repeatflux + i`, named `<objID>_<i+1>` with the flux rank |
| Hectospec.AssembleCatalog | mmthecto.py:135-174 | the rows are the targets with their ranks, then every flux star `repeatflux` times with the flux rank, then the guide stars without a rank |
| Hectospec.GenerateCatalog | mmthecto.py:126-186 | the targets with their ranks come first; after them come exactly the flux entries of the flux stars selected from the host's SDSS catalog, and then exactly the guide entries of its guide stars |
| Hectospec.MakeCatalog | mmthecto.py:14-109 | the host comes first; the targets are exactly the selected objects that pass the fiber cuts; every target row carries its objID and its rank; the flux entries and then the guide entries of the host's SDSS catalog close the catalog |
| Hectospec.ReadRow | mmthecto.py:278-282 | a table row is read exactly when it has seven tab-separated fields and the target and rank read as decimals; the entry holds stripped fields 0, 1 and 2 as fiber, RA and Dec, and stripped fields 5 and 6 read through `int(float())` as target and rank; it is tagged with the current field |
| Text.TruncatedDecimalForms | mmthecto.py:280-281 | `int(float())` of digits around one '.' is the whole part with its sign and the fraction dropped, so it truncates toward zero: "5." reads 5, ".5" reads 0, "-3.7" reads -3 |
| Text.TruncatedDecimalInteger | mmthecto.py:280-281 | `int(float())` of a non-empty digit string, with or without a leading '-', is its signed decimal value |
| Text.TruncatedDecimalRoundTrip | mmthecto.py:280-281 | `int(float(str(i)))` is `i` for every integer, so a rank or target number written as an integer reads back unchanged |
| Hectospec.ParseCfgFile | mmthecto.py:256-295 | every entry comes from a table opened by a header and a rule (field at least 1), the entries are in field order, and there are no more entries than lines |
| Hectospec.TableRowsRead | mmthecto.py:274-282 | inside a table, rows that all read become one entry each, in order, tagged with the current field |
| Hectospec.TableRowFails | mmthecto.py:278-281 | inside a table, the first row that does not read makes the whole reading fail with that row's error |
| Hectospec.SingleTable | mmthecto.py:263-295 | a file of a `fiber` header, a `-` rule and readable rows yields exactly those rows, in order, as entries of field 1 |
| Hectospec.NoHeaderNoEntries | mmthecto.py:286-293 | a file without a `fiber` header yields no entries |
| Hectospec.NoRuleNoEntries | mmthecto.py:289-293 | a file without a `-` rule opens no table and yields no entries |

## Left out

- Network access, file reading and file writing are left out. Remote remove lists, SDSS/USNO downloads, Google upload and the writing of catalog files are absent; lines and tables are given as values.
- Sky matching (`match_to_catalog_sky`, `cKDTree`) is left out: its index and distance arrays are parameters.
- Trigonometry and cosmology are left out. `rhost` and degrees per kpc are given per object and host, and the distance modulus and luminosity distance are function parameters. Floating point is modelled as exact reals.
- Angle formatting (`Angle.format`) is left out: RA/Dec strings come from `raFmt`/`decFmt` parameters or are given as strings.
- The numeric parser accepts only plain decimal forms. Exponents, `inf` and `nan` in `float()` are not modelled.
- `np.random.permutation` is left out: randomness is a `draw` parameter, and only the permutation property is stated.
- `usno_vs_sdss_offset` is left out: the USNO/SDSS offset is an input of Wiyn.MasterEntries. The ValueError it raises when the residual median offset exceeds 0.5 arcsec (targeting.py:373, 441-442, called at wiyn.py:169 with that default) is not modelled. Wiyn.MasterCatalogRenders therefore promises only that writing the lines never raises, not that `construct_master_catalog` as a whole never does.
- Warnings and printed diagnostics are left out, and so are `select_sky_positions`, `generate_ast_file`, `x_match_tests`, `cross_id_w_sdss`, `main` and the `load_*` readers. They are diagnostics, randomness or file plumbing.
- `manually_tweak_simplified_catalog` is left out: it holds per-object hand edits.
- The ICRS coordinate objects of `parse_cfg_file` are left out: RA/Dec stay as stripped strings.
- The fixed text of the SDSS query template is left out. Only the parts `construct_sdss_query` varies are modelled: the INTO clause, the function prefix, the centre and the radius.
- MasterList.FilterCatalog: a row with a masked velocity under a given `vcut` is dropped. The source compares a masked value, which numpy leaves undefined; this is the evident intent.
- MasterList.AddTwoMassXsc: a row that has K keeps its K error as it was. The source also unmasks a masked K error there, which an `Option` cell cannot represent. By default (`copymastercat=False`, masterlist.py:473, 477-478) the source writes K and its error into the caller's own table (masterlist.py:491-507), so the input catalog changes too. The model returns a new catalog, leaves its input unchanged, and has no `copymastercat` argument.
- MasterList.AddSixdf: the second match is a parameter, so the model also accepts matches the source cannot produce. With a positive tolerance every 6dF galaxy matches again (an unmatched one finds its own appended row at distance 0), the two masks of masterlist.py:556-557 have equal lengths, and the model follows the code as written, the last of repeated indices winning. With a tolerance of 0 or less and a non-empty 6dF table the masks differ in length and numpy raises; the model does not represent that failure.
- Hectospec.MakeCatalog: `make_catalog` never defines `tabentries` or `catlines`, so as written it raises NameError at mmthecto.py:47 on every call. Even without that, the host row would stay in those local lists: it is never passed to `generate_catalog` (mmthecto.py:107), whose table starts with the targets. The model follows the comment at mmthecto.py:42 and puts the host entry first, an intended behaviour and not the code's. The source also reads `outercutraddeg` undefined when outer targets are off; the model encodes the outer radius with the target-selection convention.
- Hectospec.ColorCutMask: the source ignores its `colorcut` argument and reads `tighter_color_cuts`, which the targeting module does not define. The model uses the argument.
- Hectospec.GenerateCatalog: the `fluxrank` argument is fixed at 1 (`FluxRank`), the only value `make_catalog` passes.
- Hectospec.ReadRow: `ICRSCoordinates` raises on an RA or Dec it cannot parse (mmthecto.py:279). The model keeps both as strings and never fails on them.
- PgcMatch.AddNsa: the source also writes the `pgc` column and the `pgc_match_dist_asec` column into the caller's own `nsa` table, overwriting either column when it already exists (masterlist/masterlist.py:249-257). The model returns the join and leaves `nsa` unchanged; `main` does not use `nsa` again after `add_nsa` (masterlist/masterlist.py:1016).
- Join.OuterJoin: only the contents of the join are modelled, that is which rows are paired and which stay unmatched. The column renaming and the sorted output order of the table library are not.
- MasterList.MergedDec: `decs` is the caller's own `de2000` column, so writing the NSA declinations into it changes the input table (masterlist.py:289-290). The model returns the merged value and leaves the input row unchanged.
- The catalog columns named by `band` and `fibermag_type` may be any column in the source (targeting.py:300, mmthecto.py:85). The model allows the five SDSS magnitudes and the five fiber magnitudes (`Targeting.Band`).
- The Hectospec catalog rounds each magnitude to two decimals with `'{0:.2f}'` and reads it back as a float, and sends RA/Dec through sexagesimal strings and back (mmthecto.py:145, 181-185). The model keeps the exact magnitudes and positions.
- Hectospec.ParseCfgFile: its own contract states the tagging, the field order and a bound on the number of entries (no more than lines), not the number itself. Which line produces each entry is stated for one table by Hectospec.SingleTable and Hectospec.TableRowsRead, not for files of several tables.

## Findings

| source | as written | input that shows it | evidently intended | confidence | as-written member | corrected member |
|---|---|---|---|---|---|---|
| wiyn.py:218 | `code not in 'COSFE'` is a substring test, so it accepts `""`, `"CO"`, `"SF"` and `"COSFE"` | code `""`: the line gets only four fields, and reading it back in `reprocess_master_catalog` (`ls[4]`, wiyn.py:269) raises | the code is one of the single letters C, O, S, F, E | not executed | Wiyn.WhydraFileLineAsWritten (shown by Wiyn.EmptyCodeBreaksReadBack) | Wiyn.WhydraFileLine (proved by Wiyn.LineReadsBack) |

=== FILE: fallback.dfy ===
/** Field fallback merges. The master-list code builds an output column from
    several source columns in two ways: by overwriting wherever a later
    source is present (`col[~src.mask] = src[~src.mask]`), and by filling
    only the cells still masked (`col[col.mask & ~src.mask] = ...`). Both are
    instances of one priority rule, `FirstPresent`, with the sources taken in
    opposite orders. */
module Fallback {
  import opened Wrappers

  /** Reference rule: the value of the highest-priority present source
      (sources listed highest priority first), absent when all are absent. */
  function FirstPresent<T>(srcs: seq<Option<T>>): Option<T>
  {
    if |srcs| == 0 then None
    else if srcs[0].Some? then srcs[0]
    else FirstPresent(srcs[1..])
  }

  /** Overwrite chain: starting from `cur`, each present source in turn
      replaces the running value. */
  function Overwrite<T>(cur: Option<T>, srcs: seq<Option<T>>): Option<T>
    decreases |srcs|
  {
    if |srcs| == 0 then cur
    else Overwrite(if srcs[0].Some? then srcs[0] else cur, srcs[1..])
  }

  /** Fill chain: starting from `cur`, each source fills the running value
      only while it is still absent. */
  function Fill<T>(cur: Option<T>, srcs: seq<Option<T>>): Option<T>
    decreases |srcs|
  {
    if |srcs| == 0 then cur
    else Fill(if cur.Some? then cur else srcs[0], srcs[1..])
  }

  function Reverse<T>(s: seq<T>): (r: seq<T>)
    ensures |r| == |s|
  {
    if |s| == 0 then [] else Reverse(s[1..]) + [s[0]]
  }

  lemma ReverseThree<T>(a: T, b: T, c: T)
    ensures Reverse([a, b, c]) == [c, b, a]
  {
    assert [a, b, c][1..] == [b, c];
    assert [b, c][1..] == [c];
    assert [c][1..] == [];
    assert Reverse([c]) == [c];
    assert Reverse([b, c]) == [c, b];
  }

  lemma ReverseFour<T>(a: T, b: T, c: T, d: T)
    ensures Reverse([a, b, c, d]) == [d, c, b, a]
  {
    assert [a, b, c, d][1..] == [b, c, d];
    ReverseThree(b, c, d);
  }

  /** `FirstPresent` is decided by the first block that has a present value. */
  lemma {:induction false} FirstPresentAppend<T>(a: seq<Option<T>>, b: seq<Option<T>>)
    ensures FirstPresent(a + b) == if FirstPresent(a).Some? then FirstPresent(a) else FirstPresent(b)
  {
    if |a| > 0 {
      assert (a + b)[1..] == a[1..] + b;
      FirstPresentAppend(a[1..], b);
    } else {
      assert a + b == b;
    }
  }

  /** `FirstPresent` characterised by position: it is the source at index
      `k` exactly when that source is present and every earlier one is absent. */
  lemma {:induction false} FirstPresentAt<T>(srcs: seq<Option<T>>)
    ensures FirstPresent(srcs).None? <==> forall j :: 0 <= j < |srcs| ==> srcs[j].None?
    ensures forall k :: 0 <= k < |srcs| && srcs[k].Some? && (forall j :: 0 <= j < k ==> srcs[j].None?)
              ==> FirstPresent(srcs) == srcs[k]
  {
    if |srcs| > 0 {
      FirstPresentAt(srcs[1..]);
      forall k | 0 <= k < |srcs| && srcs[k].Some? && (forall j :: 0 <= j < k ==> srcs[j].None?)
        ensures FirstPresent(srcs) == srcs[k]
      {
        if k > 0 {
          assert srcs[0].None?;
          assert srcs[1..][k - 1] == srcs[k];
        }
      }
      if forall j :: 1 <= j < |srcs| ==> srcs[j].None? {
        assert forall j :: 0 <= j < |srcs| - 1 ==> srcs[1..][j].None? by {
          forall j | 0 <= j < |srcs| - 1 ensures srcs[1..][j].None? {
            assert srcs[1..][j] == srcs[j + 1];
          }
        }
      } else {
        var j :| 1 <= j < |srcs| && srcs[j].Some?;
        assert srcs[1..][j - 1].Some?;
      }
    }
  }

  /** An overwrite chain is a fallback chain whose priority runs from the
      last source back to the starting value: the last present source wins. */
  lemma {:induction false} OverwriteIsLastPresent<T>(cur: Option<T>, srcs: seq<Option<T>>)
    ensures Overwrite(cur, srcs) == FirstPresent(Reverse(srcs) + [cur])
    decreases |srcs|
  {
    if |srcs| == 0 {
      assert Reverse(srcs) + [cur] == [cur];
    } else {
      var x := srcs[0];
      var next := if x.Some? then x else cur;
      OverwriteIsLastPresent(next, srcs[1..]);
      assert Reverse(srcs) + [cur] == Reverse(srcs[1..]) + ([x] + [cur]);
      FirstPresentAppend(Reverse(srcs[1..]), [x] + [cur]);
      FirstPresentAppend(Reverse(srcs[1..]), [next]);
    }
  }

  /** A fill chain is a fallback chain with priority in the order given,
      the starting value first. */
  lemma {:induction false} FillIsFirstPresent<T>(cur: Option<T>, srcs: seq<Option<T>>)
    ensures Fill(cur, srcs) == FirstPresent([cur] + srcs)
    decreases |srcs|
  {
    if |srcs| > 0 {
      var next := if cur.Some? then cur else srcs[0];
      FillIsFirstPresent(next, srcs[1..]);
      assert [cur] + srcs == [cur] + [srcs[0]] + srcs[1..];
      FirstPresentAppend([cur] + [srcs[0]], srcs[1..]);
      FirstPresentAppend([next], srcs[1..]);
    }
  }
}

=== FILE: hectospec.dfy ===
/** MMT/Hectospec catalog construction (`mmthecto.py`): the target list of
    a host narrowed by fiber magnitudes and ranked by priority, flux
    calibration and guide stars chosen by colour and magnitude boxes, the
    ordering of the catalog entries, and the reader of the fiber
    configuration files Hectospec writes back. Coordinate and magnitude
    formatting is left out: entries keep their numbers. */
module Hectospec {
  import opened Wrappers
  import opened Masks
  import opened Text
  import opened Targeting

  // ------------------------------------------------------------ ranks and limits

  /** Hectospec priorities: a lower rank is observed first. */
  const FluxRank: int := 1
  const HostRank: int := 2
  const PriSatRank: int := 3

  /** Secondary targets rank 4; with outer targets in use the outer
      primaries take 4 and the secondaries move down to 5. */
  function SecSatRank(useOuterTargets: bool): int {
    if useOuterTargets then 5 else 4
  }

  /** A magnitude limit given either as one number or as a (primary,
      secondary) pair; a single number serves as both. */
  datatype Limit = Single(mag: real) | Pair(pri: real, sec: real)

  /** The (primary, secondary) unpacking of a limit, with the `TypeError`
      fallback of the source for a single number. */
  function Unpack(l: Limit): (r: (real, real))
    ensures l.Single? ==> r.0 == l.mag && r.1 == l.mag
    ensures l.Pair? ==> r.0 == l.pri && r.1 == l.sec
  {
    match l
    case Single(m) => (m, m)
    case Pair(p, s) => (p, s)
  }

  /** The keyword arguments of `make_catalog`. */
  datatype HectoConfig = HectoConfig(
    targetFaintLim: Limit,           // (primary/secondary boundary, faintest secondary)
    targetOuterCutRad: real,         // kpc, or arcmin when negative
    fluxRng: (real, real),
    repeatFlux: nat,
    guideStarMagRng: (real, real),
    removeGalsAtHighZ: bool,
    inclSpecQsos: bool,
    removeSpecStars: bool,
    fiberFaintLimit: Option<Limit>,
    fiberBrightLimit: Option<real>,
    fiberBand: Band,
    useOuterTargets: bool)

  /** The defaults of `make_catalog`. */
  const DefaultHectoConfig: HectoConfig :=
    HectoConfig(Pair(21.0, 22.0), 300.0, (17.0, 17.7), 1, (14.0, 15.0), false, true, false,
                Some(Pair(22.0, 23.0)), Some(17.0), R, false)

  /** The `select_targets` call of `make_catalog`: down to the faintest
      secondary; with outer targets in use no outer cut (they are ranked
      down instead), otherwise the outer cut at `targetOuterCutRad`. */
  function TargetsConfig(h: HectoConfig): (c: TargetConfig)
    ensures c.faintLimit == Unpack(h.targetFaintLim).1
    ensures h.useOuterTargets <==> c.outerCutRad.None?
    ensures !h.useOuterTargets ==> c.outerCutRad == Some(h.targetOuterCutRad)
    ensures c.innerCutRad == Some(20.0)
    ensures c.inclSpecQsos == h.inclSpecQsos && c.removeSpecStars == h.removeSpecStars
            && c.removeGalsAtHighZ == h.removeGalsAtHighZ
    ensures c.band == R && c.brightLimit == 15.0 && c.galVsAllCutoff == 20.0 && c.photFlags && c.randomize
  {
    DefaultConfig.(faintLimit := Unpack(h.targetFaintLim).1,
                   outerCutRad := if h.useOuterTargets then None else Some(h.targetOuterCutRad),
                   innerCutRad := Some(20.0),
                   removeGalsAtHighZ := h.removeGalsAtHighZ,
                   removeSpecStars := h.removeSpecStars,
                   inclSpecQsos := h.inclSpecQsos)
  }

  // ------------------------------------------------------------ fiber magnitudes

  /** The fiber faint limit: a primary (brighter than the boundary) needs a
      fiber magnitude under the primary limit, a secondary (strictly between
      the boundary and the faintest secondary) one under the secondary limit.
      A row exactly at the boundary is neither. */
  predicate FiberFaintKeep(t: SdssObject, faint: Limit, fiber: Limit, band: Band) {
    var (prisec, seclim) := Unpack(faint);
    var (prifib, secfib) := Unpack(fiber);
    (t.r < prisec && FiberMag(t, band) < prifib)
    || (prisec < t.r < seclim && FiberMag(t, band) < secfib)
  }

  predicate FiberBrightKeep(t: SdssObject, bright: real, band: Band) {
    FiberMag(t, band) > bright
  }

  /** Both fiber cuts, each skipped when its limit is absent. */
  predicate FiberKeep(t: SdssObject, h: HectoConfig) {
    (h.fiberFaintLimit.Some? ==> FiberFaintKeep(t, h.targetFaintLim, h.fiberFaintLimit.value, h.fiberBand))
    && (h.fiberBrightLimit.Some? ==> FiberBrightKeep(t, h.fiberBrightLimit.value, h.fiberBand))
  }

  function FiberBy(h: HectoConfig): SdssObject -> bool {
    t => FiberKeep(t, h)
  }

  function FaintBy(h: HectoConfig): SdssObject -> bool
    requires h.fiberFaintLimit.Some?
  {
    t => FiberFaintKeep(t, h.targetFaintLim, h.fiberFaintLimit.value, h.fiberBand)
  }

  function BrightBy(h: HectoConfig): SdssObject -> bool
    requires h.fiberBrightLimit.Some?
  {
    t => FiberBrightKeep(t, h.fiberBrightLimit.value, h.fiberBand)
  }

  /** `primsk | secmsk`. */
  function FaintMask(targs: seq<SdssObject>, faint: Limit, fiber: Limit, band: Band): (m: seq<bool>)
    ensures |m| == |targs| && forall i :: 0 <= i < |targs| ==> m[i] == FiberFaintKeep(targs[i], faint, fiber, band)
  {
    var (prisec, seclim) := Unpack(faint);
    var (prifib, secfib) := Unpack(fiber);
    seq(|targs|, i requires 0 <= i < |targs| =>
          (targs[i].r < prisec && FiberMag(targs[i], band) < prifib)
          || (prisec < targs[i].r && targs[i].r < seclim && FiberMag(targs[i], band) < secfib))
  }

  function BrightMask(targs: seq<SdssObject>, bright: real, band: Band): (m: seq<bool>)
    ensures |m| == |targs| && forall i :: 0 <= i < |targs| ==> m[i] == FiberBrightKeep(targs[i], bright, band)
  {
    seq(|targs|, i requires 0 <= i < |targs| => FiberMag(targs[i], band) > bright)
  }

  /** The faint cut, then the bright cut on what is left. */
  function FiberCuts(targs: seq<SdssObject>, h: HectoConfig): (r: seq<SdssObject>)
    ensures r == Filter(targs, FiberBy(h))
  {
    var t1 := if h.fiberFaintLimit.Some?
              then Select(targs, FaintMask(targs, h.targetFaintLim, h.fiberFaintLimit.value, h.fiberBand))
              else targs;
    var t2 := if h.fiberBrightLimit.Some?
              then Select(t1, BrightMask(t1, h.fiberBrightLimit.value, h.fiberBand))
              else t1;
    FiberCutsFilter(targs, h);
    t2
  }

  /** The two masked selections are one filter by both fiber cuts. */
  lemma FiberCutsFilter(targs: seq<SdssObject>, h: HectoConfig)
    ensures var t1 := if h.fiberFaintLimit.Some?
                      then Select(targs, FaintMask(targs, h.targetFaintLim, h.fiberFaintLimit.value, h.fiberBand))
                      else targs;
            var t2 := if h.fiberBrightLimit.Some?
                      then Select(t1, BrightMask(t1, h.fiberBrightLimit.value, h.fiberBand))
                      else t1;
            t2 == Filter(targs, FiberBy(h))
  {
    var t1 := targs;
    if h.fiberFaintLimit.Some? {
      var m := FaintMask(targs, h.targetFaintLim, h.fiberFaintLimit.value, h.fiberBand);
      SelectIsFilter(targs, m, FaintBy(h));
      t1 := Filter(targs, FaintBy(h));
    }
    if h.fiberBrightLimit.Some? {
      var m := BrightMask(t1, h.fiberBrightLimit.value, h.fiberBand);
      SelectIsFilter(t1, m, BrightBy(h));
      if h.fiberFaintLimit.Some? {
        FilterTwice(targs, FaintBy(h), BrightBy(h), FiberBy(h));
      } else {
        FilterSame(targs, BrightBy(h), FiberBy(h));
      }
    } else if h.fiberFaintLimit.Some? {
      FilterSame(targs, FaintBy(h), FiberBy(h));
    } else {
      FilterAll(targs, FiberBy(h));
    }
  }

  /** Filters by pointwise equal predicates agree. */
  lemma {:induction false} FilterSame<T>(s: seq<T>, p: T -> bool, q: T -> bool)
    requires forall x :: p(x) == q(x)
    ensures Filter(s, p) == Filter(s, q)
  {
    if |s| > 0 {
      FilterSame(s[1..], p, q);
    }
  }

  /** A filter whose predicate holds everywhere keeps everything. */
  lemma {:induction false} FilterAll<T>(s: seq<T>, p: T -> bool)
    requires forall x :: p(x)
    ensures Filter(s, p) == s
  {
    if |s| > 0 {
      FilterAll(s[1..], p);
      assert s == [s[0]] + s[1..];
    }
  }

  // ------------------------------------------------------------ ranking

  /** The rank of one target: primary or secondary by its r magnitude, one
      step lower beyond the outer radius (in degrees). */
  function TargetRank(t: SdssObject, prisec: real, useOuterTargets: bool, outerDeg: real): int {
    (if t.r < prisec then PriSatRank else SecSatRank(useOuterTargets)) + (if t.rhost > outerDeg then 1 else 0)
  }

  function TargetRanks(targs: seq<SdssObject>, prisec: real, useOuterTargets: bool, outerDeg: real)
    : (ranks: seq<int>)
    ensures |ranks| == |targs|
    ensures forall k :: 0 <= k < |targs| ==> ranks[k] == TargetRank(targs[k], prisec, useOuterTargets, outerDeg)
    ensures forall k :: 0 <= k < |targs| ==> HostRank < PriSatRank <= ranks[k] <= SecSatRank(useOuterTargets) + 1
    ensures forall k :: 0 <= k < |targs| ==>
              (ranks[k] == PriSatRank <==> targs[k].r < prisec && targs[k].rhost <= outerDeg)
    ensures forall k :: 0 <= k < |targs| ==>
              (ranks[k] == SecSatRank(useOuterTargets) + 1 <==> targs[k].r >= prisec && targs[k].rhost > outerDeg)
  {
    seq(|targs|, k requires 0 <= k < |targs| => TargetRank(targs[k], prisec, useOuterTargets, outerDeg))
  }

  /** With outer targets in use the rank orders the four kinds of target:
      inner primaries (3) before outer primaries (4) before inner
      secondaries (5) before outer secondaries (6); every target ranks below
      the host and the flux stars. */
  lemma RankOrderOuter(t: SdssObject, prisec: real, outerDeg: real)
    ensures var rk := TargetRank(t, prisec, true, outerDeg);
            var pri := t.r < prisec;
            var outer := t.rhost > outerDeg;
            (rk == 3 <==> pri && !outer) && (rk == 4 <==> pri && outer)
            && (rk == 5 <==> !pri && !outer) && (rk == 6 <==> !pri && outer)
            && rk > HostRank > FluxRank
  {
  }

  /** Without outer targets a target inside the outer radius ranks 3 when
      primary and 4 when secondary. */
  lemma RankInner(t: SdssObject, prisec: real, outerDeg: real)
    requires t.rhost <= outerDeg
    ensures TargetRank(t, prisec, false, outerDeg) == (if t.r < prisec then 3 else 4)
  {
  }

  // ------------------------------------------------------------ colour boxes

  /** One colour range: `lo < c1 - c2 < hi`, an absent bound unbounded. */
  datatype ColorCut = ColorCut(c1: Band, c2: Band, lo: Option<real>, hi: Option<real>)

  predicate InColorCut(o: SdssObject, cut: ColorCut) {
    var c := Mag(o, cut.c1) - Mag(o, cut.c2);
    (cut.lo.None? || cut.lo.value < c) && (cut.hi.None? || c < cut.hi.value)
  }

  function CutStage(targets: seq<SdssObject>, cut: ColorCut): (m: seq<bool>)
    ensures |m| == |targets| && forall i :: 0 <= i < |targets| ==> m[i] == InColorCut(targets[i], cut)
  {
    seq(|targets|, i requires 0 <= i < |targets| => InColorCut(targets[i], cut))
  }

  /** `colorcut_mask`: starting from all true, AND in one colour range after
      another. A row is kept exactly when it lies inside every range. */
  function ColorCutMask(targets: seq<SdssObject>, cuts: seq<ColorCut>): (m: seq<bool>)
    ensures |m| == |targets|
    ensures forall i :: 0 <= i < |targets| ==>
              (m[i] <==> forall j :: 0 <= j < |cuts| ==> InColorCut(targets[i], cuts[j]))
  {
    if |cuts| == 0 then seq(|targets|, _ => true)
    else
      var prev := ColorCutMask(targets, cuts[..|cuts| - 1]);
      var m := And(prev, CutStage(targets, cuts[|cuts| - 1]));
      assert forall i :: 0 <= i < |targets| ==> (m[i] <==> prev[i] && InColorCut(targets[i], cuts[|cuts| - 1]));
      assert forall j :: 0 <= j < |cuts| - 1 ==> cuts[..|cuts| - 1][j] == cuts[j];
      m
  }

  // ------------------------------------------------------------ flux and guide stars

  const StarType: int := 6

  /** The u, g, r magnitudes, extinction-corrected on request. */
  function Ugr(o: SdssObject, extcorr: bool): (real, real, real) {
    if extcorr then (o.u - o.au, o.g - o.ag, o.r - o.ar) else (o.u, o.g, o.r)
  }

  function MinOf(a: real, b: real): real {
    if a <= b then a else b
  }

  function MaxOf(a: real, b: real): real {
    if a <= b then b else a
  }

  /** An F-star-like spectrophotometric standard: the SDSS colour box, g in
      the standard (15.5 to 17) or reddening-standard (17 to 18.5) window,
      and r strictly inside the requested range, in either order. */
  predicate FluxColors(o: SdssObject, magrng: (real, real), extcorr: bool) {
    var (u, g, r) := Ugr(o, extcorr);
    var umg := u - g;
    var gmr := g - r;
    0.6 < umg < 1.2 && 0.0 < gmr < 0.6 && gmr > 0.75 * umg - 0.45
    && ((15.5 < g < 17.0) || (17.0 < g < 18.5))
    && MinOf(magrng.0, magrng.1) < r < MaxOf(magrng.0, magrng.1)
  }

  predicate IsFluxStar(o: SdssObject, magrng: (real, real), extcorr: bool) {
    o.objType == StarType && FluxColors(o, magrng, extcorr)
  }

  function StarBy(): SdssObject -> bool {
    (o: SdssObject) => o.objType == StarType
  }

  function FluxColorsBy(magrng: (real, real), extcorr: bool): SdssObject -> bool {
    o => FluxColors(o, magrng, extcorr)
  }

  function FluxStarBy(magrng: (real, real), extcorr: bool): SdssObject -> bool {
    o => IsFluxStar(o, magrng, extcorr)
  }

  function StarMask(cat: seq<SdssObject>): (m: seq<bool>)
    ensures |m| == |cat| && forall i :: 0 <= i < |cat| ==> m[i] == (cat[i].objType == StarType)
  {
    seq(|cat|, i requires 0 <= i < |cat| => cat[i].objType == StarType)
  }

  function FluxMask(stars: seq<SdssObject>, magrng: (real, real), extcorr: bool): (m: seq<bool>)
    ensures |m| == |stars| && forall i :: 0 <= i < |stars| ==> m[i] == FluxColors(stars[i], magrng, extcorr)
  {
    seq(|stars|, i requires 0 <= i < |stars| => FluxColors(stars[i], magrng, extcorr))
  }

  /** `select_flux_stars`: the stars first, then the colour and magnitude
      box on them. The result is the catalog's flux standards in order;
      none has (corrected) g exactly 17, which falls between the two windows. */
  function SelectFluxStars(cat: seq<SdssObject>, magrng: (real, real), extcorr: bool): (r: seq<SdssObject>)
    ensures r == Filter(cat, FluxStarBy(magrng, extcorr))
    ensures forall o :: o in r <==> o in cat && IsFluxStar(o, magrng, extcorr)
    ensures forall o :: o in r ==> Ugr(o, extcorr).1 != 17.0
  {
    var stars := Select(cat, StarMask(cat));
    SelectIsFilter(cat, StarMask(cat), StarBy());
    SelectIsFilter(stars, FluxMask(stars, magrng, extcorr), FluxColorsBy(magrng, extcorr));
    FilterTwice(cat, StarBy(), FluxColorsBy(magrng, extcorr), FluxStarBy(magrng, extcorr));
    FilterMembers(cat, FluxStarBy(magrng, extcorr));
    Select(stars, FluxMask(stars, magrng, extcorr))
  }

  predicate IsGuideStar(o: SdssObject, magrng: (real, real)) {
    o.objType == StarType && MinOf(magrng.0, magrng.1) < o.r < MaxOf(magrng.0, magrng.1)
  }

  function GuideStarBy(magrng: (real, real)): SdssObject -> bool {
    o => IsGuideStar(o, magrng)
  }

  /** `select_guide_stars`: stars with r strictly inside the range, whichever
      way round the range is given. */
  function SelectGuideStars(cat: seq<SdssObject>, magrng: (real, real)): (r: seq<SdssObject>)
    ensures r == Filter(cat, GuideStarBy(magrng))
    ensures forall o :: o in r <==> o in cat && o.objType == StarType
                                    && MinOf(magrng.0, magrng.1) < o.r < MaxOf(magrng.0, magrng.1)
    ensures r == SelectGuideStarsSwapped(cat, magrng)
  {
    var lo := MinOf(magrng.0, magrng.1);
    var hi := MaxOf(magrng.0, magrng.1);
    var m := seq(|cat|, i requires 0 <= i < |cat| => cat[i].objType == StarType && lo < cat[i].r && cat[i].r < hi);
    SelectIsFilter(cat, m, GuideStarBy(magrng));
    FilterMembers(cat, GuideStarBy(magrng));
    FilterSame(cat, GuideStarBy(magrng), GuideStarBy((magrng.1, magrng.0)));
    Select(cat, m)
  }

  /** The guide-star filter with the range given the other way round. */
  function SelectGuideStarsSwapped(cat: seq<SdssObject>, magrng: (real, real)): seq<SdssObject> {
    Filter(cat, GuideStarBy((magrng.1, magrng.0)))
  }

  // ------------------------------------------------------------ the catalog

  /** One row of the Hectospec catalog. Guide stars carry no rank. */
  datatype CatEntry = CatEntry(ra: real, dec: real, objName: string, rank: Option<int>, kind: string, mag: real)

  function TargetEntries(targs: seq<SdssObject>, ranks: seq<int>): (es: seq<CatEntry>)
    ensures |es| == Min(|targs|, |ranks|)
    ensures forall k :: 0 <= k < |es| ==>
              es[k] == CatEntry(targs[k].ra, targs[k].dec, IntToString(targs[k].objId), Some(ranks[k]), "TARGET", targs[k].r)
  {
    var n := Min(|targs|, |ranks|);
    seq(n, k requires 0 <= k < n =>
          CatEntry(targs[k].ra, targs[k].dec, IntToString(targs[k].objId), Some(ranks[k]), "TARGET", targs[k].r))
  }

  /** Copy `i` (counted from 1) of a flux star, named `<objID>_<i>`. */
  function FluxCopy(t: SdssObject, i: nat): CatEntry {
    CatEntry(t.ra, t.dec, IntToString(t.objId) + "_" + IntToString(i + 1), Some(FluxRank), "TARGET", t.r)
  }

  /** `repeat` copies of `x`, copy `c` made by `copy(x, c)`. */
  function Copies<T, E>(x: T, repeat: nat, copy: (T, nat) -> E): (es: seq<E>)
    ensures |es| == repeat && forall c :: 0 <= c < repeat ==> es[c] == copy(x, c)
  {
    seq(repeat, c requires 0 <= c < repeat => copy(x, c))
  }

  /** The number of entries `n` items take with `repeat` copies each,
      counted without multiplication so that positions stay linear. */
  function Span(n: nat, repeat: nat): nat {
    if n == 0 then 0 else repeat + Span(n - 1, repeat)
  }

  /** The span is the product. */
  lemma {:induction false} SpanIsProduct(n: nat, repeat: nat)
    ensures Span(n, repeat) == n * repeat
  {
    if n > 0 {
      SpanIsProduct(n - 1, repeat);
      assert n * repeat == repeat + (n - 1) * repeat;
    }
  }

  /** Every item `repeat` times, the copies of one item together. */
  function Repeated<T, E>(xs: seq<T>, repeat: nat, copy: (T, nat) -> E): (es: seq<E>)
    ensures |es| == Span(|xs|, repeat)
  {
    if |xs| == 0 then [] else Copies(xs[0], repeat, copy) + Repeated(xs[1..], repeat, copy)
  }

  /** Copy `i` of item `j` sits after the spans of the `j` items before it. */
  lemma {:induction false} RepeatedAt<T, E>(xs: seq<T>, repeat: nat, copy: (T, nat) -> E, j: nat, i: nat)
    requires j < |xs| && i < repeat
    ensures Span(j, repeat) + i < |Repeated(xs, repeat, copy)|
    ensures Repeated(xs, repeat, copy)[Span(j, repeat) + i] == copy(xs[j], i)
  {
    var first := Copies(xs[0], repeat, copy);
    var rest := Repeated(xs[1..], repeat, copy);
    assert Repeated(xs, repeat, copy) == first + rest;
    if j > 0 {
      RepeatedAt(xs[1..], repeat, copy, j - 1, i);
      assert xs[1..][j - 1] == xs[j];
    }
  }

  /** A property every copy has holds of every entry. */
  lemma {:induction false} RepeatedKeeps<T, E>(xs: seq<T>, repeat: nat, copy: (T, nat) -> E, p: E -> bool)
    requires forall x, c :: p(copy(x, c))
    ensures forall k :: 0 <= k < |Repeated(xs, repeat, copy)| ==> p(Repeated(xs, repeat, copy)[k])
  {
    if |xs| > 0 {
      RepeatedKeeps(xs[1..], repeat, copy, p);
      var first := Copies(xs[0], repeat, copy);
      var rest := Repeated(xs[1..], repeat, copy);
      assert Repeated(xs, repeat, copy) == first + rest;
    }
  }

  predicate IsFluxEntry(e: CatEntry) {
    e.rank == Some(FluxRank) && e.kind == "TARGET"
  }

  /** Every flux star `repeat` times, copies of one star together. */
  function FluxEntries(stars: seq<SdssObject>, repeat: nat): (es: seq<CatEntry>)
    ensures |es| == Span(|stars|, repeat)
    ensures forall k :: 0 <= k < |es| ==> IsFluxEntry(es[k])
  {
    RepeatedKeeps(stars, repeat, FluxCopy, IsFluxEntry);
    Repeated(stars, repeat, FluxCopy)
  }

  /** Copy `i` of flux star `j` sits at position `j * repeat + i`, and there
      are `|stars| * repeat` entries in all. */
  lemma FluxEntriesAt(stars: seq<SdssObject>, repeat: nat, j: nat, i: nat)
    requires j < |stars| && i < repeat
    ensures |FluxEntries(stars, repeat)| == |stars| * repeat
    ensures j * repeat + i < |FluxEntries(stars, repeat)|
    ensures FluxEntries(stars, repeat)[j * repeat + i] == FluxCopy(stars[j], i)
  {
    RepeatedAt(stars, repeat, FluxCopy, j, i);
    SpanIsProduct(j, repeat);
    SpanIsProduct(|stars|, repeat);
  }

  function GuideEntries(stars: seq<SdssObject>): (es: seq<CatEntry>)
    ensures |es| == |stars|
    ensures forall k :: 0 <= k < |es| ==> es[k].rank.None? && es[k].kind == "guide"
                                          && es[k].objName == IntToString(stars[k].objId)
  {
    seq(|stars|, k requires 0 <= k < |stars| =>
          CatEntry(stars[k].ra, stars[k].dec, IntToString(stars[k].objId), None, "guide", stars[k].r))
  }

  /** The catalog rows in `generate_catalog`'s order: the targets paired with
      their ranks (as far as both go), then each flux star `repeat` times,
      then the guide stars. */
  function AssembleCatalog(targs: seq<SdssObject>, ranks: seq<int>, flux: seq<SdssObject>, repeat: nat,
                           guides: seq<SdssObject>): (es: seq<CatEntry>)
    ensures var nt := Min(|targs|, |ranks|);
            var nf := Span(|flux|, repeat);
            |es| == nt + nf + |guides|
            && (forall k :: 0 <= k < nt ==>
                  es[k] == CatEntry(targs[k].ra, targs[k].dec, IntToString(targs[k].objId), Some(ranks[k]), "TARGET", targs[k].r))
            && (forall k :: nt <= k < nt + nf ==> es[k] == FluxEntries(flux, repeat)[k - nt] && IsFluxEntry(es[k]))
            && (forall k :: nt + nf <= k < |es| ==>
                  es[k].rank.None? && es[k].kind == "guide" && es[k].objName == IntToString(guides[k - nt - nf].objId))
            && es[nt..nt + nf] == FluxEntries(flux, repeat)
            && es[nt + nf..] == GuideEntries(guides)
  {
    var ts, fs, gs := TargetEntries(targs, ranks), FluxEntries(flux, repeat), GuideEntries(guides);
    assert (ts + fs + gs)[|ts|..|ts| + |fs|] == fs;
    assert (ts + fs + gs)[|ts| + |fs|..] == gs;
    ts + fs + gs
  }

  /** `generate_catalog`: the rows of `AssembleCatalog`, with the flux and
      guide stars both selected from the host's full SDSS catalog. */
  function GenerateCatalog(sdss: seq<SdssObject>, targs: seq<SdssObject>, ranks: seq<int>,
                           fluxRng: (real, real), repeat: nat, guideRng: (real, real)): (es: seq<CatEntry>)
    ensures var nt := Min(|targs|, |ranks|);
            var nf := Span(|SelectFluxStars(sdss, fluxRng, false)|, repeat);
            |es| == nt + nf + |SelectGuideStars(sdss, guideRng)|
            && (forall k :: 0 <= k < nt ==>
                  es[k] == CatEntry(targs[k].ra, targs[k].dec, IntToString(targs[k].objId), Some(ranks[k]), "TARGET", targs[k].r))
            && (forall k :: nt <= k < nt + nf ==> IsFluxEntry(es[k]))
            && (forall k :: nt + nf <= k < |es| ==> es[k].rank.None? && es[k].kind == "guide")
            && es[nt..nt + nf] == FluxEntries(SelectFluxStars(sdss, fluxRng, false), repeat)
            && es[nt + nf..] == GuideEntries(SelectGuideStars(sdss, guideRng))
  {
    AssembleCatalog(targs, ranks, SelectFluxStars(sdss, fluxRng, false), repeat, SelectGuideStars(sdss, guideRng))
  }

  /** After an element put in front, the part of `body` from `n` on: the
      pieces it splits into at `n + m`. */
  lemma ConsTail<T>(x: T, body: seq<T>, n: nat, m: nat, a: seq<T>, b: seq<T>)
    requires n + m <= |body| && body[n..n + m] == a && body[n + m..] == b
    ensures ([x] + body)[1 + n..] == a + b
  {
    assert ([x] + body)[1 + n..] == body[n..];
    assert body[n..] == body[n..n + m] + body[n + m..];
  }

  /** The host entry `make_catalog` puts first. */
  function HostEntry(host: Host): CatEntry {
    CatEntry(host.ra, host.dec, host.name, Some(HostRank), "TARGET", host.r + host.distmod)
  }

  /** The catalog `make_catalog` builds from the selected targets: those
      passing the fiber cuts, each with its rank, after the host. The outer
      radius in degrees follows the cut-radius convention of the target
      selection. */
  function CatalogOf(host: Host, sdss: seq<SdssObject>, selected: seq<SdssObject>, h: HectoConfig)
    : (r: (seq<CatEntry>, seq<SdssObject>))
    ensures r.1 == Filter(selected, FiberBy(h))
    ensures |r.0| >= 1 + |r.1| && r.0[0] == HostEntry(host)
    ensures forall k :: 0 <= k < |r.1| ==>
              r.0[1 + k].objName == IntToString(r.1[k].objId)
              && r.0[1 + k].rank == Some(TargetRank(r.1[k], Unpack(h.targetFaintLim).0, h.useOuterTargets,
                                                    RadiusDeg(h.targetOuterCutRad, host)))
    ensures r.0[1 + |r.1|..] == FluxEntries(SelectFluxStars(sdss, h.fluxRng, false), h.repeatFlux)
                                + GuideEntries(SelectGuideStars(sdss, h.guideStarMagRng))
  {
    var targs := FiberCuts(selected, h);
    var ranks := TargetRanks(targs, Unpack(h.targetFaintLim).0, h.useOuterTargets, RadiusDeg(h.targetOuterCutRad, host));
    var flux := SelectFluxStars(sdss, h.fluxRng, false);
    var guides := SelectGuideStars(sdss, h.guideStarMagRng);
    var body := AssembleCatalog(targs, ranks, flux, h.repeatFlux, guides);
    assert Min(|targs|, |ranks|) == |targs|;
    var es := [HostEntry(host)] + body;
    assert forall k :: 0 <= k < |targs| ==> es[1 + k] == body[k];
    ConsTail(HostEntry(host), body, |targs|, Span(|flux|, h.repeatFlux),
             FluxEntries(flux, h.repeatFlux), GuideEntries(guides));
    (es, targs)
  }

  /** `make_catalog`: the host first, then the selected targets that pass
      the fiber cuts with their ranks, the flux stars and the guide stars.
      `draw` stands for the random generator of the target selection. */
  method MakeCatalog(host: Host, sdss: seq<SdssObject>, h: HectoConfig, draw: nat -> nat)
    returns (es: seq<CatEntry>, targs: seq<SdssObject>)
    ensures |es| >= 1 + |targs| && es[0] == HostEntry(host)
    ensures forall t :: t in targs ==> t in sdss && Selected(t, TargetsConfig(h), host) && FiberKeep(t, h)
    ensures forall k :: 0 <= k < |targs| ==>
              es[1 + k].objName == IntToString(targs[k].objId)
              && es[1 + k].rank == Some(TargetRank(targs[k], Unpack(h.targetFaintLim).0, h.useOuterTargets,
                                                   RadiusDeg(h.targetOuterCutRad, host)))
    ensures forall t :: t in sdss && Selected(t, TargetsConfig(h), host) && FiberKeep(t, h) ==> t in targs
    ensures es[1 + |targs|..] == FluxEntries(SelectFluxStars(sdss, h.fluxRng, false), h.repeatFlux)
                                 + GuideEntries(SelectGuideStars(sdss, h.guideStarMagRng))
  {
    var selected := SelectTargets(sdss, TargetsConfig(h), host, draw);
    var r := CatalogOf(host, sdss, selected, h);
    es, targs := r.0, r.1;
    FilterMembers(selected, FiberBy(h));
    forall t | t in targs
      ensures t in sdss && Selected(t, TargetsConfig(h), host) && FiberKeep(t, h)
    {
      assert t in selected && FiberBy(h)(t);
    }
    forall t | t in sdss && Selected(t, TargetsConfig(h), host) && FiberKeep(t, h)
      ensures t in targs
    {
      assert t in selected && FiberBy(h)(t);
    }
  }

  /** With a single target limit the primary/secondary boundary is the
      selection's faint limit, so every selected target that is not a
      spectroscopic QSO is a primary. */
  lemma SingleLimitAllPrimary(host: Host, h: HectoConfig, t: SdssObject)
    requires h.targetFaintLim.Single?
    requires Selected(t, TargetsConfig(h), host) && t.specClass != "QSO"
    ensures t.r < Unpack(h.targetFaintLim).0
    ensures TargetRank(t, Unpack(h.targetFaintLim).0, h.useOuterTargets, RadiusDeg(h.targetOuterCutRad, host))
            == PriSatRank + (if t.rhost > RadiusDeg(h.targetOuterCutRad, host) then 1 else 0)
  {
    assert PassesStages(t, TargetsConfig(h), host);
    assert InMagBand(t, TargetsConfig(h));
  }

  /** Without outer targets every target that is not a spectroscopic QSO
      lies inside the outer cut, so it ranks 3 when primary and 4 when
      secondary; only a QSO forced in by `inclSpecQsos` can lie beyond it. */
  lemma InnerRanksWithoutOuterTargets(host: Host, h: HectoConfig, t: SdssObject)
    requires !h.useOuterTargets
    requires Selected(t, TargetsConfig(h), host) && t.specClass != "QSO"
    ensures TargetRank(t, Unpack(h.targetFaintLim).0, false, RadiusDeg(h.targetOuterCutRad, host))
            == (if t.r < Unpack(h.targetFaintLim).0 then 3 else 4)
  {
    assert PassesStages(t, TargetsConfig(h), host);
    assert InsideOuter(t, h.targetOuterCutRad, host);
  }

  // ------------------------------------------------------------ configuration files

  /** One fiber assignment read from a configuration file, tagged with the
      number of the field (table) it came from, counted from 1. */
  datatype CfgEntry = CfgEntry(fiber: string, ra: string, dec: string, target: int, rank: int, field: nat)

  /** The reader's state: inside a table, inside a header, tables seen. */
  datatype CfgState = CfgState(intab: bool, inhdr: bool, fi: nat)

  const CfgStart: CfgState := CfgState(false, false, 0)

  predicate Blank(l: string) {
    Strip(l) == ""
  }

  /** The state after a line that is not a table row. */
  function Step(st: CfgState, l: string): (r: CfgState)
    ensures r.fi == st.fi || r.fi == st.fi + 1
    ensures r.intab ==> r.fi >= 1 || st.intab
  {
    if st.intab then st.(intab := !Blank(l) && st.intab)
    else if StartsWith(l, "fiber") then st.(inhdr := true)
    else if st.inhdr && StartsWith(l, "-") then CfgState(true, false, st.fi + 1)
    else st
  }

  function StripAll(parts: seq<string>): (r: seq<string>)
    ensures |r| == |parts| && forall k :: 0 <= k < |parts| ==> r[k] == Strip(parts[k])
  {
    seq(|parts|, k requires 0 <= k < |parts| => Strip(parts[k]))
  }

  /** One table row: seven tab-separated fields, each stripped; the target
      number and the rank through `int(float(...))`. A row with another
      number of fields, or a field that is not a decimal, raises. */
  function ReadRow(l: string, fi: nat): (r: Result<CfgEntry, string>)
    ensures r.Success? <==> |Split(l, '\t')| == 7
                            && ParseTruncatedDecimal(Strip(Split(l, '\t')[5])).Some?
                            && ParseTruncatedDecimal(Strip(Split(l, '\t')[6])).Some?
    ensures r.Success? ==> r.value.field == fi
    ensures r.Success? ==> |Split(l, '\t')| == 7
                           && r.value.fiber == Strip(Split(l, '\t')[0])
                           && r.value.ra == Strip(Split(l, '\t')[1])
                           && r.value.dec == Strip(Split(l, '\t')[2])
                           && Some(r.value.target) == ParseTruncatedDecimal(Strip(Split(l, '\t')[5]))
                           && Some(r.value.rank) == ParseTruncatedDecimal(Strip(Split(l, '\t')[6]))
  {
    var es := StripAll(Split(l, '\t'));
    if |es| != 7 then Failure("wrong number of fields in table row")
    else
      match ParseTruncatedDecimal(es[5])
      case None => Failure("could not convert target to float: " + es[5])
      case Some(target) =>
        match ParseTruncatedDecimal(es[6])
        case None => Failure("could not convert rank to float: " + es[6])
        case Some(rank) => Success(CfgEntry(es[0], es[1], es[2], target, rank, fi))
  }

  /** Every entry comes from field `lo` or a later one. */
  predicate FieldsFrom(es: seq<CfgEntry>, lo: nat) {
    forall k :: 0 <= k < |es| ==> es[k].field >= lo
  }

  /** The entries come in field order. */
  predicate FieldsOrdered(es: seq<CfgEntry>) {
    forall j, k :: 0 <= j < k < |es| ==> es[j].field <= es[k].field
  }

  /** A row of field `lo` put before rows of field `lo` or later keeps the order. */
  lemma ConsOrdered(e: CfgEntry, rest: seq<CfgEntry>, lo: nat)
    requires e.field == lo && FieldsFrom(rest, lo) && FieldsOrdered(rest)
    ensures FieldsFrom([e] + rest, lo) && FieldsOrdered([e] + rest)
  {
    var es := [e] + rest;
    assert forall k :: 1 <= k < |es| ==> es[k] == rest[k - 1];
  }

  /** The reader from state `st` on: inside a table every non-blank line is
      a row of the current field; a blank line ends the table. Outside, a
      `fiber` line starts a header, and a `-` line after a header opens the
      next table. */
  function ReadCfgFrom(lines: seq<string>, st: CfgState): (r: Result<seq<CfgEntry>, string>)
    ensures r.Success? ==> |r.value| <= |lines|
    ensures r.Success? ==> FieldsFrom(r.value, st.fi) && FieldsOrdered(r.value)
    ensures r.Success? && (st.intab ==> st.fi >= 1) ==> FieldsFrom(r.value, 1)
  {
    if |lines| == 0 then Success([])
    else if st.intab && !Blank(lines[0]) then
      match ReadRow(lines[0], st.fi)
      case Failure(e) => Failure(e)
      case Success(e) =>
        match ReadCfgFrom(lines[1..], st)
        case Failure(err) => Failure(err)
        case Success(rest) =>
          ConsOrdered(e, rest, st.fi);
          Success([e] + rest)
    else
      var next := Step(st, lines[0]);
      var r := ReadCfgFrom(lines[1..], next);
      assert r.Success? ==> FieldsFrom(r.value, st.fi);
      r
  }

  /** `parse_cfg_file`: the fiber assignments of every table of the file. */
  function ParseCfgFile(lines: seq<string>): (r: Result<seq<CfgEntry>, string>)
    ensures r.Success? ==> forall k :: 0 <= k < |r.value| ==> r.value[k].field >= 1
    ensures r.Success? ==> forall j, k :: 0 <= j < k < |r.value| ==> r.value[j].field <= r.value[k].field
    ensures r.Success? ==> |r.value| <= |lines|
  {
    ReadCfgFrom(lines, CfgStart)
  }

  /** Inside a table, rows that all read are taken in order, one entry per
      row, each tagged with the current field. */
  lemma {:induction false} TableRowsRead(rows: seq<string>, st: CfgState)
    requires st.intab
    requires forall k :: 0 <= k < |rows| ==> !Blank(rows[k]) && ReadRow(rows[k], st.fi).Success?
    ensures ReadCfgFrom(rows, st).Success?
    ensures |ReadCfgFrom(rows, st).value| == |rows|
    ensures forall k :: 0 <= k < |rows| ==> ReadCfgFrom(rows, st).value[k] == ReadRow(rows[k], st.fi).value
  {
    if |rows| > 0 {
      assert forall k :: 1 <= k < |rows| ==> rows[k] == rows[1..][k - 1];
      TableRowsRead(rows[1..], st);
    }
  }

  /** Inside a table, the first row that does not read raises, and the
      whole file fails with it. */
  lemma {:induction false} TableRowFails(rows: seq<string>, st: CfgState, j: nat)
    requires st.intab && j < |rows|
    requires forall k :: 0 <= k < j ==> !Blank(rows[k]) && ReadRow(rows[k], st.fi).Success?
    requires !Blank(rows[j]) && ReadRow(rows[j], st.fi).Failure?
    ensures ReadCfgFrom(rows, st) == Failure(ReadRow(rows[j], st.fi).error)
  {
    if j > 0 {
      assert forall k :: 1 <= k < |rows| ==> rows[k] == rows[1..][k - 1];
      TableRowFails(rows[1..], st, j - 1);
    }
  }

  /** A file of a `fiber` header, a `-` rule and table rows yields exactly
      those rows, in order, as entries of the first field. */
  lemma SingleTable(hdr: string, rule: string, rows: seq<string>)
    requires StartsWith(hdr, "fiber") && StartsWith(rule, "-")
    requires forall k :: 0 <= k < |rows| ==> !Blank(rows[k]) && ReadRow(rows[k], 1).Success?
    ensures var r := ParseCfgFile([hdr, rule] + rows);
            r.Success? && |r.value| == |rows|
            && forall k :: 0 <= k < |rows| ==> r.value[k] == ReadRow(rows[k], 1).value && r.value[k].field == 1
  {
    var lines := [hdr, rule] + rows;
    assert lines[1..][1..] == rows;
    assert !StartsWith(rule, "fiber") by {
      assert rule[0] == '-';
    }
    var st1 := Step(CfgStart, hdr);
    assert st1 == CfgState(false, true, 0);
    var st2 := Step(st1, rule);
    assert st2 == CfgState(true, false, 1);
    assert ParseCfgFile(lines) == ReadCfgFrom(lines[1..], st1);
    assert ReadCfgFrom(lines[1..], st1) == ReadCfgFrom(rows, st2);
    TableRowsRead(rows, st2);
  }

  /** A file without a `fiber` header line has no table and yields nothing. */
  lemma {:induction false} NoHeaderNoEntries(lines: seq<string>, st: CfgState)
    requires !st.intab && !st.inhdr
    requires forall k :: 0 <= k < |lines| ==> !StartsWith(lines[k], "fiber")
    ensures ReadCfgFrom(lines, st) == Success([])
  {
    if |lines| > 0 {
      assert Step(st, lines[0]) == st;
      assert forall k :: 1 <= k < |lines| ==> lines[k] == lines[1..][k - 1];
      NoHeaderNoEntries(lines[1..], st);
    }
  }

  /** Rows are only read after a header and its `-` rule: as long as no `-`
      line follows a header, the field counter stays put and nothing is read. */
  lemma {:induction false} NoRuleNoEntries(lines: seq<string>, st: CfgState)
    requires !st.intab
    requires forall k :: 0 <= k < |lines| ==> !StartsWith(lines[k], "-")
    ensures ReadCfgFrom(lines, st) == Success([])
  {
    if |lines| > 0 {
      assert !Step(st, lines[0]).intab;
      assert forall k :: 1 <= k < |lines| ==> lines[k] == lines[1..][k - 1];
      NoRuleNoEntries(lines[1..], Step(st, lines[0]));
    }
  }
}

=== FILE: join.dfy ===
/** The outer join on a key column that assembles the master catalog from
    its source catalogs (and attaches NSA rows by their assigned PGC number).
    Only the contents of the join are modelled: which rows are paired, which
    stay unmatched. The column renaming and the sorted output order of the
    table library are not. */
module Join {
  import opened Wrappers

  /** One output row: the key and the row from each side, absent on the
      side that had no row with that key. */
  datatype Joined<K, A, B> = Joined(key: K, left: Option<A>, right: Option<B>)

  /** The right-hand rows carrying key `k`, in their order. */
  function Matches<K(==), B>(k: K, right: seq<(K, B)>): (ms: seq<B>)
    ensures |ms| <= |right|
    ensures forall j :: 0 <= j < |ms| ==> (k, ms[j]) in right
    ensures forall j :: 0 <= j < |right| && right[j].0 == k ==> right[j].1 in ms
  {
    if |right| == 0 then []
    else
      var rest := Matches(k, right[1..]);
      assert forall j :: 0 <= j < |rest| ==> (k, rest[j]) in right by {
        forall j | 0 <= j < |rest| ensures (k, rest[j]) in right {
          assert (k, rest[j]) in right[1..];
        }
      }
      assert forall j :: 1 <= j < |right| ==> right[j] == right[1..][j - 1];
      (if right[0].0 == k then [right[0].1] else []) + rest
  }

  predicate HasKey<K(==), T>(k: K, rows: seq<(K, T)>) {
    exists j :: 0 <= j < |rows| && rows[j].0 == k
  }

  /** The output rows for one left-hand row: one per matching right-hand
      row, or a single row with the right side absent. */
  function Pairs<K(==), A, B>(k: K, a: A, right: seq<(K, B)>): (p: seq<Joined<K, A, B>>)
    ensures |p| > 0
    ensures forall j :: 0 <= j < |p| ==> p[j].key == k && p[j].left == Some(a)
  {
    var ms := Matches(k, right);
    if |ms| == 0 then [Joined(k, Some(a), None)]
    else seq(|ms|, j requires 0 <= j < |ms| => Joined(k, Some(a), Some(ms[j])))
  }

  /** Every left-hand row expanded into its pairs, in left-hand order. */
  function LeftRows<K(==), A, B>(left: seq<(K, A)>, right: seq<(K, B)>): seq<Joined<K, A, B>>
  {
    if |left| == 0 then [] else Pairs(left[0].0, left[0].1, right) + LeftRows(left[1..], right)
  }

  /** The right-hand rows whose key no left-hand row carries. */
  function RightOnly<K(==), A, B>(left: seq<(K, A)>, right: seq<(K, B)>): seq<Joined<K, A, B>>
  {
    if |right| == 0 then []
    else
      (if HasKey(right[0].0, left) then [] else [Joined(right[0].0, None, Some(right[0].1))])
      + RightOnly(left, right[1..])
  }

  /** `join(left, right, keys=[key], join_type='outer')`, up to row order. */
  function OuterJoin<K(==), A, B>(left: seq<(K, A)>, right: seq<(K, B)>): seq<Joined<K, A, B>>
  {
    LeftRows(left, right) + RightOnly(left, right)
  }

  /** Every output row that carries a left-hand row comes from `left` with
      its key, and the right-hand row it is paired with has the same key. */
  lemma {:induction false} LeftRowsSound<K, A, B>(left: seq<(K, A)>, right: seq<(K, B)>)
    ensures forall x :: x in LeftRows(left, right) ==>
              x.left.Some? && (x.key, x.left.value) in left
              && (x.right.Some? ==> (x.key, x.right.value) in right)
              && (x.right.None? ==> !HasKey(x.key, right))
  {
    if |left| > 0 {
      LeftRowsSound(left[1..], right);
      var k := left[0].0;
      var p := Pairs(k, left[0].1, right);
      var ms := Matches(k, right);
      forall x | x in LeftRows(left, right)
        ensures x.left.Some? && (x.key, x.left.value) in left
        ensures x.right.Some? ==> (x.key, x.right.value) in right
        ensures x.right.None? ==> !HasKey(x.key, right)
      {
        if x in p {
          assert left[0] == (x.key, x.left.value);
          if x.right.None? {
            assert |ms| == 0;
          } else {
            var j :| 0 <= j < |p| && p[j] == x;
            assert x.right.value == ms[j];
          }
        } else {
          assert x in LeftRows(left[1..], right);
          assert (x.key, x.left.value) in left[1..];
        }
      }
    }
  }

  /** Every left-hand row, and every right-hand row paired with it, appears
      in the output. */
  lemma {:induction false} LeftRowsComplete<K, A, B>(left: seq<(K, A)>, right: seq<(K, B)>)
    ensures forall i :: 0 <= i < |left| ==>
              exists x :: x in LeftRows(left, right) && x.key == left[i].0 && x.left == Some(left[i].1)
    ensures forall i, j :: 0 <= i < |left| && 0 <= j < |right| && left[i].0 == right[j].0 ==>
              Joined(left[i].0, Some(left[i].1), Some(right[j].1)) in LeftRows(left, right)
  {
    if |left| > 0 {
      LeftRowsComplete(left[1..], right);
      var k := left[0].0;
      var p := Pairs(k, left[0].1, right);
      var ms := Matches(k, right);
      assert LeftRows(left, right) == p + LeftRows(left[1..], right);
      assert p[0] in LeftRows(left, right);
      forall i | 1 <= i < |left|
        ensures exists x :: x in LeftRows(left, right) && x.key == left[i].0 && x.left == Some(left[i].1)
      {
        assert left[i] == left[1..][i - 1];
        var x :| x in LeftRows(left[1..], right) && x.key == left[i].0 && x.left == Some(left[i].1);
        assert x in LeftRows(left, right);
      }
      forall i, j | 0 <= i < |left| && 0 <= j < |right| && left[i].0 == right[j].0
        ensures Joined(left[i].0, Some(left[i].1), Some(right[j].1)) in LeftRows(left, right)
      {
        if i == 0 {
          assert right[j].1 in ms;
          var q :| 0 <= q < |ms| && ms[q] == right[j].1;
          assert p[q] == Joined(k, Some(left[0].1), Some(right[j].1));
        } else {
          assert left[i] == left[1..][i - 1];
        }
      }
    }
  }

  /** The unmatched right-hand rows are exactly those whose key is absent on
      the left. */
  lemma {:induction false} RightOnlyExact<K, A, B>(left: seq<(K, A)>, right: seq<(K, B)>)
    ensures forall x :: x in RightOnly(left, right) ==>
              x.left.None? && x.right.Some? && (x.key, x.right.value) in right && !HasKey(x.key, left)
    ensures forall j :: 0 <= j < |right| && !HasKey(right[j].0, left) ==>
              Joined(right[j].0, None, Some(right[j].1)) in RightOnly(left, right)
  {
    if |right| > 0 {
      RightOnlyExact(left, right[1..]);
      forall j | 1 <= j < |right| ensures right[j] == right[1..][j - 1] { }
      forall x | x in RightOnly(left, right)
        ensures x.left.None? && x.right.Some? && (x.key, x.right.value) in right && !HasKey(x.key, left)
      {
        if x !in RightOnly(left, right[1..]) {
          assert x == Joined(right[0].0, None, Some(right[0].1));
        } else {
          assert (x.key, x.right.value) in right[1..];
        }
      }
    }
  }

  /** The outer join loses no row of either side and invents no pairing:
      a row is paired exactly with the rows of the other side sharing its key,
      and stays unmatched exactly when there are none. */
  lemma OuterJoinContents<K, A, B>(left: seq<(K, A)>, right: seq<(K, B)>)
    ensures forall i :: 0 <= i < |left| ==>
              exists x :: x in OuterJoin(left, right) && x.key == left[i].0 && x.left == Some(left[i].1)
    ensures forall j :: 0 <= j < |right| ==>
              exists x :: x in OuterJoin(left, right) && x.key == right[j].0 && x.right == Some(right[j].1)
    ensures forall x :: x in OuterJoin(left, right) ==>
              (x.left.Some? || x.right.Some?)
              && (x.left.Some? ==> (x.key, x.left.value) in left)
              && (x.right.Some? ==> (x.key, x.right.value) in right)
              && (x.left.None? ==> !HasKey(x.key, left))
              && (x.right.None? ==> !HasKey(x.key, right))
  {
    var l := LeftRows(left, right);
    var r := RightOnly(left, right);
    LeftRowsSound(left, right);
    LeftRowsComplete(left, right);
    RightOnlyExact(left, right);
    forall i | 0 <= i < |left|
      ensures exists x :: x in OuterJoin(left, right) && x.key == left[i].0 && x.left == Some(left[i].1)
    {
      var x :| x in l && x.key == left[i].0 && x.left == Some(left[i].1);
      assert x in OuterJoin(left, right);
    }
    forall j | 0 <= j < |right|
      ensures exists x :: x in OuterJoin(left, right) && x.key == right[j].0 && x.right == Some(right[j].1)
    {
      if HasKey(right[j].0, left) {
        var i :| 0 <= i < |left| && left[i].0 == right[j].0;
        assert Joined(left[i].0, Some(left[i].1), Some(right[j].1)) in OuterJoin(left, right);
      } else {
        assert Joined(right[j].0, None, Some(right[j].1)) in OuterJoin(left, right);
      }
    }
  }
}

=== FILE: masks.dfy ===
/** Boolean masks over catalog rows (`true` = keep), numpy-style boolean
    indexing, the per-stage narrowing of a running mask, and the random
    reordering applied to a selection. */
module Masks {

  /** The smaller of two lengths. */
  function Min(a: nat, b: nat): nat {
    if a <= b then a else b
  }

  /** Number of `true` entries of a mask. */
  function CountTrue(m: seq<bool>): (n: nat)
    ensures n <= |m|
  {
    if |m| == 0 then 0 else (if m[0] then 1 else 0) + CountTrue(m[1..])
  }

  /** Every index raised by one: positions of `m[1..]` seen from `m`. */
  function Shift(ix: seq<nat>): (r: seq<nat>)
    ensures |r| == |ix|
    ensures forall k :: 0 <= k < |ix| ==> r[k] == ix[k] + 1
  {
    seq(|ix|, k requires 0 <= k < |ix| => ix[k] + 1)
  }

  /** The positions at which `m` is true, in ascending order. */
  function TrueIndices(m: seq<bool>): (ix: seq<nat>)
    ensures |ix| == CountTrue(m)
    ensures forall k :: 0 <= k < |ix| ==> ix[k] < |m|
  {
    if |m| == 0 then [] else (if m[0] then [0] else []) + Shift(TrueIndices(m[1..]))
  }

  /** Every position listed by `TrueIndices` holds `true`. */
  lemma {:induction false} TrueIndicesAreTrue(m: seq<bool>)
    ensures forall k :: 0 <= k < |TrueIndices(m)| ==> m[TrueIndices(m)[k]]
  {
    if |m| > 0 {
      var rest := TrueIndices(m[1..]);
      TrueIndicesAreTrue(m[1..]);
      var ix := TrueIndices(m);
      var d := if m[0] then 1 else 0;
      forall k | d <= k < |ix|
        ensures m[ix[k]]
      {
        assert ix[k] == rest[k - d] + 1;
        assert m[1..][rest[k - d]] == m[ix[k]];
      }
    }
  }

  /** `TrueIndices` is strictly ascending. */
  lemma {:induction false} TrueIndicesAscending(m: seq<bool>)
    ensures forall k, l :: 0 <= k < l < |TrueIndices(m)| ==> TrueIndices(m)[k] < TrueIndices(m)[l]
  {
    if |m| > 0 {
      var rest := TrueIndices(m[1..]);
      TrueIndicesAscending(m[1..]);
      var ix := TrueIndices(m);
      var d := if m[0] then 1 else 0;
      forall k, l | 0 <= k < l < |ix|
        ensures ix[k] < ix[l]
      {
        assert ix[l] == rest[l - d] + 1;
        if k >= d {
          assert ix[k] == rest[k - d] + 1;
        }
      }
    }
  }

  /** Every true position is listed by `TrueIndices`. */
  lemma {:induction false} TrueIndicesComplete(m: seq<bool>)
    ensures forall i :: 0 <= i < |m| && m[i] ==> i in TrueIndices(m)
  {
    if |m| > 0 {
      var rest := TrueIndices(m[1..]);
      TrueIndicesComplete(m[1..]);
      var ix := TrueIndices(m);
      var d := if m[0] then 1 else 0;
      forall i | 0 <= i < |m| && m[i]
        ensures i in ix
      {
        if i == 0 {
          assert ix[0] == 0;
        } else {
          assert m[1..][i - 1] == m[i];
          var k :| 0 <= k < |rest| && rest[k] == i - 1;
          assert ix[k + d] == i;
        }
      }
    }
  }

  /** Boolean indexing `s[m]`: the rows whose mask entry is true, in their
      original order. */
  function Select<T>(s: seq<T>, m: seq<bool>): (r: seq<T>)
    requires |m| == |s|
    ensures |r| == CountTrue(m)
  {
    if |s| == 0 then [] else (if m[0] then [s[0]] else []) + Select(s[1..], m[1..])
  }

  /** Row `k` of `s[m]` is row `TrueIndices(m)[k]` of `s`. */
  lemma {:induction false} SelectAt<T>(s: seq<T>, m: seq<bool>)
    requires |m| == |s|
    ensures forall k :: 0 <= k < |Select(s, m)| ==> Select(s, m)[k] == s[TrueIndices(m)[k]]
  {
    if |s| > 0 {
      SelectAt(s[1..], m[1..]);
      var rest := Select(s[1..], m[1..]);
      var ti := TrueIndices(m[1..]);
      var r := Select(s, m);
      var d := if m[0] then 1 else 0;
      assert r == (if m[0] then [s[0]] else []) + rest;
      forall k | 0 <= k < |r|
        ensures r[k] == s[TrueIndices(m)[k]]
      {
        if k >= d {
          assert r[k] == rest[k - d];
          assert TrueIndices(m)[k] == ti[k - d] + 1;
          assert rest[k - d] == s[1..][ti[k - d]];
        }
      }
    }
  }

  /** Reference definition: the elements of `s` that satisfy `p`, in order. */
  function Filter<T>(s: seq<T>, p: T -> bool): (r: seq<T>)
    ensures |r| <= |s|
  {
    if |s| == 0 then [] else (if p(s[0]) then [s[0]] else []) + Filter(s[1..], p)
  }

  /** `Filter` keeps exactly the elements satisfying `p`, each no more often
      than it occurs in `s`. */
  lemma {:induction false} FilterMembers<T>(s: seq<T>, p: T -> bool)
    ensures forall x :: x in Filter(s, p) <==> x in s && p(x)
    ensures multiset(Filter(s, p)) <= multiset(s)
  {
    if |s| > 0 {
      FilterMembers(s[1..], p);
      assert s == [s[0]] + s[1..];
    }
  }

  /** Boolean indexing with a mask computed row by row from `p` is `Filter`. */
  lemma {:induction false} SelectIsFilter<T>(s: seq<T>, m: seq<bool>, p: T -> bool)
    requires |m| == |s|
    requires forall i :: 0 <= i < |s| ==> m[i] == p(s[i])
    ensures Select(s, m) == Filter(s, p)
  {
    if |s| > 0 {
      SelectIsFilter(s[1..], m[1..], p);
    }
  }

  /** Filtering twice is filtering once by both conditions. */
  lemma {:induction false} FilterTwice<T>(s: seq<T>, p: T -> bool, q: T -> bool, pq: T -> bool)
    requires forall x :: pq(x) == (p(x) && q(x))
    ensures Filter(Filter(s, p), q) == Filter(s, pq)
  {
    if |s| > 0 {
      FilterTwice(s[1..], p, q, pq);
      var fs := Filter(s, p);
      if p(s[0]) {
        assert fs == [s[0]] + Filter(s[1..], p);
        assert fs[0] == s[0] && fs[1..] == Filter(s[1..], p);
        assert Filter(fs, q) == (if q(s[0]) then [s[0]] else []) + Filter(fs[1..], q);
      } else {
        assert fs == Filter(s[1..], p);
      }
      assert pq(s[0]) == (p(s[0]) && q(s[0]));
    }
  }

  /** Element-wise `a & b`. */
  function And(a: seq<bool>, b: seq<bool>): seq<bool>
    requires |a| == |b|
  {
    seq(|a|, i requires 0 <= i < |a| => a[i] && b[i])
  }

  /** numpy's `m[sel] = v`: entries picked by `sel` are overwritten with `v`. */
  function Assign(m: seq<bool>, sel: seq<bool>, v: bool): seq<bool>
    requires |m| == |sel|
  {
    seq(|m|, i requires 0 <= i < |m| => if sel[i] then v else m[i])
  }

  /** A mask narrowed by `And` keeps no row the original mask dropped. */
  lemma AndNarrows(a: seq<bool>, b: seq<bool>)
    requires |a| == |b|
    ensures forall i :: 0 <= i < |a| && And(a, b)[i] ==> a[i]
    ensures CountTrue(And(a, b)) <= CountTrue(a)
  {
    if |a| > 0 {
      assert And(a, b)[1..] == And(a[1..], b[1..]);
      AndNarrows(a[1..], b[1..]);
    }
  }

  /** `np.random.permutation` applied to a selection, as a Fisher-Yates
      shuffle: step `i` swaps position `i` with `draw(i) % (i + 1)`, where
      `draw` stands for the random number generator. */
  method Shuffle<T>(s: seq<T>, draw: nat -> nat) returns (r: seq<T>)
    ensures |r| == |s|
    ensures multiset(r) == multiset(s)
  {
    r := s;
    var i := |s|;
    while i > 1
      invariant i <= |s|
      invariant |r| == |s|
      invariant multiset(r) == multiset(s)
    {
      i := i - 1;
      var j := draw(i) % (i + 1);
      var t := r[i];
      r := r[i := r[j]][j := t];
    }
  }
}

=== FILE: masterlist.dfy ===
/** Consolidation of the host master list (`masterlist/masterlist.py`): the
    per-row merge of the joined LEDA / EDD / KK / 2MASS / NSA catalogs into
    one simplified row, the selection filter, the K-band supplement from the
    2MASS extended source catalog, removal of listed objects and the 6dF
    supplement. Sky matches arrive as index and distance arrays; the
    distance modulus and the luminosity distance are given functions. */
module MasterList {
  import opened Wrappers
  import opened Masks
  import opened Fallback

  /** Speed of light in km/s. */
  const C_KMS: real := 299792.458
  /** Hubble constant of the WMAP9 cosmology, km/s/Mpc. */
  const H0: real := 69.32

  /** A row of the joined master catalog, with the columns the merge reads.
      Every column may be masked except the join key `pgc`. */
  datatype MergedRow = MergedRow(
    pgc: int,
    al2000: Option<real>,         // LEDA right ascension, hours
    de2000: Option<real>,         // LEDA declination, degrees
    nsaRa: Option<real>,          // NSA `RA`, degrees
    nsaDec: Option<real>,         // NSA `DEC`, degrees
    nsaid: Option<int>,
    objnameEdd: Option<string>,   // `Objname` (EDD)
    nameEddkk: Option<string>,    // `Name_eddkk` (KK)
    objnameLeda: Option<string>,  // `objname` (LEDA)
    name2mass: Option<string>,    // `Name_2mass`
    vLeda: Option<real>,          // `v`
    vhelEdd: Option<real>,        // `Vhel_eddkk`
    zNsa: Option<real>,           // `Z`
    vhKk: Option<real>,           // `Vh`
    soEddkk: Option<int>,         // EDD distance source flag
    distEdd: Option<real>,
    zdist: Option<real>,          // NSA `ZDIST`
    distKk: Option<real>,
    absmagR: Option<real>,
    absmagI: Option<real>,
    absmagZ: Option<real>,
    iTotal: Option<real>,         // `it`
    kTc: Option<real>,            // `K_tc`
    eK: Option<real>,
    mass: Option<real>,           // NSA `MASS`, h^-2 solar masses
    b300: Option<real>,
    b1000: Option<real>)

  /** A row of the simplified master catalog. */
  datatype CatalogRow = CatalogRow(
    ra: Option<real>,
    dec: Option<real>,
    pgc: Option<int>,
    nsaid: Option<int>,
    othername: Option<string>,
    vhelio: Option<real>,
    distance: Option<real>,
    r: Option<real>,
    i: Option<real>,
    z: Option<real>,
    iBand: Option<real>,          // column `I`
    k: Option<real>,
    kErr: Option<real>,
    mStar: Option<real>,
    sfrB300: Option<real>,
    sfrB1000: Option<real>)

  /** Sum of two cells, masked when either is. */
  function Plus(a: Option<real>, b: Option<real>): (s: Option<real>)
    ensures s.Some? <==> a.Some? && b.Some?
    ensures s.Some? ==> s.value == a.value + b.value
  {
    if a.Some? && b.Some? then Some(a.value + b.value) else None
  }

  /** The EDD distance, used only where the EDD flags it as its own (`So_eddkk == 1`). */
  function EddDistance(m: MergedRow): Option<real> {
    if m.soEddkk == Some(1) then m.distEdd else None
  }

  /** Velocity (km/s) from the NSA redshift. */
  function NsaVelocity(m: MergedRow): Option<real> {
    m.zNsa.Map(z => z * C_KMS)
  }

  /** Hubble-flow distance (Mpc) from the NSA distance redshift. */
  function NsaDistance(m: MergedRow): Option<real> {
    m.zdist.Map(z => z * C_KMS / H0)
  }

  /** Right ascension from hours to degrees. */
  function HoursToDegrees(h: real): real {
    h * 15.0
  }

  /** Converts a stellar mass given in h^-2 solar masses into solar masses,
      for the adopted `H0`, by dividing by h^2. */
  function LittleHSquared(x: real): real {
    x / ((H0 / 100.0) * (H0 / 100.0))
  }

  /** The position columns: the NSA value overwrites the HyperLEDA one. */
  function MergedRa(m: MergedRow): (r: Option<real>)
    ensures r == FirstPresent([m.nsaRa, m.al2000.Map(HoursToDegrees)])
  {
    OverwriteIsLastPresent(m.al2000.Map(HoursToDegrees), [m.nsaRa]);
    assert Reverse([m.nsaRa]) + [m.al2000.Map(HoursToDegrees)] == [m.nsaRa, m.al2000.Map(HoursToDegrees)];
    Overwrite(m.al2000.Map(HoursToDegrees), [m.nsaRa])
  }

  function MergedDec(m: MergedRow): (r: Option<real>)
    ensures r == FirstPresent([m.nsaDec, m.de2000])
  {
    OverwriteIsLastPresent(m.de2000, [m.nsaDec]);
    assert Reverse([m.nsaDec]) + [m.de2000] == [m.nsaDec, m.de2000];
    Overwrite(m.de2000, [m.nsaDec])
  }

  /** The other name: EDD, then KK, then HyperLEDA, then 2MASS, each
      overwriting the last. */
  function MergedName(m: MergedRow): (r: Option<string>)
    ensures r == FirstPresent([m.name2mass, m.objnameLeda, m.nameEddkk, m.objnameEdd])
  {
    OverwriteIsLastPresent(None, [m.objnameEdd, m.nameEddkk, m.objnameLeda, m.name2mass]);
    FirstPresentAppend([m.name2mass, m.objnameLeda, m.nameEddkk, m.objnameEdd], [None]);
    ReverseFour(m.objnameEdd, m.nameEddkk, m.objnameLeda, m.name2mass);
    assert FirstPresent<string>([None]) == None;
    Overwrite(None, [m.objnameEdd, m.nameEddkk, m.objnameLeda, m.name2mass])
  }

  /** The velocity: HyperLEDA, then EDD, then NSA, then KK, each overwriting
      the last. */
  function MergedVelocity(m: MergedRow): (r: Option<real>)
    ensures r == FirstPresent([m.vhKk, NsaVelocity(m), m.vhelEdd, m.vLeda])
  {
    OverwriteIsLastPresent(m.vLeda, [m.vhelEdd, NsaVelocity(m), m.vhKk]);
    ReverseThree(m.vhelEdd, NsaVelocity(m), m.vhKk);
    assert [m.vhKk, NsaVelocity(m), m.vhelEdd] + [m.vLeda] == [m.vhKk, NsaVelocity(m), m.vhelEdd, m.vLeda];
    Overwrite(m.vLeda, [m.vhelEdd, NsaVelocity(m), m.vhKk])
  }

  /** The distance: EDD's own, else NSA's, else KK's, each filling only a
      masked cell. */
  function MergedDistance(m: MergedRow): (r: Option<real>)
    ensures r == FirstPresent([EddDistance(m), NsaDistance(m), m.distKk])
  {
    FillIsFirstPresent(EddDistance(m), [NsaDistance(m), m.distKk]);
    assert [EddDistance(m)] + [NsaDistance(m), m.distKk] == [EddDistance(m), NsaDistance(m), m.distKk];
    Fill(EddDistance(m), [NsaDistance(m), m.distKk])
  }

  /** `simplify_catalog` on one row. Position, names and velocity are built
      as the source does, by overwriting wherever a later column is present;
      the distance by filling only what is still masked. The contract states
      each as a priority list, highest priority first. `distMod` is the
      distance modulus `5 log10(d) + 25` of a positive distance; the masked
      logarithm masks the modulus of any other. */
  function SimplifyRow(m: MergedRow, distMod: real -> real): (c: CatalogRow)
    ensures c.ra == FirstPresent([m.nsaRa, m.al2000.Map(HoursToDegrees)])
    ensures c.dec == FirstPresent([m.nsaDec, m.de2000])
    ensures c.pgc.Some? <==> m.pgc >= 0
    ensures c.pgc.Some? ==> c.pgc.value == m.pgc
    ensures c.othername == FirstPresent([m.name2mass, m.objnameLeda, m.nameEddkk, m.objnameEdd])
    ensures c.vhelio == FirstPresent([m.vhKk, NsaVelocity(m), m.vhelEdd, m.vLeda])
    ensures c.distance == FirstPresent([EddDistance(m), NsaDistance(m), m.distKk])
    ensures c.r.Some? <==> m.absmagR.Some? && c.distance.Some? && c.distance.value > 0.0
    ensures c.r.Some? ==> c.r.value == m.absmagR.value + distMod(c.distance.value)
    ensures c.i.Some? <==> m.absmagI.Some? && c.distance.Some? && c.distance.value > 0.0
    ensures c.i.Some? ==> c.i.value == m.absmagI.value + distMod(c.distance.value)
    ensures c.z.Some? <==> m.absmagZ.Some? && c.distance.Some? && c.distance.value > 0.0
    ensures c.z.Some? ==> c.z.value == m.absmagZ.value + distMod(c.distance.value)
    ensures c.nsaid == m.nsaid && c.iBand == m.iTotal && c.k == m.kTc && c.kErr == m.eK
    ensures c.sfrB300 == m.b300 && c.sfrB1000 == m.b1000
    ensures c.mStar.Some? <==> m.mass.Some?
    ensures c.mStar.Some? ==> c.mStar.value * (H0 / 100.0) * (H0 / 100.0) == m.mass.value
  {
    var dist := MergedDistance(m);
    // the masked logarithm masks every distance that is not positive
    var distmod := if dist.Some? && dist.value > 0.0 then Some(distMod(dist.value)) else None;
    CatalogRow(
      MergedRa(m), MergedDec(m),
      if m.pgc < 0 then None else Some(m.pgc),
      m.nsaid, MergedName(m), MergedVelocity(m), dist,
      Plus(m.absmagR, distmod), Plus(m.absmagI, distmod), Plus(m.absmagZ, distmod),
      m.iTotal, m.kTc, m.eK,
      m.mass.Map(LittleHSquared),
      m.b300, m.b1000)
  }

  /** The velocity of the KK catalog wins whenever it is present, and the
      velocity is masked only when all four sources are. */
  lemma VelocityPriority(m: MergedRow, distMod: real -> real)
    ensures m.vhKk.Some? ==> SimplifyRow(m, distMod).vhelio == m.vhKk
    ensures SimplifyRow(m, distMod).vhelio.None? <==>
              m.vhKk.None? && m.zNsa.None? && m.vhelEdd.None? && m.vLeda.None?
  {
    var srcs := [m.vhKk, NsaVelocity(m), m.vhelEdd, m.vLeda];
    FirstPresentAt(srcs);
    assert srcs[0] == m.vhKk && srcs[1] == NsaVelocity(m) && srcs[2] == m.vhelEdd && srcs[3] == m.vLeda;
  }

  /** The distance is the EDD one when the EDD flags it, otherwise the NSA
      Hubble-flow one, otherwise the KK one. */
  lemma DistancePriority(m: MergedRow, distMod: real -> real)
    ensures m.soEddkk == Some(1) && m.distEdd.Some? ==> SimplifyRow(m, distMod).distance == m.distEdd
    ensures EddDistance(m).None? && m.zdist.Some? ==>
              SimplifyRow(m, distMod).distance == Some(m.zdist.value * C_KMS / H0)
    ensures EddDistance(m).None? && m.zdist.None? ==> SimplifyRow(m, distMod).distance == m.distKk
  {
    var srcs := [EddDistance(m), NsaDistance(m), m.distKk];
    assert srcs[1..] == [NsaDistance(m), m.distKk];
    assert srcs[1..][1..] == [m.distKk];
    assert srcs[1..][1..][1..] == [];
    if EddDistance(m).None? {
      assert FirstPresent(srcs) == FirstPresent([NsaDistance(m), m.distKk]);
      if m.zdist.Some? {
        assert NsaDistance(m) == Some(m.zdist.value * C_KMS / H0);
      } else {
        assert FirstPresent([NsaDistance(m), m.distKk]) == FirstPresent([m.distKk]);
        assert FirstPresent([m.distKk]) == m.distKk by {
          assert [m.distKk][1..] == [];
        }
      }
    }
  }

  /** `simplify_catalog`. */
  function Simplify(cat: seq<MergedRow>, distMod: real -> real): (r: seq<CatalogRow>)
    ensures |r| == |cat|
    ensures forall i :: 0 <= i < |cat| ==> r[i] == SimplifyRow(cat[i], distMod)
  {
    seq(|cat|, i requires 0 <= i < |cat| => SimplifyRow(cat[i], distMod))
  }

  // ------------------------------------------------------------ filter_catalog

  predicate HasNirPhotometry(row: CatalogRow) {
    row.i.Some? || row.z.Some? || row.iBand.Some? || row.k.Some?
  }

  /** The master-list selection criteria for one row. */
  predicate Admissible(row: CatalogRow, vcut: Option<real>, mustHaveNirPhot: bool) {
    row.ra.Some? && row.dec.Some?
    && (row.distance.Some? || row.vhelio.Some?)
    && (vcut.Some? ==> row.vhelio.Some? && row.vhelio.value < vcut.value)
    && (mustHaveNirPhot ==> HasNirPhotometry(row))
  }

  /** `filter_catalog`: the keep-mask is narrowed stage by stage and applied
      to the catalog. */
  function FilterCatalog(cat: seq<CatalogRow>, vcut: Option<real>, mustHaveNirPhot: bool): (r: seq<CatalogRow>)
    ensures r == Filter(cat, row => Admissible(row, vcut, mustHaveNirPhot))
  {
    var n := |cat|;
    var hasPos := seq(n, i requires 0 <= i < n => cat[i].ra.Some? && cat[i].dec.Some?);
    var hasDistOrV := seq(n, i requires 0 <= i < n => !(cat[i].distance.None? && cat[i].vhelio.None?));
    var m1 := And(hasPos, hasDistOrV);
    var m2 := if vcut.Some? then
                And(m1, seq(n, i requires 0 <= i < n => cat[i].vhelio.Some? && cat[i].vhelio.value < vcut.value))
              else m1;
    var m3 := if mustHaveNirPhot then And(m2, seq(n, i requires 0 <= i < n => HasNirPhotometry(cat[i]))) else m2;
    SelectIsFilter(cat, m3, row => Admissible(row, vcut, mustHaveNirPhot));
    Select(cat, m3)
  }

  /** Every kept row meets the criteria, every row meeting them is kept, and
      no row is duplicated. */
  lemma FilterCatalogExact(cat: seq<CatalogRow>, vcut: Option<real>, mustHaveNirPhot: bool)
    ensures forall row :: row in FilterCatalog(cat, vcut, mustHaveNirPhot) <==>
              row in cat && Admissible(row, vcut, mustHaveNirPhot)
    ensures multiset(FilterCatalog(cat, vcut, mustHaveNirPhot)) <= multiset(cat)
  {
    FilterMembers(cat, row => Admissible(row, vcut, mustHaveNirPhot));
  }

  // ------------------------------------------------------------ add_twomassxsc

  /** A 2MASS extended source: total K magnitude and its error. */
  datatype XscSource = XscSource(kMag: real, kErr: real)

  /** `add_twomassxsc`, column by column as the source does it: rows without
      K take the nearest XSC source's values, those not within `tol` are then
      masked, and the rows that had K are unmasked again. */
  function AddTwoMassXsc(cat: seq<CatalogRow>, xsc: seq<XscSource>, idx: seq<nat>, dd: seq<real>, tol: real)
    : (r: seq<CatalogRow>)
    requires |idx| == |cat| && |dd| == |cat|
    requires forall i :: 0 <= i < |idx| ==> idx[i] < |xsc|
    ensures |r| == |cat|
    ensures forall i :: 0 <= i < |cat| && cat[i].k.Some? ==> r[i] == cat[i]
    ensures forall i :: 0 <= i < |cat| && cat[i].k.None? && dd[i] < tol ==>
              r[i] == cat[i].(k := Some(xsc[idx[i]].kMag), kErr := Some(xsc[idx[i]].kErr))
    ensures forall i :: 0 <= i < |cat| && cat[i].k.None? && !(dd[i] < tol) ==>
              r[i] == cat[i].(kErr := None)
  {
    var n := |cat|;
    var premask := seq(n, i requires 0 <= i < n => cat[i].k.None?);
    var matches := seq(n, i requires 0 <= i < n => dd[i] < tol);
    // mK[premask] = k_m_ext[idx][premask], likewise for the error
    var k1 := seq(n, i requires 0 <= i < n => if premask[i] then Some(xsc[idx[i]].kMag) else cat[i].k);
    var e1 := seq(n, i requires 0 <= i < n => if premask[i] then Some(xsc[idx[i]].kErr) else cat[i].kErr);
    // mK.mask[~matches] = True
    var k2 := seq(n, i requires 0 <= i < n => if !matches[i] then None else k1[i]);
    var e2 := seq(n, i requires 0 <= i < n => if !matches[i] then None else e1[i]);
    // mK.mask[~premask] = False: the rows that had K get their values back
    var k3 := seq(n, i requires 0 <= i < n => if !premask[i] then cat[i].k else k2[i]);
    var e3 := seq(n, i requires 0 <= i < n => if !premask[i] then cat[i].kErr else e2[i]);
    seq(n, i requires 0 <= i < n => cat[i].(k := k3[i], kErr := e3[i]))
  }

  // ------------------------------------------------------------ remove_from_list

  /** Rows of a list of length `n` that no index of `idx` names. */
  function KeepMask(n: nat, idx: seq<nat>): (m: seq<bool>)
    ensures |m| == n
    ensures forall i :: 0 <= i < n ==> (m[i] <==> i !in idx)
  {
    seq(n, i requires 0 <= i < n => i !in idx)
  }

  /** The distinct row numbers named by `idx`. */
  function Named(idx: seq<nat>): set<nat> {
    set k | k in idx
  }

  /** `remove_from_list`: every remove-list entry names its nearest row
      (`idx`, at distance `d2d`); those rows are dropped. An entry farther
      than `tol` is an error when `errorOnNoMatch` is set, and otherwise its
      nearest row is dropped all the same. */
  function RemoveFromList<T>(lst: seq<T>, idx: seq<nat>, d2d: seq<real>, tol: real, errorOnNoMatch: bool)
    : (r: Result<seq<T>, string>)
    requires |d2d| == |idx|
    requires forall k :: 0 <= k < |idx| ==> idx[k] < |lst|
    ensures r.Failure? <==> errorOnNoMatch && exists k :: 0 <= k < |idx| && d2d[k] > tol
    ensures r.Success? ==> |r.value| == CountTrue(KeepMask(|lst|, idx)) == |lst| - |Named(idx)|
    ensures r.Success? ==> forall k :: 0 <= k < |r.value| ==>
              r.value[k] == lst[TrueIndices(KeepMask(|lst|, idx))[k]]
              && TrueIndices(KeepMask(|lst|, idx))[k] !in idx
    ensures r.Success? ==> forall i :: 0 <= i < |lst| && i !in idx ==>
              i in TrueIndices(KeepMask(|lst|, idx))
  {
    if errorOnNoMatch && exists k :: 0 <= k < |idx| && d2d[k] > tol then
      Failure("could not find matches for remove-list entries")
    else
      var m := KeepMask(|lst|, idx);
      SelectAt(lst, m);
      TrueIndicesAreTrue(m);
      TrueIndicesComplete(m);
      KeepMaskCount(|lst|, idx);
      Success(Select(lst, m))
  }

  lemma {:induction false} CountTrueAppend(a: seq<bool>, b: seq<bool>)
    ensures CountTrue(a + b) == CountTrue(a) + CountTrue(b)
  {
    if |a| > 0 {
      assert (a + b)[1..] == a[1..] + b;
      CountTrueAppend(a[1..], b);
    } else {
      assert a + b == b;
    }
  }

  /** Exactly the named rows are masked out. */
  lemma KeepMaskCount(n: nat, idx: seq<nat>)
    requires forall k :: 0 <= k < |idx| ==> idx[k] < n
    ensures CountTrue(KeepMask(n, idx)) == n - |Named(idx)|
  {
    KeepMaskCountUpTo(n, idx, n);
    assert KeepMask(n, idx)[..n] == KeepMask(n, idx);
    assert NamedBelow(idx, n) == Named(idx);
  }

  /** The distinct row numbers below `l` named by `idx`. */
  function NamedBelow(idx: seq<nat>, l: nat): set<nat> {
    set k | k in idx && k < l
  }

  lemma {:induction false} KeepMaskCountUpTo(n: nat, idx: seq<nat>, l: nat)
    requires l <= n
    ensures CountTrue(KeepMask(n, idx)[..l]) == l - |NamedBelow(idx, l)|
    ensures |NamedBelow(idx, l)| <= l
  {
    var m := KeepMask(n, idx);
    if l == 0 {
      assert NamedBelow(idx, 0) == {};
    } else {
      KeepMaskCountUpTo(n, idx, l - 1);
      assert m[..l] == m[..l - 1] + [m[l - 1]];
      CountTrueAppend(m[..l - 1], [m[l - 1]]);
      var below := NamedBelow(idx, l - 1);
      assert l - 1 !in below;
      if l - 1 in idx {
        assert NamedBelow(idx, l) == below + {l - 1};
      } else {
        assert NamedBelow(idx, l) == below;
      }
    }
  }

  // ------------------------------------------------------------ add_6df

  /** A 6dF galaxy: observed position, name and heliocentric redshift. */
  datatype SixdfRow = SixdfRow(obsRa: real, obsDec: real, targetName: string, zHelio: real)

  /** The master-list row made for an unmatched 6dF galaxy; the columns
      without a 6dF counterpart are masked. */
  function SixdfEntry(s: SixdfRow, lumDist: real -> real): CatalogRow {
    CatalogRow(Some(s.obsRa), Some(s.obsDec), None, None, Some(s.targetName),
               Some(s.zHelio * C_KMS), Some(lumDist(s.zHelio)),
               None, None, None, None, None, None, None, None, None)
  }

  /** Which 6dF galaxies have a catalog row within `tol`. */
  function CloseMask(dd: seq<real>, tol: real): (m: seq<bool>)
    ensures |m| == |dd| && forall k :: 0 <= k < |dd| ==> m[k] == (dd[k] < tol)
  {
    seq(|dd|, k requires 0 <= k < |dd| => dd[k] < tol)
  }

  /** Which 6dF galaxies have none. */
  function FarMask(dd: seq<real>, tol: real): (m: seq<bool>)
    ensures |m| == |dd| && forall k :: 0 <= k < |dd| ==> m[k] == !(dd[k] < tol)
  {
    seq(|dd|, k requires 0 <= k < |dd| => !(dd[k] < tol))
  }

  /** The master-list rows for a run of 6dF galaxies, in order. */
  function SixdfEntries(rows: seq<SixdfRow>, lumDist: real -> real): (es: seq<CatalogRow>)
    ensures |es| == |rows| && forall j :: 0 <= j < |rows| ==> es[j] == SixdfEntry(rows[j], lumDist)
  {
    seq(|rows|, j requires 0 <= j < |rows| => SixdfEntry(rows[j], lumDist))
  }

  /** The rows made for the unmatched galaxies are exactly the rows of the
      galaxies with no catalog row within `tol`. */
  lemma UnmatchedEntries(six: seq<SixdfRow>, dd: seq<real>, tol: real, lumDist: real -> real)
    requires |dd| == |six|
    ensures forall x :: x in SixdfEntries(Select(six, FarMask(dd, tol)), lumDist) <==>
              exists k :: 0 <= k < |six| && !(dd[k] < tol) && x == SixdfEntry(six[k], lumDist)
  {
    var unmatched := FarMask(dd, tol);
    var added := Select(six, unmatched);
    var entries := SixdfEntries(added, lumDist);
    SelectAt(six, unmatched);
    TrueIndicesAreTrue(unmatched);
    TrueIndicesComplete(unmatched);
    forall x | x in entries
      ensures exists k :: 0 <= k < |six| && !(dd[k] < tol) && x == SixdfEntry(six[k], lumDist)
    {
      var j :| 0 <= j < |entries| && entries[j] == x;
      var k := TrueIndices(unmatched)[j];
      assert unmatched[k];
    }
    forall k | 0 <= k < |six| && !(dd[k] < tol)
      ensures SixdfEntry(six[k], lumDist) in entries
    {
      assert unmatched[k];
      assert k in TrueIndices(unmatched);
      var j :| 0 <= j < |TrueIndices(unmatched)| && TrueIndices(unmatched)[j] == k;
      assert entries[j] == SixdfEntry(six[k], lumDist);
    }
  }

  /** First step of `add_6df`: the 6dF galaxies with no catalog row within
      `tol` are appended as new rows, in their order. */
  function AppendUnmatched(cat: seq<CatalogRow>, six: seq<SixdfRow>, dd: seq<real>, tol: real,
                           lumDist: real -> real): (t: seq<CatalogRow>)
    requires |dd| == |six|
    ensures |t| == |cat| + (|six| - CountTrue(CloseMask(dd, tol)))
    ensures t[..|cat|] == cat
    ensures forall x :: x in t[|cat|..] <==>
              exists k :: 0 <= k < |six| && !(dd[k] < tol) && x == SixdfEntry(six[k], lumDist)
  {
    var entries := SixdfEntries(Select(six, FarMask(dd, tol)), lumDist);
    NegatedCount(CloseMask(dd, tol), FarMask(dd, tol));
    UnmatchedEntries(six, dd, tol, lumDist);
    assert (cat + entries)[|cat|..] == entries;
    cat + entries
  }

  /** A mask and its negation split the rows between them. */
  lemma {:induction false} NegatedCount(a: seq<bool>, b: seq<bool>)
    requires |a| == |b| && forall i :: 0 <= i < |a| ==> b[i] == !a[i]
    ensures CountTrue(b) == |a| - CountTrue(a)
  {
    if |a| > 0 {
      NegatedCount(a[1..], b[1..]);
    }
  }

  /** The last 6dF galaxy, among those before `upto`, whose match within
      `tol` is row `j`. */
  function LastHit(idx: seq<nat>, dd: seq<real>, tol: real, j: nat, upto: nat): (h: Option<nat>)
    requires |dd| == |idx| && upto <= |idx|
    ensures h.Some? ==> h.value < upto && idx[h.value] == j && dd[h.value] < tol
    ensures h.Some? ==> forall k :: h.value < k < upto ==> !(idx[k] == j && dd[k] < tol)
    ensures h.None? ==> forall k :: 0 <= k < upto ==> !(idx[k] == j && dd[k] < tol)
  {
    if upto == 0 then None
    else if idx[upto - 1] == j && dd[upto - 1] < tol then Some(upto - 1)
    else LastHit(idx, dd, tol, j, upto - 1)
  }

  /** Reference result of the second step of `add_6df` for row `j`: a row
      without a velocity takes the velocity of the last 6dF galaxy matched
      to it within `tol`; every other row is unchanged. */
  function VelocityFilled(t: seq<CatalogRow>, six: seq<SixdfRow>, idx: seq<nat>, dd: seq<real>, tol: real, j: nat)
    : CatalogRow
    requires |idx| == |six| && |dd| == |six| && j < |t|
  {
    FilledBy(t, six, idx, dd, tol, j, |six|)
  }

  /** Row `j` once the first `upto` 6dF galaxies have been written. */
  function FilledBy(t: seq<CatalogRow>, six: seq<SixdfRow>, idx: seq<nat>, dd: seq<real>, tol: real, j: nat, upto: nat)
    : CatalogRow
    requires |idx| == |six| && |dd| == |six| && j < |t| && upto <= |six|
  {
    match LastHit(idx, dd, tol, j, upto)
    case Some(k) => if t[j].vhelio.None? then t[j].(vhelio := Some(six[k].zHelio * C_KMS)) else t[j]
    case None => t[j]
  }

  /** Second step of `add_6df`: each 6dF galaxy matched within `tol` to a
      row whose velocity was masked before the step writes its velocity
      there, in 6dF order, so the last one written stays. */
  method FillVelocities(t: seq<CatalogRow>, six: seq<SixdfRow>, idx: seq<nat>, dd: seq<real>, tol: real)
    returns (r: seq<CatalogRow>)
    requires |idx| == |six| && |dd| == |six|
    requires forall k :: 0 <= k < |idx| ==> idx[k] < |t|
    ensures |r| == |t|
    ensures forall j :: 0 <= j < |t| ==> r[j] == VelocityFilled(t, six, idx, dd, tol, j)
  {
    r := t;
    var k := 0;
    while k < |six|
      invariant k <= |six|
      invariant |r| == |t|
      invariant forall j :: 0 <= j < |t| ==> r[j] == FilledBy(t, six, idx, dd, tol, j, k)
    {
      if dd[k] < tol && t[idx[k]].vhelio.None? {
        r := r[idx[k] := t[idx[k]].(vhelio := Some(six[k].zHelio * C_KMS))];
      }
      k := k + 1;
    }
  }

  /** `add_6df`: unmatched 6dF galaxies are appended, then the catalog
      (with them) is matched again (`idx2`, `dd2`) and masked velocities
      are filled in. */
  method AddSixdf(cat: seq<CatalogRow>, six: seq<SixdfRow>, dd1: seq<real>, idx2: seq<nat>, dd2: seq<real>,
                  tol: real, lumDist: real -> real)
    returns (r: seq<CatalogRow>)
    requires |dd1| == |six| && |idx2| == |six| && |dd2| == |six|
    requires forall k :: 0 <= k < |six| ==> idx2[k] < |AppendUnmatched(cat, six, dd1, tol, lumDist)|
    ensures |r| == |AppendUnmatched(cat, six, dd1, tol, lumDist)|
    ensures forall j :: 0 <= j < |r| ==>
              r[j] == VelocityFilled(AppendUnmatched(cat, six, dd1, tol, lumDist), six, idx2, dd2, tol, j)
  {
    var t := AppendUnmatched(cat, six, dd1, tol, lumDist);
    r := FillVelocities(t, six, idx2, dd2, tol);
  }

  /** The 6dF step only ever fills a masked velocity: every other column,
      and every velocity already present, is left as it was. */
  lemma VelocityFilledOnlyFills(t: seq<CatalogRow>, six: seq<SixdfRow>, idx: seq<nat>, dd: seq<real>, tol: real, j: nat)
    requires |idx| == |six| && |dd| == |six| && j < |t|
    ensures VelocityFilled(t, six, idx, dd, tol, j).(vhelio := t[j].vhelio) == t[j]
    ensures t[j].vhelio.Some? ==> VelocityFilled(t, six, idx, dd, tol, j) == t[j]
    ensures VelocityFilled(t, six, idx, dd, tol, j).vhelio.Some? <==>
              t[j].vhelio.Some? || exists k :: 0 <= k < |six| && idx[k] == j && dd[k] < tol
  {
  }
}

=== FILE: pgc_match.dfy ===
/** Attaching PGC numbers to NSA galaxies (`add_nsa`). Each NSA row is
    matched on the sky to its nearest LEDA position; the match itself is an
    input (`idx`, `dd`). A row takes the PGC number of its match when the
    distance is within tolerance, duplicate claims on one PGC number are
    resolved in favour of the row with the smallest tie-break value, and
    every row left without a number gets the sentinel -1. */
module PgcMatch {
  import opened Wrappers
  import opened Masks
  import opened Join

  /** A master-catalog row as seen by the matcher: its PGC number and its
      LEDA position (hours and degrees), either of which may be masked. */
  datatype LedaPosition = LedaPosition(pgc: int, al2000: Option<real>, de2000: Option<real>)

  /** How duplicate claims are resolved (`removeduplicatepgcson`): not at
      all, by match distance (`'closest'`), or by a named NSA column whose
      values are given. */
  datatype DupRule = NoDedup | Closest | ByColumn(vals: seq<real>)

  /** An NSA row with the PGC number it was given and its match distance. */
  datatype Tagged<N> = Tagged(row: N, pgc: int, matchDist: real)

  /** Rows with both LEDA coordinates, the only ones that take part in the match. */
  function Located(master: seq<LedaPosition>): (m: seq<bool>)
    ensures |m| == |master|
    ensures forall i :: 0 <= i < |master| ==> (m[i] <==> master[i].al2000.Some? && master[i].de2000.Some?)
  {
    seq(|master|, i requires 0 <= i < |master| => master[i].al2000.Some? && master[i].de2000.Some?)
  }

  function Pgcs(master: seq<LedaPosition>): (p: seq<int>)
    ensures |p| == |master|
  {
    seq(|master|, i requires 0 <= i < |master| => master[i].pgc)
  }

  /** Well-formed match output: one nearest located row per NSA row. */
  predicate ValidMatch(master: seq<LedaPosition>, idx: seq<nat>, dd: seq<real>) {
    |dd| == |idx| && forall k :: 0 <= k < |idx| ==> idx[k] < CountTrue(Located(master))
  }

  /** `matchpgc`: the PGC number of the matched LEDA row when the match is
      within tolerance, 0 otherwise. `idx` indexes the located rows only. */
  function CandidateKeys(master: seq<LedaPosition>, idx: seq<nat>, dd: seq<real>, tol: real): (keys: seq<int>)
    requires ValidMatch(master, idx, dd)
    ensures |keys| == |idx|
    ensures forall k :: 0 <= k < |idx| ==>
              keys[k] == (if dd[k] < tol then master[TrueIndices(Located(master))[idx[k]]].pgc else 0)
  {
    var located := Select(Pgcs(master), Located(master));
    SelectAt(Pgcs(master), Located(master));
    seq(|idx|, k requires 0 <= k < |idx| => if dd[k] < tol then located[idx[k]] else 0)
  }

  /** Row `i` is the first minimiser of `vals` among the rows sharing its
      key: no such row has a smaller value, and none before it an equal one
      (the choice `argmin` makes). */
  predicate IsFirstMin(keys: seq<nat>, vals: seq<real>, i: nat)
    requires |vals| == |keys| && i < |keys|
  {
    forall j :: 0 <= j < |keys| && keys[j] == keys[i] ==> vals[i] <= vals[j] && (j < i ==> vals[i] < vals[j])
  }

  /** Reference result of the duplicate resolution: a positive key survives
      only on the first minimiser of its claimants; every other claimant is
      reset to 0. */
  function Resolved(keys: seq<nat>, vals: seq<real>): (r: seq<nat>)
    requires |vals| == |keys|
    ensures |r| == |keys|
  {
    seq(|keys|, i requires 0 <= i < |keys| => if keys[i] > 0 && !IsFirstMin(keys, vals, i) then 0 else keys[i])
  }

  /** `argmin` of `vals` over the rows `< upto` whose key is `n`: the first
      row holding the smallest value, absent when no row has key `n`. */
  function FirstArgMin(keys: seq<nat>, vals: seq<real>, n: nat, upto: nat): (b: Option<nat>)
    requires |vals| == |keys| && upto <= |keys|
    ensures b.Some? ==> b.value < upto && keys[b.value] == n
    ensures b.Some? ==> forall j :: 0 <= j < upto && keys[j] == n ==>
              vals[b.value] <= vals[j] && (j < b.value ==> vals[b.value] < vals[j])
    ensures b.None? ==> forall j :: 0 <= j < upto ==> keys[j] != n
  {
    if upto == 0 then None
    else
      var b := FirstArgMin(keys, vals, n, upto - 1);
      if keys[upto - 1] != n then b
      else if b.None? || vals[upto - 1] < vals[b.value] then Some(upto - 1)
      else b
  }

  /** One more than the largest key (the length of `np.bincount(keys)`). */
  function Bound(keys: seq<nat>): (b: nat)
    ensures forall i :: 0 <= i < |keys| ==> keys[i] < b
  {
    if |keys| == 0 then 0
    else
      var rest := Bound(keys[1..]);
      assert forall i :: 1 <= i < |keys| ==> keys[i] == keys[1..][i - 1];
      if keys[0] + 1 > rest then keys[0] + 1 else rest
  }

  /** Two rows with the same key make that key's count at least two. */
  lemma SharedKeyCount(keys: seq<nat>, i: nat, j: nat)
    requires i < j < |keys| && keys[i] == keys[j]
    ensures multiset(keys)[keys[i]] >= 2
  {
    assert keys == keys[..j] + [keys[j]] + keys[j + 1..];
    assert keys[i] in keys[..j];
  }

  /** The first minimiser of a key is unique. */
  lemma FirstMinUnique(keys: seq<nat>, vals: seq<real>, i: nat, j: nat)
    requires |vals| == |keys| && i < |keys| && j < |keys| && keys[i] == keys[j]
    requires IsFirstMin(keys, vals, i) && IsFirstMin(keys, vals, j)
    ensures i == j
  {
  }

  /** The resolution loop of `add_nsa`: for every key value claimed more
      than once (counts taken before the loop), the claimants are found in
      the running keys, all are reset to 0 and the argmin claimant gets the
      key back. */
  method ResolveDuplicates(keys: seq<nat>, vals: seq<real>) returns (r: seq<nat>)
    requires |vals| == |keys|
    ensures r == Resolved(keys, vals)
  {
    r := keys;
    var n := 0;
    var bound := Bound(keys);
    while n < bound
      invariant n <= bound
      invariant |r| == |keys|
      invariant forall i :: 0 <= i < |keys| ==> r[i] == (if keys[i] < n then Resolved(keys, vals)[i] else keys[i])
    {
      // the running keys claim `n` exactly where the original keys do
      assert forall i :: 0 <= i < |keys| ==> (r[i] == n <==> keys[i] == n);
      if multiset(keys)[n] > 1 {
        var bi := FirstArgMin(r, vals, n, |r|);
        var best := bi.value;
        assert keys[best] == n && IsFirstMin(keys, vals, best);
        r := seq(|r|, i requires 0 <= i < |r| => if r[i] == n then (if i == best then n else 0) else r[i]);
        forall i | 0 <= i < |keys| && keys[i] == n
          ensures r[i] == Resolved(keys, vals)[i]
        {
          if n > 0 && IsFirstMin(keys, vals, i) {
            FirstMinUnique(keys, vals, i, best);
          }
        }
      } else {
        forall i | 0 <= i < |keys| && keys[i] == n
          ensures IsFirstMin(keys, vals, i)
        {
          forall j | 0 <= j < |keys| && keys[j] == keys[i]
            ensures j == i
          {
            if j < i {
              SharedKeyCount(keys, j, i);
            } else if i < j {
              SharedKeyCount(keys, i, j);
            }
          }
        }
      }
      n := n + 1;
    }
  }

  /** After resolution each positive key is held by at most one row. */
  lemma ResolvedUnique(keys: seq<nat>, vals: seq<real>)
    requires |vals| == |keys|
    ensures forall i, j :: (0 <= i < |keys| && 0 <= j < |keys| && Resolved(keys, vals)[i] > 0
              && Resolved(keys, vals)[i] == Resolved(keys, vals)[j]) ==> i == j
  {
    var r := Resolved(keys, vals);
    forall i, j | 0 <= i < |keys| && 0 <= j < |keys| && r[i] > 0 && r[i] == r[j]
      ensures i == j
    {
      FirstMinUnique(keys, vals, i, j);
    }
  }

  /** Every key that some row claimed is still held by a row afterwards:
      resolution removes duplicates, never a PGC number altogether. */
  lemma ResolvedKeepsEveryKey(keys: seq<nat>, vals: seq<real>)
    requires |vals| == |keys|
    ensures forall i :: 0 <= i < |keys| && keys[i] > 0 ==>
              exists j :: 0 <= j < |keys| && Resolved(keys, vals)[j] == keys[i]
  {
    forall i | 0 <= i < |keys| && keys[i] > 0
      ensures exists j :: 0 <= j < |keys| && Resolved(keys, vals)[j] == keys[i]
    {
      var b := FirstArgMin(keys, vals, keys[i], |keys|);
      assert IsFirstMin(keys, vals, b.value);
      assert Resolved(keys, vals)[b.value] == keys[i];
    }
  }

  /** Resolving an already resolved assignment changes nothing. */
  lemma ResolvedIdempotent(keys: seq<nat>, vals: seq<real>)
    requires |vals| == |keys|
    ensures Resolved(Resolved(keys, vals), vals) == Resolved(keys, vals)
  {
    var r := Resolved(keys, vals);
    ResolvedUnique(keys, vals);
    forall i | 0 <= i < |r| && r[i] > 0
      ensures IsFirstMin(r, vals, i)
    {
      forall j | 0 <= j < |r| && r[j] == r[i]
        ensures j == i
      {
      }
    }
  }

  /** The PGC numbers assigned to the NSA rows (the new `pgc` column of the
      NSA table): the resolved candidates, with every 0 replaced by the
      sentinel -1. `np.bincount` raises on a negative key, so a negative PGC
      number among the candidates fails when duplicates are resolved. */
  method AssignPgc(master: seq<LedaPosition>, idx: seq<nat>, dd: seq<real>, tol: real, rule: DupRule)
    returns (r: Result<seq<int>, string>)
    requires ValidMatch(master, idx, dd)
    requires rule.ByColumn? ==> |rule.vals| == |idx|
    ensures r.Failure? <==> !rule.NoDedup? && exists k :: 0 <= k < |idx| && CandidateKeys(master, idx, dd, tol)[k] < 0
    ensures r.Success? ==> |r.value| == |idx|
    ensures r.Success? && rule.NoDedup? ==> forall k :: 0 <= k < |idx| ==>
              r.value[k] == (if CandidateKeys(master, idx, dd, tol)[k] == 0 then -1 else CandidateKeys(master, idx, dd, tol)[k])
    ensures r.Success? && !rule.NoDedup? ==> forall k :: 0 <= k < |idx| ==>
              var keys := CandidateKeys(master, idx, dd, tol);
              var vals := if rule.Closest? then dd else rule.vals;
              keys[k] >= 0 &&
              r.value[k] == (if keys[k] > 0 && IsFirstMin(NatKeys(keys), vals, k) then keys[k] else -1)
    ensures r.Success? ==> r.value == AssignedKeys(master, idx, dd, tol, rule)
  {
    var keys := CandidateKeys(master, idx, dd, tol);
    if rule.NoDedup? {
      r := Success(Sentinel(keys));
    } else if exists k :: 0 <= k < |idx| && keys[k] < 0 {
      r := Failure("np.bincount: negative PGC number");
    } else {
      var vals := if rule.Closest? then dd else rule.vals;
      var resolved := ResolveDuplicates(NatKeys(keys), vals);
      r := Success(Sentinel(resolved));
    }
  }

  /** The PGC number row `k` ends up with: without resolution its candidate,
      with resolution its candidate when it wins its claim; the sentinel -1
      wherever that leaves 0 or nothing. */
  function AssignedKey(master: seq<LedaPosition>, idx: seq<nat>, dd: seq<real>, tol: real, rule: DupRule, k: nat): int
    requires ValidMatch(master, idx, dd)
    requires rule.ByColumn? ==> |rule.vals| == |idx|
    requires k < |idx|
  {
    var keys := CandidateKeys(master, idx, dd, tol);
    if rule.NoDedup? then (if keys[k] == 0 then -1 else keys[k])
    else
      var vals := if rule.Closest? then dd else rule.vals;
      if keys[k] > 0 && IsFirstMin(NatKeys(keys), vals, k) then keys[k] else -1
  }

  /** The PGC number of every NSA row, in row order. */
  function AssignedKeys(master: seq<LedaPosition>, idx: seq<nat>, dd: seq<real>, tol: real, rule: DupRule): (p: seq<int>)
    requires ValidMatch(master, idx, dd)
    requires rule.ByColumn? ==> |rule.vals| == |idx|
    ensures |p| == |idx|
    ensures forall k :: 0 <= k < |idx| ==> p[k] == AssignedKey(master, idx, dd, tol, rule, k)
  {
    seq(|idx|, k requires 0 <= k < |idx| => AssignedKey(master, idx, dd, tol, rule, k))
  }

  /** A row keeps a PGC number only from a match within tolerance. */
  lemma AssignedWithinTolerance(master: seq<LedaPosition>, idx: seq<nat>, dd: seq<real>, tol: real, rule: DupRule)
    requires ValidMatch(master, idx, dd)
    requires rule.ByColumn? ==> |rule.vals| == |idx|
    ensures forall k :: 0 <= k < |idx| ==> AssignedKeys(master, idx, dd, tol, rule)[k] == -1 || dd[k] < tol
  {
    var keys := CandidateKeys(master, idx, dd, tol);
    forall k | 0 <= k < |idx| ensures AssignedKey(master, idx, dd, tol, rule, k) == -1 || dd[k] < tol {
      if AssignedKey(master, idx, dd, tol, rule, k) != -1 {
        assert keys[k] != 0;
      }
    }
  }

  /** Keys known to be non-negative, as naturals. */
  function NatKeys(keys: seq<int>): (r: seq<nat>)
    ensures |r| == |keys|
    ensures forall k :: 0 <= k < |keys| ==> r[k] == if keys[k] < 0 then 0 else keys[k]
  {
    seq(|keys|, k requires 0 <= k < |keys| => if keys[k] < 0 then 0 else keys[k])
  }

  /** `matchpgc[matchpgc == 0] -= 1`. */
  function Sentinel(keys: seq<int>): (r: seq<int>)
    ensures |r| == |keys|
    ensures forall k :: 0 <= k < |keys| ==> (r[k] == -1 <==> keys[k] == 0 || keys[k] == -1)
    ensures forall k :: 0 <= k < |keys| && keys[k] != 0 ==> r[k] == keys[k]
  {
    seq(|keys|, k requires 0 <= k < |keys| => if keys[k] == 0 then -1 else keys[k])
  }

  /** `add_nsa`: tag each NSA row with its PGC number and match distance and
      outer-join the master catalog with the NSA on the PGC number. */
  method AddNsa<M, N>(master: seq<(LedaPosition, M)>, nsa: seq<N>, idx: seq<nat>, dd: seq<real>,
                      tol: real, rule: DupRule)
    returns (r: Result<seq<Joined<int, (LedaPosition, M), Tagged<N>>>, string>)
    requires |nsa| == |idx|
    requires ValidMatch(Positions(master), idx, dd)
    requires rule.ByColumn? ==> |rule.vals| == |idx|
    ensures r.Success? <==> rule.NoDedup? || forall k :: 0 <= k < |idx| ==> CandidateKeys(Positions(master), idx, dd, tol)[k] >= 0
    ensures r.Success? ==> forall x :: x in r.value && x.right.Some? ==>
              x.right.value.row in nsa && (x.key == x.right.value.pgc)
              && (x.key == -1 || x.right.value.matchDist < tol)
    ensures r.Success? ==> forall i :: 0 <= i < |master| ==> HasLeft(r.value, master[i])
    ensures r.Success? ==> forall k :: 0 <= k < |nsa| ==>
              HasRight(r.value, AssignedKeys(Positions(master), idx, dd, tol, rule)[k],
                       Tagged(nsa[k], AssignedKeys(Positions(master), idx, dd, tol, rule)[k], dd[k]))
    ensures r.Success? ==> forall x :: x in r.value && x.right.Some? ==>
              IsTaggedRow(x.right.value, nsa, AssignedKeys(Positions(master), idx, dd, tol, rule), dd)
  {
    var pos := Positions(master);
    var keys := AssignPgc(pos, idx, dd, tol, rule);
    if keys.Failure? {
      return Failure(keys.error);
    }
    var pgc := keys.value;
    AssignedWithinTolerance(pos, idx, dd, tol, rule);
    NsaJoin(master, nsa, pgc, dd, tol);
    var left, tagged := Keyed(master), Tag(nsa, pgc, dd);
    r := Success(OuterJoin(left, tagged));
  }

  /** The NSA rows keyed by their assigned PGC number, each tagged with it
      and with its match distance. */
  function Tag<N>(nsa: seq<N>, pgc: seq<int>, dd: seq<real>): (t: seq<(int, Tagged<N>)>)
    requires |pgc| == |nsa| == |dd|
    ensures |t| == |nsa|
    ensures forall k :: 0 <= k < |nsa| ==> t[k] == (pgc[k], Tagged(nsa[k], pgc[k], dd[k]))
  {
    seq(|nsa|, k requires 0 <= k < |nsa| => (pgc[k], Tagged(nsa[k], pgc[k], dd[k])))
  }

  /** The master rows keyed by their PGC number. */
  function Keyed<M>(master: seq<(LedaPosition, M)>): (t: seq<(int, (LedaPosition, M))>)
    ensures |t| == |master|
    ensures forall i :: 0 <= i < |master| ==> t[i] == (master[i].0.pgc, master[i])
  {
    seq(|master|, i requires 0 <= i < |master| => (master[i].0.pgc, master[i]))
  }

  /** The join of the master rows with the tagged NSA rows keeps every row of
      both, each NSA row under its own number, and pairs nothing else. */
  lemma NsaJoin<M, N>(master: seq<(LedaPosition, M)>, nsa: seq<N>, pgc: seq<int>, dd: seq<real>, tol: real)
    requires |pgc| == |nsa| == |dd|
    requires forall k :: 0 <= k < |nsa| ==> pgc[k] == -1 || dd[k] < tol
    ensures forall x :: x in OuterJoin(Keyed(master), Tag(nsa, pgc, dd)) && x.right.Some? ==>
              x.right.value.row in nsa && x.key == x.right.value.pgc
              && (x.key == -1 || x.right.value.matchDist < tol)
    ensures forall i :: 0 <= i < |master| ==>
              HasLeft(OuterJoin(Keyed(master), Tag(nsa, pgc, dd)), master[i])
    ensures forall k :: 0 <= k < |nsa| ==>
              HasRight(OuterJoin(Keyed(master), Tag(nsa, pgc, dd)), pgc[k], Tagged(nsa[k], pgc[k], dd[k]))
    ensures forall x :: x in OuterJoin(Keyed(master), Tag(nsa, pgc, dd)) && x.right.Some? ==>
              IsTaggedRow(x.right.value, nsa, pgc, dd)
  {
    var left, right := Keyed(master), Tag(nsa, pgc, dd);
    MasterRowsJoined(master, right);
    NsaRowsJoined(left, nsa, pgc, dd, tol);
  }

  /** Every master row survives the join. */
  lemma MasterRowsJoined<M, R>(master: seq<(LedaPosition, M)>, right: seq<(int, R)>)
    ensures forall i :: 0 <= i < |master| ==>
              HasLeft(OuterJoin(Keyed(master), right), master[i])
  {
    var left := Keyed(master);
    OuterJoinContents(left, right);
    forall i | 0 <= i < |master|
      ensures HasLeft(OuterJoin(left, right), master[i])
    {
      assert left[i].1 == master[i];
    }
  }

  /** Some row of the join carries `a` on the left. */
  ghost predicate HasLeft<K, A, B>(joined: seq<Joined<K, A, B>>, a: A) {
    exists x :: x in joined && x.left == Some(a)
  }

  /** `t` is NSA row `k` tagged with key `pgc[k]` and distance `dd[k]`, for some `k`. */
  ghost predicate IsTaggedRow<N>(t: Tagged<N>, nsa: seq<N>, pgc: seq<int>, dd: seq<real>)
    requires |pgc| == |nsa| == |dd|
  {
    exists k :: 0 <= k < |nsa| && t == Tagged(nsa[k], pgc[k], dd[k])
  }

  /** Some row of the join carries `b` on the right under `key`. */
  ghost predicate HasRight<K, A, B>(joined: seq<Joined<K, A, B>>, key: K, b: B) {
    exists x :: x in joined && x.key == key && x.right == Some(b)
  }

  /** Every tagged NSA row comes out of the join under its own number, and
      every NSA part of the join is one of them. */
  lemma NsaRowsJoined<L, N>(left: seq<(int, L)>, nsa: seq<N>, pgc: seq<int>, dd: seq<real>, tol: real)
    requires |pgc| == |nsa| == |dd|
    requires forall k :: 0 <= k < |nsa| ==> pgc[k] == -1 || dd[k] < tol
    ensures forall k :: 0 <= k < |nsa| ==>
              HasRight(OuterJoin(left, Tag(nsa, pgc, dd)), pgc[k], Tagged(nsa[k], pgc[k], dd[k]))
    ensures forall x :: x in OuterJoin(left, Tag(nsa, pgc, dd)) && x.right.Some? ==>
              exists k :: 0 <= k < |nsa| && x.key == pgc[k] && x.right.value == Tagged(nsa[k], pgc[k], dd[k])
    ensures forall x :: x in OuterJoin(left, Tag(nsa, pgc, dd)) && x.right.Some? ==>
              x.right.value.row in nsa && x.key == x.right.value.pgc
              && (x.key == -1 || x.right.value.matchDist < tol)
  {
    NsaRowsKept(left, nsa, pgc, dd);
    NsaRowsOnly(left, nsa, pgc, dd);
    forall x | x in OuterJoin(left, Tag(nsa, pgc, dd)) && x.right.Some?
      ensures x.right.value.row in nsa && x.key == x.right.value.pgc
      ensures x.key == -1 || x.right.value.matchDist < tol
    {
      var k :| 0 <= k < |nsa| && x.key == pgc[k] && x.right.value == Tagged(nsa[k], pgc[k], dd[k]);
    }
  }

  lemma NsaRowsKept<L, N>(left: seq<(int, L)>, nsa: seq<N>, pgc: seq<int>, dd: seq<real>)
    requires |pgc| == |nsa| == |dd|
    ensures forall k :: 0 <= k < |nsa| ==>
              HasRight(OuterJoin(left, Tag(nsa, pgc, dd)), pgc[k], Tagged(nsa[k], pgc[k], dd[k]))
  {
    forall k | 0 <= k < |nsa|
      ensures HasRight(OuterJoin(left, Tag(nsa, pgc, dd)), pgc[k], Tagged(nsa[k], pgc[k], dd[k]))
    {
      NsaRowKept(left, nsa, pgc, dd, k);
    }
  }

  lemma NsaRowKept<L, N>(left: seq<(int, L)>, nsa: seq<N>, pgc: seq<int>, dd: seq<real>, k: nat)
    requires |pgc| == |nsa| == |dd| && k < |nsa|
    ensures HasRight(OuterJoin(left, Tag(nsa, pgc, dd)), pgc[k], Tagged(nsa[k], pgc[k], dd[k]))
  {
    var tagged := Tag(nsa, pgc, dd);
    OuterJoinContents(left, tagged);
    assert tagged[k] == (pgc[k], Tagged(nsa[k], pgc[k], dd[k]));
    var x :| x in OuterJoin(left, tagged) && x.key == tagged[k].0 && x.right == Some(tagged[k].1);
  }

  lemma NsaRowsOnly<L, N>(left: seq<(int, L)>, nsa: seq<N>, pgc: seq<int>, dd: seq<real>)
    requires |pgc| == |nsa| == |dd|
    ensures forall x :: x in OuterJoin(left, Tag(nsa, pgc, dd)) && x.right.Some? ==>
              exists k :: 0 <= k < |nsa| && x.key == pgc[k] && x.right.value == Tagged(nsa[k], pgc[k], dd[k])
  {
    var tagged := Tag(nsa, pgc, dd);
    OuterJoinContents(left, tagged);
    forall x | x in OuterJoin(left, tagged) && x.right.Some?
      ensures exists k :: 0 <= k < |nsa| && x.key == pgc[k] && x.right.value == Tagged(nsa[k], pgc[k], dd[k])
    {
      var k :| 0 <= k < |tagged| && tagged[k] == (x.key, x.right.value);
    }
  }

  function Positions<M>(master: seq<(LedaPosition, M)>): (p: seq<LedaPosition>)
    ensures |p| == |master|
    ensures forall i :: 0 <= i < |master| ==> p[i] == master[i].0
  {
    seq(|master|, i requires 0 <= i < |master| => master[i].0)
  }
}

=== FILE: targeting.dfy ===
/** Target selection around a host galaxy (`targeting.py`). The SDSS
    catalog of the host's surroundings is narrowed by a mask built from
    stages that are AND-ed together (magnitude band, galaxy/star gate,
    outer and inner radius, photometric flags); spectroscopic overrides then
    force rows in or out, and the selection is optionally shuffled. The
    angular distance to the host (`rhost`) and the host's kpc-to-degree
    scale are inputs. */
module Targeting {
  import opened Wrappers
  import opened Masks

  datatype Band = U | G | R | I | Z

  /** One SDSS photometric object with the columns the selection reads. */
  datatype SdssObject = SdssObject(
    objId: int,
    ra: real,
    dec: real,
    objType: int,                 // 3 = galaxy, 6 = star
    flags: bv64,
    u: real, g: real, r: real, i: real, z: real,
    au: real, ag: real, ar: real, // extinction in u, g, r
    fiberU: real, fiberG: real, fiberR: real, fiberI: real, fiberZ: real,
    specClass: string,            // spectroscopic class, "" without a spectrum
    specZ: real,                  // spectroscopic redshift, -1 without a spectrum
    rhost: real)                  // angular distance to the host, degrees

  function Mag(o: SdssObject, b: Band): real {
    match b
    case U => o.u
    case G => o.g
    case R => o.r
    case I => o.i
    case Z => o.z
  }

  function FiberMag(o: SdssObject, b: Band): real {
    match b
    case U => o.fiberU
    case G => o.fiberG
    case R => o.fiberR
    case I => o.fiberI
    case Z => o.fiberZ
  }

  /** A host galaxy. `degPerKpc` is the angle, in degrees, subtended by one
      kpc at the host's distance. */
  datatype Host = Host(name: string, nsaid: int, ra: real, dec: real, zspec: real, zdisterr: real,
                       degPerKpc: real, r: real, distmod: real)

  /** The keyword arguments of `select_targets`. A cut radius is in kpc
      when non-negative and in arcmin (negated) when negative. */
  datatype TargetConfig = TargetConfig(
    band: Band,
    faintLimit: real,
    brightLimit: real,
    galVsAllCutoff: real,
    inclSpecQsos: bool,
    removeSpecStars: bool,
    removeGalsAtHighZ: bool,
    photFlags: bool,
    outerCutRad: Option<real>,
    innerCutRad: Option<real>,
    randomize: bool)

  /** The defaults of `select_targets`. */
  const DefaultConfig: TargetConfig :=
    TargetConfig(R, 21.0, 15.0, 20.0, false, true, true, true, Some(250.0), Some(20.0), true)

  // ------------------------------------------------------------ stages

  /** A cut radius in degrees: a negative value is arcmin, a non-negative
      one kpc at the host's distance. */
  function RadiusDeg(rad: real, host: Host): (d: real)
    ensures rad < 0.0 ==> d * 60.0 == -rad
    ensures rad >= 0.0 ==> d == rad * host.degPerKpc
  {
    if rad < 0.0 then -rad / 60.0 else rad * host.degPerKpc
  }

  /** The two units of a cut radius: arcmin does not depend on the host's
      distance and a larger arcmin value is a wider cut; a kpc radius is a
      non-negative angle that grows with the radius. */
  lemma CutRadiusUnits(a: real, b: real, h1: Host, h2: Host)
    ensures a < 0.0 ==> RadiusDeg(a, h1) == RadiusDeg(a, h2) > 0.0
    ensures b < a < 0.0 ==> RadiusDeg(a, h1) < RadiusDeg(b, h1)
    ensures 0.0 <= a <= b && h1.degPerKpc >= 0.0 ==> 0.0 <= RadiusDeg(a, h1) <= RadiusDeg(b, h1)
  {
    if 0.0 <= a <= b && h1.degPerKpc >= 0.0 {
      assert a * h1.degPerKpc <= b * h1.degPerKpc;
    }
  }

  /** An outer cut in arcmin keeps the same rows whatever the host's distance. */
  lemma ArcminCutIgnoresDistance(cat: seq<SdssObject>, rad: real, h1: Host, h2: Host)
    requires rad < 0.0
    ensures OuterStage(cat, rad, h1) == OuterStage(cat, rad, h2)
  {
    CutRadiusUnits(rad, rad, h1, h2);
  }

  predicate InMagBand(o: SdssObject, cfg: TargetConfig) {
    cfg.brightLimit < Mag(o, cfg.band) < cfg.faintLimit
  }

  /** Imaging galaxies, and anything fainter than the galaxy/all cutoff. */
  predicate PassesTypeGate(o: SdssObject, cfg: TargetConfig) {
    o.objType == 3 || Mag(o, cfg.band) > cfg.galVsAllCutoff
  }

  predicate InsideOuter(o: SdssObject, rad: real, host: Host) {
    o.rhost < RadiusDeg(rad, host)
  }

  predicate OutsideInner(o: SdssObject, rad: real, host: Host) {
    o.rhost > RadiusDeg(rad, host)
  }

  const BINNED1: bv64 := 0x1000_0000
  const SATURATED: bv64 := 0x4_0000
  const BAD_COUNTS_ERROR: bv64 := 0x100_0000_0000

  /** Detected in one pass, not saturated, no bad counts error. */
  predicate GoodFlags(flags: bv64) {
    flags & BINNED1 != 0 && flags & SATURATED == 0 && flags & BAD_COUNTS_ERROR == 0
  }

  /** The stage masks, one per row predicate. */
  function MagStage(cat: seq<SdssObject>, cfg: TargetConfig): (m: seq<bool>)
    ensures |m| == |cat| && forall i :: 0 <= i < |cat| ==> m[i] == InMagBand(cat[i], cfg)
  {
    seq(|cat|, i requires 0 <= i < |cat| => InMagBand(cat[i], cfg))
  }

  function TypeStage(cat: seq<SdssObject>, cfg: TargetConfig): (m: seq<bool>)
    ensures |m| == |cat| && forall i :: 0 <= i < |cat| ==> m[i] == PassesTypeGate(cat[i], cfg)
  {
    seq(|cat|, i requires 0 <= i < |cat| => PassesTypeGate(cat[i], cfg))
  }

  function OuterStage(cat: seq<SdssObject>, rad: real, host: Host): (m: seq<bool>)
    ensures |m| == |cat| && forall i :: 0 <= i < |cat| ==> m[i] == InsideOuter(cat[i], rad, host)
  {
    seq(|cat|, i requires 0 <= i < |cat| => InsideOuter(cat[i], rad, host))
  }

  function InnerStage(cat: seq<SdssObject>, rad: real, host: Host): (m: seq<bool>)
    ensures |m| == |cat| && forall i :: 0 <= i < |cat| ==> m[i] == OutsideInner(cat[i], rad, host)
  {
    seq(|cat|, i requires 0 <= i < |cat| => OutsideInner(cat[i], rad, host))
  }

  function FlagStage(cat: seq<SdssObject>): (m: seq<bool>)
    ensures |m| == |cat| && forall i :: 0 <= i < |cat| ==> m[i] == GoodFlags(cat[i].flags)
  {
    seq(|cat|, i requires 0 <= i < |cat| => GoodFlags(cat[i].flags))
  }

  /** A row passes every selection stage that is switched on. */
  predicate PassesStages(o: SdssObject, cfg: TargetConfig, host: Host) {
    InMagBand(o, cfg) && PassesTypeGate(o, cfg)
    && (cfg.outerCutRad.Some? ==> InsideOuter(o, cfg.outerCutRad.value, host))
    && (cfg.innerCutRad.Some? ==> OutsideInner(o, cfg.innerCutRad.value, host))
    && (cfg.photFlags ==> GoodFlags(o.flags))
  }

  /** The selection mask before the overrides, AND-ed together stage by
      stage in the source's order; a stage that is switched off is skipped. */
  function StageMask(cat: seq<SdssObject>, cfg: TargetConfig, host: Host): (m: seq<bool>)
    ensures |m| == |cat|
    ensures forall i :: 0 <= i < |cat| ==> (m[i] <==> PassesStages(cat[i], cfg, host))
  {
    var m0 := And(MagStage(cat, cfg), TypeStage(cat, cfg));
    var m1 := if cfg.outerCutRad.Some? then And(m0, OuterStage(cat, cfg.outerCutRad.value, host)) else m0;
    var m2 := if cfg.innerCutRad.Some? then And(m1, InnerStage(cat, cfg.innerCutRad.value, host)) else m1;
    if cfg.photFlags then And(m2, FlagStage(cat)) else m2
  }

  /** Switching a stage on never re-includes a row: the mask with the outer
      cut, the inner cut or the flag cut keeps no row the mask without it
      dropped, and keeps no more rows. */
  lemma StagesOnlyNarrow(cat: seq<SdssObject>, cfg: TargetConfig, host: Host, outer: real, inner: real)
    ensures var on := cfg.(outerCutRad := Some(outer));
            var off := cfg.(outerCutRad := None);
            (forall i :: 0 <= i < |cat| && StageMask(cat, on, host)[i] ==> StageMask(cat, off, host)[i])
            && CountTrue(StageMask(cat, on, host)) <= CountTrue(StageMask(cat, off, host))
    ensures var on := cfg.(innerCutRad := Some(inner));
            var off := cfg.(innerCutRad := None);
            (forall i :: 0 <= i < |cat| && StageMask(cat, on, host)[i] ==> StageMask(cat, off, host)[i])
            && CountTrue(StageMask(cat, on, host)) <= CountTrue(StageMask(cat, off, host))
    ensures var on := cfg.(photFlags := true);
            var off := cfg.(photFlags := false);
            (forall i :: 0 <= i < |cat| && StageMask(cat, on, host)[i] ==> StageMask(cat, off, host)[i])
            && CountTrue(StageMask(cat, on, host)) <= CountTrue(StageMask(cat, off, host))
  {
    CountImplied(StageMask(cat, cfg.(outerCutRad := Some(outer)), host), StageMask(cat, cfg.(outerCutRad := None), host));
    CountImplied(StageMask(cat, cfg.(innerCutRad := Some(inner)), host), StageMask(cat, cfg.(innerCutRad := None), host));
    CountImplied(StageMask(cat, cfg.(photFlags := true), host), StageMask(cat, cfg.(photFlags := false), host));
  }

  /** A mask that implies another row by row has no more rows. */
  lemma {:induction false} CountImplied(a: seq<bool>, b: seq<bool>)
    requires |a| == |b|
    requires forall i :: 0 <= i < |a| && a[i] ==> b[i]
    ensures CountTrue(a) <= CountTrue(b)
  {
    if |a| > 0 {
      CountImplied(a[1..], b[1..]);
    }
  }

  // ------------------------------------------------------------ overrides

  predicate IsHighZGalaxy(o: SdssObject, host: Host) {
    o.specClass == "GALAXY" && o.specZ > host.zspec + 3.0 * host.zdisterr
  }

  /** Rows whose spectroscopic class is `cls`. */
  function ClassStage(cat: seq<SdssObject>, cls: string): (m: seq<bool>)
    ensures |m| == |cat| && forall i :: 0 <= i < |cat| ==> m[i] == (cat[i].specClass == cls)
  {
    seq(|cat|, i requires 0 <= i < |cat| => cat[i].specClass == cls)
  }

  function HighZStage(cat: seq<SdssObject>, host: Host): (m: seq<bool>)
    ensures |m| == |cat| && forall i :: 0 <= i < |cat| ==> m[i] == IsHighZGalaxy(cat[i], host)
  {
    seq(|cat|, i requires 0 <= i < |cat| => IsHighZGalaxy(cat[i], host))
  }

  /** The final mask: the stage mask, then the spectroscopic overrides in
      the source's order (QSOs set to `inclSpecQsos`, stars dropped,
      galaxies beyond the host's redshift dropped). */
  function SelectionMask(cat: seq<SdssObject>, cfg: TargetConfig, host: Host): (m: seq<bool>)
    ensures |m| == |cat|
  {
    var base := StageMask(cat, cfg, host);
    var m1 := Assign(base, ClassStage(cat, "QSO"), cfg.inclSpecQsos);
    var m2 := if cfg.removeSpecStars then Assign(m1, ClassStage(cat, "STAR"), false) else m1;
    if cfg.removeGalsAtHighZ then Assign(m2, HighZStage(cat, host), false) else m2
  }

  /** Reference definition of the selection of one row: a spectroscopic QSO
      is decided by `inclSpecQsos` alone, a spectroscopic star or high-z
      galaxy is out when its removal is switched on, and any other row is in
      exactly when it passes every stage. */
  predicate Selected(o: SdssObject, cfg: TargetConfig, host: Host) {
    if o.specClass == "QSO" then cfg.inclSpecQsos
    else if o.specClass == "STAR" && cfg.removeSpecStars then false
    else if IsHighZGalaxy(o, host) && cfg.removeGalsAtHighZ then false
    else PassesStages(o, cfg, host)
  }

  /** The sequential overrides agree with the reference definition row by row. */
  lemma SelectionMaskMeaning(cat: seq<SdssObject>, cfg: TargetConfig, host: Host)
    ensures forall i :: 0 <= i < |cat| ==> (SelectionMask(cat, cfg, host)[i] <==> Selected(cat[i], cfg, host))
  {
    assert "QSO" != "STAR" && "QSO" != "GALAXY";
  }

  /** `Selected` as a row predicate. */
  function SelectedBy(cfg: TargetConfig, host: Host): SdssObject -> bool {
    o => Selected(o, cfg, host)
  }

  /** A QSO is forced to `inclSpecQsos` whatever the stages decided, in or out. */
  lemma QsoOverride(cat: seq<SdssObject>, cfg: TargetConfig, host: Host, i: nat)
    requires i < |cat| && cat[i].specClass == "QSO"
    ensures SelectionMask(cat, cfg, host)[i] == cfg.inclSpecQsos
  {
    SelectionMaskMeaning(cat, cfg, host);
  }

  /** Boolean indexing with the selection mask keeps exactly the rows the
      reference definition selects, in catalog order. */
  lemma SelectionIsFilter(cat: seq<SdssObject>, cfg: TargetConfig, host: Host)
    ensures Select(cat, SelectionMask(cat, cfg, host)) == Filter(cat, SelectedBy(cfg, host))
  {
    var m := SelectionMask(cat, cfg, host);
    var p := SelectedBy(cfg, host);
    SelectionMaskMeaning(cat, cfg, host);
    assert forall i :: 0 <= i < |cat| ==> m[i] == p(cat[i]);
    SelectIsFilter(cat, m, p);
  }

  /** `select_targets`: the selected rows in catalog order, or shuffled
      (`draw` stands for the random generator) when `randomize` is set. */
  method SelectTargets(cat: seq<SdssObject>, cfg: TargetConfig, host: Host, draw: nat -> nat)
    returns (res: seq<SdssObject>)
    ensures !cfg.randomize ==> res == Filter(cat, SelectedBy(cfg, host))
    ensures multiset(res) == multiset(Filter(cat, SelectedBy(cfg, host)))
    ensures forall o :: o in res <==> o in cat && Selected(o, cfg, host)
  {
    SelectionIsFilter(cat, cfg, host);
    res := Select(cat, SelectionMask(cat, cfg, host));
    ghost var f := Filter(cat, SelectedBy(cfg, host));
    assert res == f;
    if cfg.randomize {
      res := Shuffle(res, draw);
    }
    FilterMembers(cat, SelectedBy(cfg, host));
    assert forall o :: o in res <==> o in f by {
      forall o ensures o in res <==> o in f {
        assert o in res <==> multiset(res)[o] > 0;
        assert o in f <==> multiset(f)[o] > 0;
      }
    }
  }

  // ------------------------------------------------------------ SQL query

  /** The variable parts of the SDSS query of `construct_sdss_query`. */
  datatype SdssQuery = SdssQuery(intoClause: string, funcPrefix: string, ra: real, dec: real, radArcmin: real)

  /** `construct_sdss_query`: with no target table the query runs directly
      against the skyserver and needs the `dbo.` function prefix; with one
      it is a CasJobs query writing `INTO mydb.<table>` without the prefix.
      The radius is given in degrees and sent in arcmin. */
  function ConstructSdssQuery(ra: real, dec: real, radius: real, into: Option<string>): (q: SdssQuery)
    ensures q.ra == ra && q.dec == dec && q.radArcmin == radius * 60.0
    ensures into.None? <==> q.intoClause == ""
    ensures into.None? <==> q.funcPrefix == "dbo."
    ensures into.Some? ==> (|q.intoClause| >= 10 && q.intoClause[10..] == into.value
                            && q.intoClause[..10] == "INTO mydb.")
  {
    match into
    case None => SdssQuery("", "dbo.", ra, dec, radius * 60.0)
    case Some(t) => SdssQuery("INTO mydb." + t, "", ra, dec, radius * 60.0)
  }
}

=== FILE: text.dfy ===
/** The string operations the catalog files are written and read with:
    Python's whitespace `split()` and `strip()`, `split(sep)`, substring
    search, `int()` on a token, `int(float(s))` on a plain decimal, `str(n)`
    and the zero-padded `'{:04}'` identifier format. Strings are sequences of
    characters; no encoding is modelled. */
module Text {
  import opened Wrappers

  /** Python's default whitespace for `split()` and `strip()`. */
  predicate IsSpace(c: char) {
    c == ' ' || c == '\t' || c == '\n' || c == '\r' || c == 11 as char || c == 12 as char
  }

  predicate SpaceFree(s: string) {
    forall k :: 0 <= k < |s| ==> !IsSpace(s[k])
  }

  predicate AllSpaces(s: string) {
    forall k :: 0 <= k < |s| ==> IsSpace(s[k])
  }

  predicate IsDigit(c: char) {
    '0' <= c <= '9'
  }

  predicate AllDigits(s: string) {
    forall k :: 0 <= k < |s| ==> IsDigit(s[k])
  }

  function Repeat(c: char, n: nat): (r: string)
    ensures |r| == n
  {
    seq(n, _ => c)
  }

  function StartsWith(s: string, p: string): bool {
    |p| <= |s| && s[..|p|] == p
  }

  // ---------------------------------------------------------------- split()

  /** `s.split()`: the maximal runs of non-whitespace characters, left to
      right; `cur` is the word read so far. */
  function WordsFrom(s: string, cur: string): (ws: seq<string>)
    requires SpaceFree(cur)
    ensures forall k :: 0 <= k < |ws| ==> |ws[k]| > 0 && SpaceFree(ws[k])
    decreases |s|
  {
    if |s| == 0 then (if |cur| > 0 then [cur] else [])
    else if IsSpace(s[0]) then (if |cur| > 0 then [cur] else []) + WordsFrom(s[1..], "")
    else WordsFrom(s[1..], cur + [s[0]])
  }

  function Words(s: string): (ws: seq<string>)
    ensures forall k :: 0 <= k < |ws| ==> |ws[k]| > 0 && SpaceFree(ws[k])
  {
    WordsFrom(s, "")
  }

  /** Reading a whitespace-free stretch only extends the current word. */
  lemma {:induction false} WordsFromSpaceFree(w: string, s: string, cur: string)
    requires SpaceFree(cur) && SpaceFree(w)
    ensures WordsFrom(w + s, cur) == WordsFrom(s, cur + w)
    decreases |w|
  {
    if |w| == 0 {
      assert w + s == s;
      assert cur + w == cur;
    } else {
      assert (w + s)[0] == w[0];
      assert (w + s)[1..] == w[1..] + s;
      assert cur + w == (cur + [w[0]]) + w[1..];
      WordsFromSpaceFree(w[1..], s, cur + [w[0]]);
    }
  }

  /** A run of whitespace ends the current word and is otherwise skipped. */
  lemma {:induction false} WordsFromSpaces(p: string, s: string, cur: string)
    requires SpaceFree(cur) && AllSpaces(p) && |p| > 0
    ensures WordsFrom(p + s, cur) == (if |cur| > 0 then [cur] else []) + WordsFrom(s, "")
    decreases |p|
  {
    assert (p + s)[0] == p[0];
    assert (p + s)[1..] == p[1..] + s;
    if |p| > 1 {
      WordsFromSpaces(p[1..], s, "");
    } else {
      assert p[1..] + s == s;
    }
  }

  /** A token followed by whitespace is split off as the first word. */
  lemma WordsCons(w: string, sep: string, rest: string)
    requires |w| > 0 && SpaceFree(w) && |sep| > 0 && AllSpaces(sep)
    ensures Words(w + sep + rest) == [w] + Words(rest)
  {
    assert w + sep + rest == w + (sep + rest);
    WordsFromSpaceFree(w, sep + rest, "");
    assert "" + w == w;
    WordsFromSpaces(sep, rest, w);
  }

  /** A single non-empty token splits to itself. */
  lemma WordsSingle(w: string)
    requires |w| > 0 && SpaceFree(w)
    ensures Words(w) == [w]
  {
    assert w + "" == w;
    WordsFromSpaceFree(w, "", "");
    assert "" + w == w;
  }

  // ---------------------------------------------------------------- strip()

  function LStrip(s: string): (r: string)
    ensures |r| > 0 ==> !IsSpace(r[0])
  {
    if |s| > 0 && IsSpace(s[0]) then LStrip(s[1..]) else s
  }

  function RStrip(s: string): (r: string)
    ensures |r| <= |s| && forall k :: 0 <= k < |r| ==> r[k] == s[k]
    ensures |r| > 0 ==> !IsSpace(r[|r| - 1])
  {
    if |s| > 0 && IsSpace(s[|s| - 1]) then RStrip(s[..|s| - 1]) else s
  }

  /** `s.strip()`. */
  function Strip(s: string): (r: string)
    ensures |r| > 0 ==> !IsSpace(r[0]) && !IsSpace(r[|r| - 1])
  {
    RStrip(LStrip(s))
  }

  /** Stripping leaves a whitespace-free string unchanged. */
  lemma StripSpaceFree(s: string)
    requires SpaceFree(s)
    ensures Strip(s) == s
  {
    assert LStrip(s) == s;
    assert RStrip(s) == s;
  }

  // ---------------------------------------------------------------- search

  /** `pat` occurs in `s` starting at position `j`. */
  predicate OccursAt(s: string, pat: string, j: nat) {
    j + |pat| <= |s| && s[j..j + |pat|] == pat
  }

  /** First position at or after `from` where `pat` occurs in `s`. */
  function IndexFrom(s: string, pat: string, from: nat): (r: Option<nat>)
    ensures r.Some? ==> from <= r.value && OccursAt(s, pat, r.value)
    ensures r.Some? ==> forall j: nat :: from <= j < r.value ==> !OccursAt(s, pat, j)
    ensures r.None? ==> forall j: nat :: from <= j ==> !OccursAt(s, pat, j)
    decreases |s| - from
  {
    if from + |pat| > |s| then None
    else if OccursAt(s, pat, from) then Some(from)
    else IndexFrom(s, pat, from + 1)
  }

  /** First occurrence of `pat` in `s` (`s.find(pat)`), absent when it does not occur. */
  function IndexOf(s: string, pat: string): Option<nat> {
    IndexFrom(s, pat, 0)
  }

  /** `pat in s`. */
  predicate Contains(s: string, pat: string) {
    IndexOf(s, pat).Some?
  }

  /** `s.split(pat)[1]` for a `pat` that occurs in `s`: the text after the
      first occurrence, up to the next occurrence or the end. */
  function SecondPiece(s: string, pat: string): string
    requires Contains(s, pat)
  {
    var rest := s[IndexOf(s, pat).value + |pat|..];
    match IndexOf(rest, pat)
    case None => rest
    case Some(q) => rest[..q]
  }

  /** `s.split(c)` for a one-character separator; `cur` is the piece read so far. */
  function SplitFrom(s: string, c: char, cur: string): (parts: seq<string>)
    ensures |parts| >= 1
    decreases |s|
  {
    if |s| == 0 then [cur]
    else if s[0] == c then [cur] + SplitFrom(s[1..], c, "")
    else SplitFrom(s[1..], c, cur + [s[0]])
  }

  function Split(s: string, c: char): seq<string> {
    SplitFrom(s, c, "")
  }

  // ---------------------------------------------------------------- numbers

  function DigitChar(d: nat): (c: char)
    requires d < 10
    ensures IsDigit(c)
  {
    (48 + d) as char
  }

  function DigitValue(c: char): (d: nat)
    requires IsDigit(c)
    ensures d < 10
  {
    (c as int) - 48
  }

  /** `str(n)` for a natural number. */
  function Digits(n: nat): (s: string)
    ensures |s| > 0 && AllDigits(s)
    decreases n
  {
    if n < 10 then [DigitChar(n)] else Digits(n / 10) + [DigitChar(n % 10)]
  }

  /** Decimal value of a string of digits. */
  function ParseDigits(s: string): nat
    requires AllDigits(s)
  {
    if |s| == 0 then 0 else ParseDigits(s[..|s| - 1]) * 10 + DigitValue(s[|s| - 1])
  }

  lemma {:induction false} ParseDigitsOfDigits(n: nat)
    ensures ParseDigits(Digits(n)) == n
    decreases n
  {
    if n >= 10 {
      var s := Digits(n);
      assert s[..|s| - 1] == Digits(n / 10);
      ParseDigitsOfDigits(n / 10);
    }
  }

  /** Leading zeros do not change a decimal value. */
  lemma {:induction false} ParseDigitsLeadingZeros(z: string, s: string)
    requires AllDigits(s) && forall k :: 0 <= k < |z| ==> z[k] == '0'
    ensures AllDigits(z + s) && ParseDigits(z + s) == ParseDigits(s)
    decreases |z| + |s|
  {
    if |s| == 0 {
      assert z + s == z;
      if |z| > 0 {
        ParseDigitsLeadingZeros(z[..|z| - 1], s);
        assert z[..|z| - 1] + s == z[..|z| - 1];
      }
    } else {
      var t := z + s;
      assert t[..|t| - 1] == z + s[..|s| - 1];
      ParseDigitsLeadingZeros(z, s[..|s| - 1]);
    }
  }

  /** Left-pads a digit string with zeros to width `w`. */
  function ZeroPad(s: string, w: nat): string {
    if |s| < w then Repeat('0', w - |s|) + s else s
  }

  /** `str(i)`. */
  function IntToString(i: int): string {
    if i < 0 then "-" + Digits(-i) else Digits(i)
  }

  /** `'{:04}'.format(i)`: at least four characters, zero-padded after the sign. */
  function FormatId(i: int): string {
    if i < 0 then "-" + ZeroPad(Digits(-i), 3) else ZeroPad(Digits(i), 4)
  }

  /** A sign-optional decimal integer with no surrounding whitespace. */
  function ParseSigned(t: string): Option<int> {
    var neg := |t| > 0 && t[0] == '-';
    var body := if |t| > 0 && (t[0] == '-' || t[0] == '+') then t[1..] else t;
    if |body| > 0 && AllDigits(body) then Some(if neg then -(ParseDigits(body) as int) else ParseDigits(body))
    else None
  }

  /** `int(s)` on a string: optional surrounding whitespace, an optional
      sign and at least one decimal digit; `None` where Python raises
      ValueError. */
  function ParseInt(s: string): Option<int> {
    ParseSigned(Strip(s))
  }

  /** The whole part of an unsigned decimal literal: digits, at most one
      '.', more digits, and at least one digit in all; `None` otherwise. */
  function DecimalWhole(body: string): Option<nat> {
    var parts := Split(body, '.');
    if |parts| > 2 then None
    else
      var whole := parts[0];
      var frac := if |parts| == 2 then parts[1] else "";
      if AllDigits(whole) && AllDigits(frac) && |whole| + |frac| > 0 then Some(ParseDigits(whole))
      else None
  }

  /** `int(float(s))` for a plain decimal literal (sign, digits, optional
      fractional part): the value truncated toward zero; `None` otherwise. */
  function ParseTruncatedDecimal(s: string): Option<int> {
    var t := Strip(s);
    var neg := |t| > 0 && t[0] == '-';
    var body := if |t| > 0 && (t[0] == '-' || t[0] == '+') then t[1..] else t;
    match DecimalWhole(body)
    case None => None
    case Some(n) => Some(if neg then -(n as int) else n)
  }

  /** `int()` of a non-empty digit string is its decimal value. */
  lemma ParseIntDigits(d: string)
    requires |d| > 0 && AllDigits(d)
    ensures ParseInt(d) == Some(ParseDigits(d) as int)
  {
    assert SpaceFree(d);
    StripSpaceFree(d);
    assert IsDigit(d[0]);
  }

  /** `int()` of a minus sign followed by digits is the negated value. */
  lemma ParseIntNegDigits(d: string)
    requires |d| > 0 && AllDigits(d)
    ensures ParseInt("-" + d) == Some(-(ParseDigits(d) as int))
  {
    var m := "-" + d;
    assert SpaceFree(m);
    StripSpaceFree(m);
    assert m[0] == '-' && m[1..] == d;
  }

  /** The digits `'{:0w}'` prints for a natural number read back as that number. */
  lemma ZeroPadDigits(n: nat, w: nat)
    ensures |ZeroPad(Digits(n), w)| > 0 && AllDigits(ZeroPad(Digits(n), w))
    ensures ParseDigits(ZeroPad(Digits(n), w)) == n
  {
    var d := Digits(n);
    var z := if |d| < w then Repeat('0', w - |d|) else "";
    assert ZeroPad(d, w) == z + d;
    ParseDigitsLeadingZeros(z, d);
    ParseDigitsOfDigits(n);
  }

  /** Digits, signed or not, hold no whitespace. */
  lemma SignedDigitsSpaceFree(d: string)
    requires AllDigits(d)
    ensures SpaceFree(d) && SpaceFree("-" + d)
  {
    assert forall k :: 0 <= k < |d| ==> ("-" + d)[k + 1] == d[k];
  }

  /** A zero-padded natural number, with or without a minus sign, reads back. */
  lemma PaddedDigitsReadBack(n: nat, w: nat)
    ensures var z := ZeroPad(Digits(n), w);
            |z| > 0 && SpaceFree(z) && SpaceFree("-" + z)
            && ParseInt(z) == Some(n as int) && ParseInt("-" + z) == Some(-(n as int))
  {
    var z := ZeroPad(Digits(n), w);
    ZeroPadDigits(n, w);
    SignedDigitsSpaceFree(z);
    ParseIntDigits(z);
    ParseIntNegDigits(z);
  }

  /** Reading back `'{:04}'.format(i)` with `int()` gives `i`. */
  lemma FormatIdRoundTrip(i: int)
    ensures |FormatId(i)| > 0 && SpaceFree(FormatId(i))
    ensures ParseInt(FormatId(i)) == Some(i)
  {
    if i < 0 {
      PaddedDigitsReadBack(-i, 3);
    } else {
      PaddedDigitsReadBack(i, 4);
    }
  }

  /** Reading back `str(i)` with `int()` gives `i`. */
  lemma IntToStringRoundTrip(i: int)
    ensures |IntToString(i)| > 0 && SpaceFree(IntToString(i))
    ensures ParseInt(IntToString(i)) == Some(i)
  {
    if i < 0 {
      var d := Digits(-i);
      assert SpaceFree(d);
      assert IntToString(i) == "-" + d;
      assert SpaceFree("-" + d);
      ParseDigitsOfDigits(-i);
      ParseIntNegDigits(d);
    } else {
      var d := Digits(i);
      assert SpaceFree(d);
      ParseDigitsOfDigits(i);
      ParseIntDigits(d);
    }
  }

  /** Distinct numbers print differently. */
  lemma DigitsInjective(a: nat, b: nat)
    requires Digits(a) == Digits(b)
    ensures a == b
  {
    ParseDigitsOfDigits(a);
    ParseDigitsOfDigits(b);
  }

  /** Splitting passes over a stretch without the separator by adding it to
      the piece being read. */
  lemma {:induction false} SplitFromSkip(a: string, rest: string, c: char, cur: string)
    requires forall k :: 0 <= k < |a| ==> a[k] != c
    ensures SplitFrom(a + rest, c, cur) == SplitFrom(rest, c, cur + a)
    decreases |a|
  {
    if |a| == 0 {
      assert a + rest == rest && cur + a == cur;
    } else {
      assert (a + rest)[0] == a[0] && (a + rest)[1..] == a[1..] + rest;
      SplitFromSkip(a[1..], rest, c, cur + [a[0]]);
      assert cur + [a[0]] + a[1..] == cur + a;
    }
  }

  /** Digits split on '.' into themselves, and digits around one '.' into
      the two sides. */
  lemma {:induction false} SplitOnDot(w: string, f: string)
    requires AllDigits(w) && AllDigits(f)
    ensures Split(w, '.') == [w]
    ensures Split(w + "." + f, '.') == [w, f]
  {
    assert w + "" == w && "" + w == w && f + "" == f && "" + f == f;
    SplitFromSkip(w, "", '.', "");
    assert w + "." + f == w + ("." + f);
    SplitFromSkip(w, "." + f, '.', "");
    assert ("." + f)[0] == '.' && ("." + f)[1..] == f;
    assert SplitFrom("." + f, '.', w) == [w] + SplitFrom(f, '.', "");
    SplitFromSkip(f, "", '.', "");
    assert SplitFrom(f, '.', "") == [f];
  }

  /** The whole part of digits, with or without a fraction after a '.'. */
  lemma {:induction false} DecimalWholeForms(w: string, f: string)
    requires AllDigits(w) && AllDigits(f)
    ensures |w| > 0 ==> DecimalWhole(w) == Some(ParseDigits(w))
    ensures |w| + |f| > 0 ==> DecimalWhole(w + "." + f) == Some(ParseDigits(w))
  {
    SplitOnDot(w, f);
    assert AllDigits("");
  }

  /** A literal that does not start with a sign reads as its whole part,
      and with a '-' in front as the negated whole part. */
  lemma {:induction false} TruncatedDecimalSign(body: string, n: nat)
    requires SpaceFree(body) && |body| > 0 && body[0] != '-' && body[0] != '+'
    requires DecimalWhole(body) == Some(n)
    ensures ParseTruncatedDecimal(body) == Some(n as int)
    ensures ParseTruncatedDecimal("-" + body) == Some(-(n as int))
  {
    StripSpaceFree(body);
    var m := "-" + body;
    assert SpaceFree(m);
    StripSpaceFree(m);
    assert m[1..] == body;
  }

  /** `int(float(s))` of a decimal literal keeps the signed whole part and
      drops the fraction: "5." reads 5, ".5" reads 0, "-3.7" reads -3 and
      "-0.9" reads 0. */
  lemma {:induction false} TruncatedDecimalForms(w: string, f: string)
    requires AllDigits(w) && AllDigits(f) && |w| + |f| > 0
    ensures ParseTruncatedDecimal(w + "." + f) == Some(ParseDigits(w) as int)
    ensures ParseTruncatedDecimal("-" + w + "." + f) == Some(-(ParseDigits(w) as int))
  {
    var s := w + "." + f;
    assert "-" + w + "." + f == "-" + s by { DotConcat(w, f); }
    DecimalWholeForms(w, f);
    DottedSpaceFree(w, f);
    TruncatedDecimalSign(s, ParseDigits(w));
  }

  /** Concatenation regrouped, kept apart so the sequence reasoning stays local. */
  lemma DotConcat(w: string, f: string)
    ensures "-" + w + "." + f == "-" + (w + "." + f)
  {
  }

  /** Digits around a '.' hold no whitespace and do not start with a sign. */
  lemma DottedSpaceFree(w: string, f: string)
    requires AllDigits(w) && AllDigits(f)
    ensures var s := w + "." + f; SpaceFree(s) && s[0] != '-' && s[0] != '+'
  {
    var s := w + "." + f;
    forall k | 0 <= k < |s| ensures !IsSpace(s[k]) && s[k] != '-' && s[k] != '+' {
      if k < |w| {
        assert s[k] == w[k];
      } else if k > |w| {
        assert s[k] == f[k - |w| - 1];
      }
    }
  }

  /** `int(float(s))` of an integer literal is its value. */
  lemma {:induction false} TruncatedDecimalInteger(d: string)
    requires |d| > 0 && AllDigits(d)
    ensures ParseTruncatedDecimal(d) == Some(ParseDigits(d) as int)
    ensures ParseTruncatedDecimal("-" + d) == Some(-(ParseDigits(d) as int))
  {
    DecimalWholeForms(d, "");
    assert IsDigit(d[0]);
    TruncatedDecimalSign(d, ParseDigits(d));
  }

  /** `str(n)` of a natural number is an unsigned literal reading back as `n`. */
  lemma {:induction false} DigitsWhole(n: nat)
    ensures var d := Digits(n); SpaceFree(d) && d[0] != '-' && d[0] != '+'
    ensures DecimalWhole(Digits(n)) == Some(n)
  {
    var d := Digits(n);
    ParseDigitsOfDigits(n);
    DecimalWholeForms(d, "");
    assert IsDigit(d[0]);
  }

  /** Reading back `str(i)` with `int(float())` gives `i`. */
  lemma {:induction false} TruncatedDecimalRoundTrip(i: int)
    ensures ParseTruncatedDecimal(IntToString(i)) == Some(i)
  {
    var m: nat := if i < 0 then -i else i;
    DigitsWhole(m);
    TruncatedDecimalSign(Digits(m), m);
  }
}

=== FILE: wiyn.dfy ===
/** WIYN/Hydra bookkeeping (`wiyn.py`): choosing FOP (field orientation
    probe) stars, numbering the entries of the master catalog that whydra
    reads, rendering and checking one catalog line, and removing from the
    master catalog the science targets earlier whydra runs already gave a
    fiber. The angle formatting of coordinates is an input: a line is built
    from the already formatted right ascension and declination. */
module Wiyn {
  import opened Wrappers
  import opened Masks
  import opened Text
  import opened Targeting

  // ------------------------------------------------------------ FOP stars

  /** One USNO-B star; an R magnitude of 0 means it was not measured. */
  datatype UsnoStar = UsnoStar(id: string, ra: real, dec: real, r1: real, r2: real)

  /** The defaults of `select_fops`. */
  const FopFaintLimit: real := 13.5
  const FopBrightLimit: real := 12.0

  /** A FOP candidate: second-epoch R strictly inside the limits, and both
      R magnitudes measured. */
  predicate IsFop(s: UsnoStar, faint: real, bright: real) {
    bright < s.r2 < faint && s.r1 != 0.0 && s.r2 != 0.0
  }

  function FopBy(faint: real, bright: real): UsnoStar -> bool {
    s => IsFop(s, faint, bright)
  }

  function MagCuts(cat: seq<UsnoStar>, faint: real, bright: real): (m: seq<bool>)
    ensures |m| == |cat| && forall i :: 0 <= i < |cat| ==> m[i] == (bright < cat[i].r2 < faint)
  {
    seq(|cat|, i requires 0 <= i < |cat| => bright < cat[i].r2 < faint)
  }

  function BothRs(cat: seq<UsnoStar>): (m: seq<bool>)
    ensures |m| == |cat| && forall i :: 0 <= i < |cat| ==> m[i] == (cat[i].r1 != 0.0 && cat[i].r2 != 0.0)
  {
    seq(|cat|, i requires 0 <= i < |cat| => cat[i].r1 != 0.0 && cat[i].r2 != 0.0)
  }

  /** The combined FOP mask selects exactly the rows `IsFop` accepts. */
  lemma FopMaskIsFilter(cat: seq<UsnoStar>, faint: real, bright: real)
    ensures Select(cat, And(BothRs(cat), MagCuts(cat, faint, bright))) == Filter(cat, FopBy(faint, bright))
  {
    var m := And(BothRs(cat), MagCuts(cat, faint, bright));
    assert forall i :: 0 <= i < |cat| ==> m[i] == FopBy(faint, bright)(cat[i]);
    SelectIsFilter(cat, m, FopBy(faint, bright));
  }

  /** `select_fops`: the FOP candidates in catalog order, or shuffled
      (`draw` stands for the random generator) when `randomize` is set. */
  method SelectFops(cat: seq<UsnoStar>, faint: real, bright: real, randomize: bool, draw: nat -> nat)
    returns (res: seq<UsnoStar>)
    ensures !randomize ==> res == Filter(cat, FopBy(faint, bright))
    ensures multiset(res) == multiset(Filter(cat, FopBy(faint, bright)))
    ensures forall s :: s in res <==> s in cat && IsFop(s, faint, bright)
  {
    FopMaskIsFilter(cat, faint, bright);
    res := Select(cat, And(BothRs(cat), MagCuts(cat, faint, bright)));
    ghost var f := Filter(cat, FopBy(faint, bright));
    if randomize {
      res := Shuffle(res, draw);
    }
    FilterMembers(cat, FopBy(faint, bright));
    assert forall s :: s in res <==> s in f by {
      forall s ensures s in res <==> s in f {
        assert s in res <==> multiset(res)[s] > 0;
        assert s in f <==> multiset(f)[s] > 0;
      }
    }
  }

  // ------------------------------------------------------------ master catalog

  /** whydra accepts at most 2000 objects; the center takes one slot. */
  const MaxTargets: nat := 1999
  const MaxFops: nat := 2000
  const MaxSky: nat := 2000

  /** First identifier of each block of the master catalog. */
  const CenterId: int := 1
  const HostId: int := 1000
  const TargetBase: int := 2000
  const FopBase: int := 5000
  const SkyBase: int := 8000

  /** `s[:n]`: the first `n` rows, or all of them when there are fewer. */
  function Truncate<T>(s: seq<T>, n: nat): (r: seq<T>)
    ensures |r| == Min(|s|, n)
    ensures forall k :: 0 <= k < |r| ==> r[k] == s[k]
  {
    if |s| > n then s[..n] else s
  }

  /** One entry of the master catalog before it is rendered as a line. */
  datatype WhydraEntry = WhydraEntry(id: int, name: string, ra: real, dec: real, code: string)

  /** The codes whydra understands: center, object, sky, FOP, edge. */
  predicate ValidCode(code: string) {
    code == "C" || code == "O" || code == "S" || code == "F" || code == "E"
  }

  /** Entries numbered from `lo` upwards below `hi`, strictly increasing,
      each with a code whydra understands. */
  predicate Numbered(es: seq<WhydraEntry>, lo: int, hi: int) {
    (forall k :: 0 <= k < |es| ==> lo <= es[k].id < hi && ValidCode(es[k].code))
    && (forall j, k :: 0 <= j < k < |es| ==> es[j].id < es[k].id)
  }

  lemma NumberedConcat(a: seq<WhydraEntry>, b: seq<WhydraEntry>, lo: int, mid: int, hi: int)
    requires lo <= mid <= hi && Numbered(a, lo, mid) && Numbered(b, mid, hi)
    ensures Numbered(a + b, lo, hi)
  {
    assert forall k :: |a| <= k < |a + b| ==> (a + b)[k] == b[k - |a|];
  }

  /** The science targets: `SDSS` entries with the object code, numbered
      from `TargetBase`. */
  function TargetBlock(t: seq<SdssObject>): (es: seq<WhydraEntry>)
    ensures |es| == |t|
    ensures forall k :: 0 <= k < |t| ==> es[k] == WhydraEntry(TargetBase + k, "SDSS", t[k].ra, t[k].dec, "O")
  {
    seq(|t|, k requires 0 <= k < |t| => WhydraEntry(TargetBase + k, "SDSS", t[k].ra, t[k].dec, "O"))
  }

  /** The FOP stars, shifted by the USNO-to-SDSS offset, numbered from `FopBase`. */
  function FopBlock(f: seq<UsnoStar>, dra: real, ddec: real): (es: seq<WhydraEntry>)
    ensures |es| == |f|
    ensures forall k :: 0 <= k < |f| ==>
              es[k] == WhydraEntry(FopBase + k, "USNO" + f[k].id, f[k].ra - dra, f[k].dec - ddec, "F")
  {
    seq(|f|, k requires 0 <= k < |f| =>
          WhydraEntry(FopBase + k, "USNO" + f[k].id, f[k].ra - dra, f[k].dec - ddec, "F"))
  }

  /** The sky positions, named `sky1`, `sky2`, ... and numbered from `SkyBase`. */
  function SkyBlock(s: seq<(real, real)>): (es: seq<WhydraEntry>)
    ensures |es| == |s|
    ensures forall k :: 0 <= k < |s| ==>
              es[k] == WhydraEntry(SkyBase + k, "sky" + IntToString(k + 1), s[k].0, s[k].1, "S")
  {
    seq(|s|, k requires 0 <= k < |s| => WhydraEntry(SkyBase + k, "sky" + IntToString(k + 1), s[k].0, s[k].1, "S"))
  }

  /** The entries `construct_master_catalog` writes, in order: the host as
      center and as object, then the truncated targets, FOPs (shifted by the
      USNO-to-SDSS offset `dra`, `ddec`) and sky positions. */
  function MasterEntries(host: Host, targets: seq<SdssObject>, fops: seq<UsnoStar>,
                         sky: seq<(real, real)>, dra: real, ddec: real): (es: seq<WhydraEntry>)
    ensures |es| == 2 + Min(|targets|, MaxTargets) + Min(|fops|, MaxFops) + Min(|sky|, MaxSky)
  {
    [WhydraEntry(CenterId, "Center", host.ra, host.dec, "C"),
     WhydraEntry(HostId, "NSA" + IntToString(host.nsaid), host.ra, host.dec, "O")]
    + TargetBlock(Truncate(targets, MaxTargets))
    + FopBlock(Truncate(fops, MaxFops), dra, ddec)
    + SkyBlock(Truncate(sky, MaxSky))
  }

  /** The numbering of the master catalog: every identifier fits whydra's
      four digits, identifiers strictly increase (so none repeats), and every
      entry carries a code whydra understands. */
  lemma MasterEntriesNumbering(host: Host, targets: seq<SdssObject>, fops: seq<UsnoStar>,
                               sky: seq<(real, real)>, dra: real, ddec: real)
    ensures Numbered(MasterEntries(host, targets, fops, sky, dra, ddec), 1, 10000)
  {
    var head := [WhydraEntry(CenterId, "Center", host.ra, host.dec, "C"),
                 WhydraEntry(HostId, "NSA" + IntToString(host.nsaid), host.ra, host.dec, "O")];
    var tb := TargetBlock(Truncate(targets, MaxTargets));
    var fb := FopBlock(Truncate(fops, MaxFops), dra, ddec);
    var sb := SkyBlock(Truncate(sky, MaxSky));
    assert Numbered(head, 1, TargetBase);
    assert Numbered(tb, TargetBase, FopBase);
    assert Numbered(fb, FopBase, SkyBase);
    assert Numbered(sb, SkyBase, 10000);
    NumberedConcat(head, tb, 1, TargetBase, FopBase);
    NumberedConcat(head + tb, fb, 1, FopBase, SkyBase);
    NumberedConcat(head + tb + fb, sb, 1, SkyBase, 10000);
  }

  /** Each block of the master catalog holds a prefix of its input, in
      order: the host twice, then the first 1999 targets, the first 2000
      FOPs and the first 2000 sky positions. */
  lemma MasterEntriesLayout(host: Host, targets: seq<SdssObject>, fops: seq<UsnoStar>,
                            sky: seq<(real, real)>, dra: real, ddec: real)
    ensures var es := MasterEntries(host, targets, fops, sky, dra, ddec);
            var nt := Min(|targets|, MaxTargets);
            var nf := Min(|fops|, MaxFops);
            es[..2] == [WhydraEntry(CenterId, "Center", host.ra, host.dec, "C"),
                        WhydraEntry(HostId, "NSA" + IntToString(host.nsaid), host.ra, host.dec, "O")]
            && es[2..2 + nt] == TargetBlock(targets[..nt])
            && es[2 + nt..2 + nt + nf] == FopBlock(fops[..nf], dra, ddec)
            && es[2 + nt + nf..] == SkyBlock(sky[..Min(|sky|, MaxSky)])
  {
    var head := [WhydraEntry(CenterId, "Center", host.ra, host.dec, "C"),
                 WhydraEntry(HostId, "NSA" + IntToString(host.nsaid), host.ra, host.dec, "O")];
    var tb := TargetBlock(Truncate(targets, MaxTargets));
    var fb := FopBlock(Truncate(fops, MaxFops), dra, ddec);
    var sb := SkyBlock(Truncate(sky, MaxSky));
    var es := MasterEntries(host, targets, fops, sky, dra, ddec);
    assert es == head + tb + fb + sb;
    var nt := Min(|targets|, MaxTargets);
    var nf := Min(|fops|, MaxFops);
    assert Truncate(targets, MaxTargets) == targets[..nt];
    assert Truncate(fops, MaxFops) == fops[..nf];
    assert Truncate(sky, MaxSky) == sky[..Min(|sky|, MaxSky)];
    assert es[..2] == head;
    assert es[2..2 + nt] == tb;
    assert es[2 + nt..2 + nt + nf] == fb;
    assert es[2 + nt + nf..] == sb;
  }

  // ------------------------------------------------------------ one line

  /** Names longer than 20 characters are cut to their first 20. */
  function TrimName(name: string): (r: string)
    ensures |r| <= 20
    ensures |name| <= 20 ==> r == name
    ensures |name| > 20 ==> r == name[..20]
    ensures forall k :: 0 <= k < |r| ==> r[k] == name[k]
  {
    if |name| > 20 then name[..20] else name
  }

  /** `s[:-1]`. */
  function DropLast(s: string): (r: string)
    ensures |r| == if |s| == 0 then 0 else |s| - 1
    ensures forall k :: 0 <= k < |r| ==> r[k] == s[k]
  {
    if |s| == 0 then s else s[..|s| - 1]
  }

  function NotColon(c: char): bool {
    c != ':'
  }

  /** `s.replace(':', '')`. */
  function RemoveColons(s: string): (r: string)
    ensures forall c :: c in r <==> c in s && c != ':'
  {
    FilterMembers(s, NotColon);
    Filter(s, NotColon)
  }

  /** The name written on the line: trimmed to 20 characters, and the
      placeholder `SDSS` replaced by a `J` designation built from the
      formatted coordinates with their last digit and the colons dropped. */
  function DisplayName(name: string, rastr: string, decstr: string): string {
    var n := TrimName(name);
    if n == "SDSS" then "J" + RemoveColons(DropLast(rastr)) + RemoveColons(DropLast(decstr)) else n
  }

  /** `'{:20}'.format(s)`: left-justified, padded with spaces to at least `w`. */
  function PadRight(s: string, w: nat): (r: string)
    ensures |r| >= w && |r| >= |s|
    ensures forall k :: 0 <= k < |s| ==> r[k] == s[k]
    ensures forall k :: |s| <= k < |r| ==> r[k] == ' '
  {
    if |s| < w then s + Repeat(' ', w - |s|) else s
  }

  /** The five space-separated fields of a catalog line. */
  function RenderLine(i: int, name: string, rastr: string, decstr: string, code: string): string {
    FormatId(i) + " " + PadRight(DisplayName(name, rastr, decstr), 20) + " " + rastr + " " + decstr + " " + code
  }

  /** `_whydra_file_line` as written: the code guard is the substring test
      `code not in 'COSFE'`, which also lets through the empty code and
      runs of several letters such as `"CO"`. */
  function WhydraFileLineAsWritten(i: int, name: string, rastr: string, decstr: string, code: string)
    : (r: Result<string, string>)
    ensures r.Success? <==> i <= 9999 && Contains("COSFE", code)
    ensures r.Success? ==> StartsWith(r.value, FormatId(i) + " ")
  {
    if i > 9999 then Failure("i too large: " + IntToString(i))
    else if !Contains("COSFE", code) then Failure("invalid whydra line code " + code)
    else Success(RenderLine(i, name, rastr, decstr, code))
  }

  /** `_whydra_file_line` with the guard it evidently intends: the code must
      be one of the five single letters. */
  function WhydraFileLine(i: int, name: string, rastr: string, decstr: string, code: string)
    : (r: Result<string, string>)
    ensures r.Success? <==> i <= 9999 && ValidCode(code)
    ensures r.Success? ==> StartsWith(r.value, FormatId(i) + " ")
  {
    if i > 9999 then Failure("i too large: " + IntToString(i))
    else if !ValidCode(code) then Failure("invalid whydra line code " + code)
    else Success(RenderLine(i, name, rastr, decstr, code))
  }

  /** Every code the corrected guard accepts, the substring guard accepts
      too; the converse fails for the empty code. */
  lemma ValidCodeIsSubstring(code: string)
    requires ValidCode(code)
    ensures Contains("COSFE", code)
  {
    var s := "COSFE";
    if code == "C" { assert OccursAt(s, code, 0); }
    else if code == "O" { assert OccursAt(s, code, 1); }
    else if code == "S" { assert OccursAt(s, code, 2); }
    else if code == "F" { assert OccursAt(s, code, 3); }
    else { assert OccursAt(s, code, 4); }
    assert IndexFrom(s, code, 0).Some?;
  }

  // ------------------------------------------------------------ reading the catalog back

  /** The fields `reprocess_master_catalog` keeps of a catalog line. */
  datatype CatalogLine = CatalogLine(id: int, name: string, code: string, text: string)

  /** One master catalog line read back: the identifier from the first
      field, the name from the second, the code from the fifth. A line with
      a non-integer first field, or with fewer than five fields, raises. */
  function ReadCatalogLine(l: string): (r: Result<CatalogLine, string>)
    ensures r.Success? <==> |Words(l)| >= 5 && ParseInt(Words(l)[0]).Some?
    ensures r.Success? ==> r.value.text == l && Some(r.value.id) == ParseInt(Words(l)[0])
                           && r.value.name == Words(l)[1] && r.value.code == Words(l)[4]
  {
    var ls := Words(l);
    if |ls| == 0 then Failure("list index out of range")
    else
      match ParseInt(ls[0])
      case None => Failure("invalid literal for int(): " + ls[0])
      case Some(id) =>
        if |ls| < 5 then Failure("list index out of range")
        else Success(CatalogLine(id, ls[1], ls[4], l))
  }

  /** The display name is a single non-empty field when the name and the
      formatted coordinates are. */
  lemma DisplayNameIsWord(name: string, rastr: string, decstr: string)
    requires |name| > 0 && SpaceFree(name) && SpaceFree(rastr) && SpaceFree(decstr)
    ensures |DisplayName(name, rastr, decstr)| > 0 && SpaceFree(DisplayName(name, rastr, decstr))
  {
    var n := TrimName(name);
    if n == "SDSS" {
      var a := RemoveColons(DropLast(rastr));
      var b := RemoveColons(DropLast(decstr));
      assert forall c :: c in a ==> c in rastr;
      assert forall c :: c in b ==> c in decstr;
      var d := "J" + a + b;
      forall k | 0 <= k < |d|
        ensures !IsSpace(d[k])
      {
        if k == 0 {
        } else if k < 1 + |a| {
          assert d[k] == a[k - 1];
          assert a[k - 1] in a;
        } else {
          assert d[k] == b[k - 1 - |a|];
          assert b[k - 1 - |a|] in b;
        }
      }
    }
  }

  /** The five fields of a rendered line, split back on whitespace: the
      padded name field is the name followed by spaces only. */
  lemma {:induction false} RenderedWords(fid: string, n: string, padded: string, rastr: string, decstr: string,
                                         code: string)
    requires |fid| > 0 && SpaceFree(fid) && |n| > 0 && SpaceFree(n)
    requires |padded| >= |n| && padded[..|n|] == n && AllSpaces(padded[|n|..])
    requires |rastr| > 0 && SpaceFree(rastr) && |decstr| > 0 && SpaceFree(decstr)
    requires SpaceFree(code)
    ensures Words(fid + " " + padded + " " + rastr + " " + decstr + " " + code)
            == [fid, n, rastr, decstr] + Words(code)
  {
    var tail := decstr + " " + code;
    var mid := rastr + " " + tail;
    var sep := padded[|n|..] + " ";
    var after := n + sep + mid;
    assert padded == n + padded[|n|..];
    assert fid + " " + padded + " " + rastr + " " + decstr + " " + code == fid + " " + after;
    assert AllSpaces(" ") && AllSpaces(sep);
    WordsCons(decstr, " ", code);
    WordsCons(rastr, " ", tail);
    WordsCons(n, sep, mid);
    WordsCons(fid, " ", after);
  }

  /** The fields of a rendered line with a one-word code, split back on
      whitespace. */
  lemma RenderedLineWords(i: int, name: string, rastr: string, decstr: string, code: string)
    requires |name| > 0 && SpaceFree(name)
    requires |rastr| > 0 && SpaceFree(rastr) && |decstr| > 0 && SpaceFree(decstr)
    requires |code| > 0 && SpaceFree(code)
    ensures Words(RenderLine(i, name, rastr, decstr, code))
            == [FormatId(i), DisplayName(name, rastr, decstr), rastr, decstr, code]
  {
    var n := DisplayName(name, rastr, decstr);
    DisplayNameIsWord(name, rastr, decstr);
    FormatIdRoundTrip(i);
    var padded := PadRight(n, 20);
    assert padded[..|n|] == n;
    WordsSingle(code);
    RenderedWords(FormatId(i), n, padded, rastr, decstr, code);
  }

  /** A line of five fields, the first an integer, reads as that integer,
      the second field and the fifth. */
  lemma ReadFiveWords(l: string, f: string, id: int, n: string, a: string, b: string, code: string)
    requires Words(l) == [f, n, a, b, code] && ParseInt(f) == Some(id)
    ensures ReadCatalogLine(l) == Success(CatalogLine(id, n, code, l))
  {
  }

  /** A rendered line reads back as its identifier, its display name and
      its code: what `construct_master_catalog` writes,
      `reprocess_master_catalog` parses, provided the name and the formatted
      coordinates contain no whitespace. */
  lemma LineReadsBack(i: int, name: string, rastr: string, decstr: string, code: string)
    requires i <= 9999 && ValidCode(code)
    requires |name| > 0 && SpaceFree(name)
    requires |rastr| > 0 && SpaceFree(rastr) && |decstr| > 0 && SpaceFree(decstr)
    ensures WhydraFileLine(i, name, rastr, decstr, code).Success?
    ensures var l := WhydraFileLine(i, name, rastr, decstr, code).value;
            ReadCatalogLine(l) == Success(CatalogLine(i, DisplayName(name, rastr, decstr), code, l))
  {
    var l := RenderLine(i, name, rastr, decstr, code);
    assert WhydraFileLine(i, name, rastr, decstr, code) == Success(l);
    RenderedLineWords(i, name, rastr, decstr, code);
    FormatIdRoundTrip(i);
    ReadFiveWords(l, FormatId(i), i, DisplayName(name, rastr, decstr), rastr, decstr, code);
  }

  /** The substring guard lets the empty code through, and the line it then
      renders has only four fields, so reading the catalog back raises. */
  lemma EmptyCodeBreaksReadBack(i: int, name: string, rastr: string, decstr: string)
    requires i <= 9999
    requires |name| > 0 && SpaceFree(name)
    requires |rastr| > 0 && SpaceFree(rastr) && |decstr| > 0 && SpaceFree(decstr)
    ensures WhydraFileLineAsWritten(i, name, rastr, decstr, "").Success?
    ensures ReadCatalogLine(WhydraFileLineAsWritten(i, name, rastr, decstr, "").value).Failure?
    ensures WhydraFileLine(i, name, rastr, decstr, "").Failure?
  {
    assert OccursAt("COSFE", "", 0);
    assert IndexFrom("COSFE", "", 0).Some?;
    var n := DisplayName(name, rastr, decstr);
    DisplayNameIsWord(name, rastr, decstr);
    FormatIdRoundTrip(i);
    var padded := PadRight(n, 20);
    assert padded[..|n|] == n;
    assert Words("") == [];
    RenderedWords(FormatId(i), n, padded, rastr, decstr, "");
  }

  /** The whole master catalog rendered line by line; the first line that
      raises stops it. */
  function MasterCatalogLines(es: seq<WhydraEntry>, raFmt: real -> string, decFmt: real -> string)
    : (r: Result<seq<string>, string>)
    ensures r.Success? <==> forall k :: 0 <= k < |es| ==> es[k].id <= 9999 && ValidCode(es[k].code)
    ensures r.Success? ==> (|r.value| == |es|
      && forall k :: 0 <= k < |es| ==>
           Success(r.value[k]) == WhydraFileLine(es[k].id, es[k].name, raFmt(es[k].ra), decFmt(es[k].dec), es[k].code))
  {
    var f := EntryLine(raFmt, decFmt);
    assert forall k :: 0 <= k < |es| ==>
             f(es[k]) == WhydraFileLine(es[k].id, es[k].name, raFmt(es[k].ra), decFmt(es[k].dec), es[k].code);
    MapAll(es, f)
  }

  /** The line of one entry, its coordinates formatted by `raFmt` and `decFmt`. */
  function EntryLine(raFmt: real -> string, decFmt: real -> string): WhydraEntry -> Result<string, string> {
    (e: WhydraEntry) => WhydraFileLine(e.id, e.name, raFmt(e.ra), decFmt(e.dec), e.code)
  }

  /** Writing the lines of `construct_master_catalog` never raises: every
      entry it numbers is accepted by the line check, one line per entry.
      The USNO/SDSS offset is an input here, so the ValueError the offset
      estimate can raise before any line is written is not covered. */
  lemma MasterCatalogRenders(host: Host, targets: seq<SdssObject>, fops: seq<UsnoStar>,
                             sky: seq<(real, real)>, dra: real, ddec: real,
                             raFmt: real -> string, decFmt: real -> string)
    ensures var es := MasterEntries(host, targets, fops, sky, dra, ddec);
            var r := MasterCatalogLines(es, raFmt, decFmt);
            r.Success? && |r.value| == 2 + Min(|targets|, MaxTargets) + Min(|fops|, MaxFops) + Min(|sky|, MaxSky)
  {
    MasterEntriesNumbering(host, targets, fops, sky, dra, ddec);
  }

  // ------------------------------------------------------------ hydra output

  /** The status of a `.hydra` line: the text after `STATUS=`, stripped;
      absent on lines without one. */
  function Status(l: string): Option<string> {
    if Contains(l, "STATUS=") then Some(Strip(SecondPiece(l, "STATUS="))) else None
  }

  /** One `.hydra` line: a line whose status is a fiber number and whose
      ninth field is the object code `O` queues its identifier and name for
      removal. Lines without a status, with status OK or EDGE, with any other
      non-integer status, with another code, or with a non-integer
      identifier (a warning in the source) queue nothing. A fiber line with
      fewer than nine fields raises. */
  function ReadHydraLine(l: string): (r: Result<Option<(int, string)>, string>)
    ensures r.Failure? <==> Status(l).Some? && Status(l).value != "OK" && Status(l).value != "EDGE"
                            && ParseInt(Status(l).value).Some? && |Words(l)| < 9
    ensures Status(l).None? || Status(l) == Some("OK") || Status(l) == Some("EDGE") ==> r == Success(None)
    ensures r.Success? && r.value.Some? <==>
              Status(l).Some? && Status(l).value != "OK" && Status(l).value != "EDGE"
              && ParseInt(Status(l).value).Some? && |Words(l)| >= 9 && Words(l)[8] == "O"
              && ParseInt(Words(l)[0]).Some?
    ensures r.Success? && r.value.Some? ==>
              Some(r.value.value.0) == ParseInt(Words(l)[0]) && r.value.value.1 == Words(l)[1]
  {
    match Status(l)
    case None => Success(None)
    case Some(status) =>
      if status == "OK" || status == "EDGE" then Success(None)
      else if ParseInt(status).None? then Success(None)
      else
        var ls := Words(l);
        if |ls| < 9 then Failure("list index out of range")
        else if ls[8] != "O" then Success(None)
        else
          match ParseInt(ls[0])
          case None => Success(None)
          case Some(id) => Success(Some((id, ls[1])))
  }

  /** The present values, in order. */
  function Somes<T(!new)>(xs: seq<Option<T>>): (r: seq<T>)
    ensures |r| <= |xs|
    ensures forall x :: x in r <==> Some(x) in xs
  {
    if |xs| == 0 then []
    else
      var rest := Somes(xs[1..]);
      assert forall y :: y in xs <==> y == xs[0] || y in xs[1..];
      if xs[0].Some? then [xs[0].value] + rest else rest
  }

  /** What one line adds to the removal queue: its entry, if it names one. */
  function LineQueue(line: string): seq<(int, string)> {
    var st := ReadHydraLine(line);
    if st.Success? && st.value.Some? then [st.value.value] else []
  }

  /** The removal queue of one `.hydra` file, in line order: the first
      failing line raises, every other line adds what it names. */
  function ReadHydraLines(lines: seq<string>): (r: Result<seq<(int, string)>, string>)
    ensures r.Success? <==> forall k :: 0 <= k < |lines| ==> ReadHydraLine(lines[k]).Success?
    ensures r.Success? ==> |r.value| <= |lines|
    ensures r.Success? ==> forall q :: q in r.value <==>
              exists k :: 0 <= k < |lines| && ReadHydraLine(lines[k]) == Success(Some(q))
  {
    match MapAll(lines, ReadHydraLine)
    case Failure(e) => Failure(e)
    case Success(qs) =>
      assert forall q :: Some(q) in qs <==> exists k :: 0 <= k < |lines| && ReadHydraLine(lines[k]) == Success(Some(q)) by {
        forall q ensures Some(q) in qs <==> exists k :: 0 <= k < |lines| && ReadHydraLine(lines[k]) == Success(Some(q)) {
          if Some(q) in qs {
            var k :| 0 <= k < |qs| && qs[k] == Some(q);
            assert ReadHydraLine(lines[k]) == Success(Some(q));
          }
        }
      }
      Success(Somes(qs))
  }

  /** The queue of a file is what its first line queues followed by the
      queue of the remaining lines: the entries stay in line order. */
  lemma HydraQueueInOrder(lines: seq<string>)
    ensures |lines| == 0 ==> ReadHydraLines(lines) == Success([])
    ensures ReadHydraLines(lines).Success? && |lines| > 0 ==>
              ReadHydraLines(lines[1..]).Success?
              && ReadHydraLines(lines).value == LineQueue(lines[0]) + ReadHydraLines(lines[1..]).value
  {
    if |lines| > 0 && ReadHydraLines(lines).Success? {
      MapAllCons(lines, ReadHydraLine);
      var qs := MapAll(lines, ReadHydraLine).value;
      assert qs[1..] == MapAll(lines[1..], ReadHydraLine).value;
    }
  }

  /** The sequences one after another. */
  function Concat<T(!new)>(xss: seq<seq<T>>): (r: seq<T>)
    ensures forall x :: x in r <==> exists f :: 0 <= f < |xss| && x in xss[f]
  {
    if |xss| == 0 then []
    else
      var rest := Concat(xss[1..]);
      assert forall f :: 1 <= f < |xss| ==> xss[f] == xss[1..][f - 1];
      xss[0] + rest
  }

  /** The removal queue of all `.hydra` files, file after file. */
  function ReadHydraFiles(files: seq<seq<string>>): (r: Result<seq<(int, string)>, string>)
    ensures r.Success? <==> forall f :: 0 <= f < |files| ==> ReadHydraLines(files[f]).Success?
    ensures r.Success? ==> forall q :: q in r.value <==>
              exists f :: 0 <= f < |files| && q in ReadHydraLines(files[f]).value
  {
    match MapAll(files, ReadHydraLines)
    case Failure(e) => Failure(e)
    case Success(qss) => Success(Concat(qss))
  }

  /** The removal queue is the first file's queue followed by the queue of
      the remaining files. */
  lemma HydraFilesInOrder(files: seq<seq<string>>)
    ensures |files| == 0 ==> ReadHydraFiles(files) == Success([])
    ensures ReadHydraFiles(files).Success? && |files| > 0 ==>
              ReadHydraFiles(files[1..]).Success?
              && ReadHydraFiles(files).value == ReadHydraLines(files[0]).value + ReadHydraFiles(files[1..]).value
  {
    if |files| > 0 && ReadHydraFiles(files).Success? {
      MapAllCons(files, ReadHydraLines);
      var qss := MapAll(files, ReadHydraLines).value;
      assert qss[1..] == MapAll(files[1..], ReadHydraLines).value;
    }
  }

  // ------------------------------------------------------------ removal

  /** Walks the keys in order; a key still in the queue is dropped and one
      copy of it leaves the queue (`list.remove`), any other key is kept. */
  function Remaining<K(==)>(keys: seq<K>, queue: multiset<K>): (keep: seq<bool>)
    ensures |keep| == |keys|
  {
    if |keys| == 0 then []
    else if keys[0] in queue then [false] + Remaining(keys[1..], queue - multiset{keys[0]})
    else [true] + Remaining(keys[1..], queue)
  }

  /** Reference definition: a key is kept exactly when the earlier copies of
      it already used up every queued copy. */
  lemma {:induction false} RemainingMeaning<K>(keys: seq<K>, queue: multiset<K>)
    ensures forall i :: 0 <= i < |keys| ==>
              (Remaining(keys, queue)[i] <==> multiset(keys[..i])[keys[i]] >= queue[keys[i]])
  {
    if |keys| > 0 {
      var x := keys[0];
      var rest := keys[1..];
      var q' := if x in queue then queue - multiset{x} else queue;
      RemainingMeaning(rest, q');
      var keep := Remaining(keys, queue);
      assert keep[1..] == Remaining(rest, q');
      forall i | 0 < i < |keys|
        ensures keep[i] <==> multiset(keys[..i])[keys[i]] >= queue[keys[i]]
      {
        PrefixCount(keys, i);
        assert keep[i] == keep[1..][i - 1];
        assert rest[i - 1] == keys[i];
      }
    }
  }

  /** The copies of `keys[i]` before position `i`, counted from the second key on. */
  lemma PrefixCount<K>(keys: seq<K>, i: nat)
    requires 0 < i < |keys|
    ensures multiset(keys[..i])[keys[i]] == multiset(keys[1..][..i - 1])[keys[i]] + (if keys[0] == keys[i] then 1 else 0)
  {
    assert keys[..i] == [keys[0]] + keys[1..][..i - 1];
  }

  /** One step of `Remaining` on multisets: a queued key cancels one queued
      copy, an unqueued one survives. */
  lemma TakeOutStep<K>(x: K, r: multiset<K>, queue: multiset<K>)
    ensures x in queue ==> r - (queue - multiset{x}) == (multiset{x} + r) - queue
    ensures x !in queue ==> multiset{x} + (r - queue) == (multiset{x} + r) - queue
  {
    if x in queue {
      forall y ensures (r - (queue - multiset{x}))[y] == ((multiset{x} + r) - queue)[y] {
        if y == x {
          assert (queue - multiset{x})[y] == queue[y] - 1;
        }
      }
    } else {
      forall y ensures (multiset{x} + (r - queue))[y] == ((multiset{x} + r) - queue)[y] {
        if y == x {
          assert queue[y] == 0;
        }
      }
    }
  }

  /** The kept keys are the catalog's keys with the queue taken out, as
      multisets: each queued entry removes at most one line, and only a line
      carrying its key. */
  lemma {:induction false} RemainingKeys<K>(keys: seq<K>, queue: multiset<K>)
    ensures multiset(Select(keys, Remaining(keys, queue))) == multiset(keys) - queue
  {
    if |keys| > 0 {
      var x := keys[0];
      var rest := keys[1..];
      var q' := if x in queue then queue - multiset{x} else queue;
      RemainingKeys(rest, q');
      var keep := Remaining(keys, queue);
      assert keep[1..] == Remaining(rest, q');
      var kept := Select(rest, Remaining(rest, q'));
      var first: seq<K> := if keep[0] then [x] else [];
      assert Select(keys, keep) == first + kept;
      assert keys == [x] + rest;
      assert multiset(keys) == multiset{x} + multiset(rest);
      TakeOutStep(x, multiset(rest), queue);
    }
  }

  /** At most one line is removed per queued entry. */
  lemma {:induction false} RemainingCount<K>(keys: seq<K>, queue: multiset<K>)
    ensures CountTrue(Remaining(keys, queue)) + |queue| >= |keys|
  {
    if |keys| > 0 {
      var x := keys[0];
      var q' := if x in queue then queue - multiset{x} else queue;
      RemainingCount(keys[1..], q');
      assert Remaining(keys, queue)[1..] == Remaining(keys[1..], q');
    }
  }

  predicate Distinct<T(==)>(s: seq<T>) {
    forall i, j :: 0 <= i < j < |s| ==> s[i] != s[j]
  }

  /** With distinct keys a key is kept exactly when it is not queued. */
  lemma RemainingDistinct<K>(keys: seq<K>, queue: multiset<K>)
    requires Distinct(keys)
    ensures forall i :: 0 <= i < |keys| ==> (Remaining(keys, queue)[i] <==> keys[i] !in queue)
  {
    RemainingMeaning(keys, queue);
    forall i | 0 <= i < |keys|
      ensures multiset(keys[..i])[keys[i]] == 0
    {
      assert keys[i] !in keys[..i];
    }
  }

  function Names(cat: seq<CatalogLine>): (ns: seq<string>)
    ensures |ns| == |cat| && forall k :: 0 <= k < |cat| ==> ns[k] == cat[k].name
  {
    seq(|cat|, k requires 0 <= k < |cat| => cat[k].name)
  }

  function Ids(cat: seq<CatalogLine>): (ids: seq<int>)
    ensures |ids| == |cat| && forall k :: 0 <= k < |cat| ==> ids[k] == cat[k].id
  {
    seq(|cat|, k requires 0 <= k < |cat| => cat[k].id)
  }

  function QueuedNames(queue: seq<(int, string)>): (ns: seq<string>)
    ensures |ns| == |queue| && forall k :: 0 <= k < |queue| ==> ns[k] == queue[k].1
  {
    seq(|queue|, k requires 0 <= k < |queue| => queue[k].1)
  }

  function QueuedIds(queue: seq<(int, string)>): (ids: seq<int>)
    ensures |ids| == |queue| && forall k :: 0 <= k < |queue| ==> ids[k] == queue[k].0
  {
    seq(|queue|, k requires 0 <= k < |queue| => queue[k].0)
  }

  /** Which catalog lines survive: matched on names when the names are all
      distinct, otherwise on identifiers. */
  function RemovalMask(cat: seq<CatalogLine>, queue: seq<(int, string)>): (keep: seq<bool>)
    ensures |keep| == |cat|
  {
    if Distinct(Names(cat)) then Remaining(Names(cat), multiset(QueuedNames(queue)))
    else Remaining(Ids(cat), multiset(QueuedIds(queue)))
  }

  /** With distinct names a line is removed exactly when its name is queued;
      otherwise the first lines with a queued identifier are removed, as many
      as it is queued; either way at most one line per queued entry. */
  lemma RemovalMaskMeaning(cat: seq<CatalogLine>, queue: seq<(int, string)>)
    ensures var keep := RemovalMask(cat, queue);
            Distinct(Names(cat)) ==>
              forall i :: 0 <= i < |cat| ==> (keep[i] <==> cat[i].name !in QueuedNames(queue))
    ensures var keep := RemovalMask(cat, queue);
            !Distinct(Names(cat)) ==>
              forall i :: 0 <= i < |cat| ==>
                (keep[i] <==> multiset(Ids(cat)[..i])[cat[i].id] >= multiset(QueuedIds(queue))[cat[i].id])
    ensures CountTrue(RemovalMask(cat, queue)) + |queue| >= |cat|
  {
    if Distinct(Names(cat)) {
      RemainingDistinct(Names(cat), multiset(QueuedNames(queue)));
      RemainingCount(Names(cat), multiset(QueuedNames(queue)));
    } else {
      RemainingMeaning(Ids(cat), multiset(QueuedIds(queue)));
      RemainingCount(Ids(cat), multiset(QueuedIds(queue)));
    }
  }

  /** The lines of a master catalog, as read. */
  function ReadCatalog(lines: seq<string>): (r: Result<seq<CatalogLine>, string>)
    ensures r.Success? <==> forall k :: 0 <= k < |lines| ==> ReadCatalogLine(lines[k]).Success?
    ensures r.Success? ==> (|r.value| == |lines|
      && forall k :: 0 <= k < |lines| ==> Success(r.value[k]) == ReadCatalogLine(lines[k]))
  {
    MapAll(lines, ReadCatalogLine)
  }

  /** `reprocess_master_catalog`: the master catalog lines, in order, minus
      the science targets the `.hydra` files already assigned a fiber. */
  function ReprocessMasterCatalog(catLines: seq<string>, hydraFiles: seq<seq<string>>)
    : (r: Result<seq<string>, string>)
    ensures r.Success? <==> ReadCatalog(catLines).Success? && ReadHydraFiles(hydraFiles).Success?
    ensures r.Success? ==>
              var cat := ReadCatalog(catLines).value;
              var queue := ReadHydraFiles(hydraFiles).value;
              r.value == Select(catLines, RemovalMask(cat, queue))
              && |catLines| - |r.value| <= |queue|
  {
    match ReadCatalog(catLines)
    case Failure(e) => Failure(e)
    case Success(cat) =>
      match ReadHydraFiles(hydraFiles)
      case Failure(e) => Failure(e)
      case Success(queue) =>
        RemovalMaskMeaning(cat, queue);
        Success(Select(catLines, RemovalMask(cat, queue)))
  }
}

=== FILE: wrappers.dfy ===
/** Absence and failure: the masked catalog cell and the raised exception of the
    original program become `Option` and `Result` values. */
module Wrappers {

  /** A catalog cell that is either present or masked. */
  datatype Option<+T> = None | Some(value: T) {

    /** The value, or `default` when the cell is masked. */
    function GetOr(default: T): T {
      match this
      case Some(v) => v
      case None => default
    }

    /** The cell transformed by `f`; a masked cell stays masked. */
    function Map<U>(f: T -> U): (r: Option<U>)
      ensures r.Some? <==> Some?
      ensures Some? ==> r.value == f(value)
    {
      match this
      case Some(v) => Some(f(v))
      case None => None
    }
  }

  /** The outcome of an operation that may raise. */
  datatype Result<+R, +E> = Success(value: R) | Failure(error: E) {

    predicate IsFailure() {
      Failure?
    }

    function PropagateFailure<U>(): Result<U, E>
      requires Failure?
    {
      Failure(error)
    }

    function Extract(): R
      requires Success?
    {
      value
    }
  }

  /** `f` applied to every element in order, stopping at the first element
      whose call fails: a loop over the elements that lets the first raised
      exception propagate. */
  function MapAll<A, B, E>(xs: seq<A>, f: A -> Result<B, E>): (r: Result<seq<B>, E>)
    ensures r.Success? <==> forall k :: 0 <= k < |xs| ==> f(xs[k]).Success?
    ensures r.Success? ==> |r.value| == |xs| && forall k :: 0 <= k < |xs| ==> f(xs[k]) == Success(r.value[k])
    ensures r.Failure? ==> exists k :: 0 <= k < |xs| && f(xs[k]) == Failure(r.error)
                                       && forall j :: 0 <= j < k ==> f(xs[j]).Success?
  {
    if |xs| == 0 then Success([])
    else
      match f(xs[0])
      case Failure(e) => Failure(e)
      case Success(y) =>
        var rest := MapAll(xs[1..], f);
        assert forall k :: 1 <= k < |xs| ==> xs[k] == xs[1..][k - 1];
        match rest
        case Failure(e) =>
          assert exists k :: 0 <= k < |xs| && f(xs[k]) == Failure(e) && forall j :: 0 <= j < k ==> f(xs[j]).Success? by {
            var k :| 0 <= k < |xs| - 1 && f(xs[1..][k]) == Failure(e) && forall j :: 0 <= j < k ==> f(xs[1..][j]).Success?;
            assert f(xs[k + 1]) == Failure(e);
          }
          Failure(e)
        case Success(ys) => Success([y] + ys)
  }

  /** A successful run over a non-empty sequence is the first value followed
      by the run over the rest. */
  lemma MapAllCons<A, B, E>(xs: seq<A>, f: A -> Result<B, E>)
    requires |xs| > 0 && MapAll(xs, f).Success?
    ensures MapAll(xs[1..], f).Success?
    ensures MapAll(xs, f).value == [f(xs[0]).value] + MapAll(xs[1..], f).value
  {
  }
}
